=== FILE: README.md ===
# slcb-docker plugin dock, modelled in Dafny

The dock lets Python 3 plugins run beside Streamlabs Chatbot, whose scripting host only
runs IronPython 2.7. It has three parts, and this project models each one:

- **The daemon** (`daemon/init.py`, `daemon/daemon/*.py`). This is an aiohttp server. It
  authenticates its client with a shared secret and a ping-pong challenge. It queues requests
  for the bot's host API (`put_request`), matches the client's acknowledgements to the waiting
  futures by nonce, loads plugins from directories, and dispatches chat events to plugin
  listeners. It exits when the client stops stamping its lockfile.
- **The adapter** (`DockMain_StreamlabsSystem.py`). This is the IronPython script inside the
  bot. It stamps a lockfile and launches the daemon with a kill code. It runs the auth
  handshake, polls the daemon every second, answers the daemon's host calls, forwards chat
  messages, and writes a "shim" script for every plugin so that the plugin's buttons and
  settings reach the daemon.
- **The shim template and the wraptor installer.** The shim forwards its buttons, settings and
  toggles to the adapter's commons module. The installer checks that a dock of a suitable
  version is installed.

Earlier versions of the daemon (`daemon/http.py`, `daemon/manager.py`,
`daemon/interface.py`) and of the adapter (`script/DockMain_StreamlabsSystem.py`) are
modelled beside the current ones, in the modules `OldHttp`, `OldManager`, `OldInterface` and
`OldAdapter`.

Objects whose fields the source updates in place are Dafny classes with `modifies` frames:

- the HTTP handler;
- plugins and the plugin manager;
- injectors and the plugin interface;
- the adapter's module state (`Session`, `OldSession`);
- the shim's globals;
- the installer's `isTested` flag.

Pure decisions are functions, and lemmas relate them. Among them:

- the acknowledgement matching loop;
- manifest checks and id resolution;
- status mapping;
- the daemon's exit rule;
- `replace` chains;
- version parsing and comparison.

Conventions used throughout the model:

- Decoded JSON is the `Json` datatype, and `JNull` also stands for Python's `None`.
- An exception is a result value (`raised`, `RequestRaised`, `Option`). The one exception is a constructor that cannot return a raise; its precondition is listed under "Left out".
- Python's `str.strip`, `str.split`, `str.join`, `str.replace`, `str(int)` and `int(str)` are
  written out in `Text`, with their round trips proved.
- What comes from the outside world is a parameter of the model: clock readings, file
  contents, host replies, random draws and fresh identifiers.

The model follows the code where the code and its documentation disagree. For example, the
documentation describes the ack route as a POST, but the code registers `GET /inbound-ack`,
and the adapter posts its acknowledgements to `inbound` instead (see "Findings").

## Model

| member | source | states |
|---|---|---|
| Http.AckStep | TMHK-docker/daemon/daemon/http.py:241-254 | one turn of the ack loop keeps the nonce registry consistent, only ever removes nonces, and is a no-op once the loop has failed |
| Http.AckFold | TMHK-docker/daemon/daemon/http.py:241-254 | the whole ack loop keeps the registry consistent and never adds a nonce |
| Http.AckMatches | TMHK-docker/daemon/daemon/http.py:241-254 | with every registered future pending, each acknowledged registered nonce leaves the registry and its future holds the first response naming it; the other nonces stay pending |
| Http.AckUnknownIgnored | TMHK-docker/daemon/daemon/http.py:245-247 | acknowledgements naming only unknown nonces change nothing |
| Http.AckFoldFailed | TMHK-docker/daemon/daemon/http.py:241-254 | after the loop has raised, the later acknowledgements are not looked at |
| Http.AckAfterExpiryFails | TMHK-docker/daemon/daemon/http.py:284-289 | an acknowledgement for a nonce whose wait timed out raises, and the pending nonce after it stays unanswered |
| Http.AckMessage | TMHK-docker/daemon/daemon/http.py:243-249 | builds a well-formed acknowledgement naming the given nonce |
| Http.KillCodeAsWritten | TMHK-docker/daemon/daemon/http.py:22 | with a two-word argv there is no kill code |
| Http.KillCode | TMHK-docker/daemon/daemon/http.py:22 | the kill code is the word after the script path |
| Http.KillRoute | TMHK-docker/daemon/daemon/http.py:170-193 | a shutdown is scheduled iff a non-empty kill code equals the `code` query; it answers 204 then, and 401 otherwise; it is graceful unless `graceful=0` |
| Http.KillAlwaysRefused | TMHK-docker/daemon/daemon/http.py:22 | as written, every kill request to a daemon launched with one argument gets 401; with the corrected code the matching code is accepted |
| Http.HttpHandler.constructor | TMHK-docker/daemon/daemon/http.py:29-40 | no secret, no auth state, no pending nonces and an empty queue |
| Http.HttpHandler.Setup | TMHK-docker/daemon/daemon/http.py:73-80 | the handler becomes ready, waiting for its client, and nothing else changes |
| Http.HttpHandler.StartService | TMHK-docker/daemon/daemon/http.py:82-102 | raises iff `setup` has not run; otherwise serving and pending the ping-pong |
| Http.HttpHandler.EndService | TMHK-docker/daemon/daemon/http.py:104-116 | a running server stops, the state becomes Closing and the secret is cleared; without a server it raises iff `error` |
| Http.HttpHandler.WaitForPingpong | TMHK-docker/daemon/daemon/http.py:118-128 | returns iff the auth is OK or the event is set; raises when not set up; times out only with a non-zero timeout |
| Http.HttpHandler.RouteAuth | TMHK-docker/daemon/daemon/http.py:133-144 | refuses with 401 when a truthy secret is stored; a missing `code` is a 500 with no change; otherwise stores the secret and answers a fresh challenge |
| Http.HttpHandler.RoutePingpong | TMHK-docker/daemon/daemon/http.py:146-168 | 401 on a bad header, 404 with no pending challenge and 500 for a body without `challenge`, none changing anything; the right answer sets AuthOK (204), a wrong one ClientServerMismatch (400), and both set the event |
| Http.HttpHandler.KillTask | TMHK-docker/daemon/daemon/http.py:180-193 | the scheduled task ends the service; an ungraceful kill raises at its exit |
| Http.HttpHandler.RouteEnsureAuth | TMHK-docker/daemon/daemon/http.py:195-199 | 204 iff the header is the stored secret, otherwise the 401 error |
| Http.HttpHandler.Outbound | TMHK-docker/daemon/daemon/http.py:202-209 | an authorised poll receives the queue in insertion order, the queue is emptied and the poll time recorded; an unauthorised one changes nothing |
| Http.HttpHandler.Inbound | TMHK-docker/daemon/daemon/http.py:211-218 | the payload is handed to the manager iff the request is authorised |
| Http.HttpHandler.InboundParse | TMHK-docker/daemon/daemon/http.py:220-231 | answers with the manager's text, or with the posted string when there is none; a 500 when neither exists |
| Http.HttpHandler.InboundButton | TMHK-docker/daemon/daemon/http.py:233-239 | 401 iff unauthorised; otherwise always 500 (the manager has no `handle_button`) |
| Http.HttpHandler.InboundLoadPlugin | TMHK-docker/daemon/daemon/http.py:256-265 | the manager is called with the directory and id iff authorised and both are present; the answer is always 500 once authorised |
| Http.HttpHandler.InboundReloadPlugin | TMHK-docker/daemon/daemon/http.py:267-276 | 401 iff unauthorised; otherwise always 500 |
| Http.HttpHandler.InboundAck | TMHK-docker/daemon/daemon/http.py:241-254 | the registry after the route is the ack loop's result over the posted list; a `response` that is the empty string or empty object is iterated zero times (204), any other non-list or a missing `response` is a 500, and both change nothing |
| Http.HttpHandler.PutRequest | TMHK-docker/daemon/daemon/http.py:278-283 | one new pending nonce, and its entry appended to the queue |
| Http.HttpHandler.ExpireAsWritten | TMHK-docker/daemon/daemon/http.py:284-289 | on expiry it raises TimeoutError, and the nonce stays registered with a cancelled future |
| Http.HttpHandler.Expire | TMHK-docker/daemon/daemon/http.py:284-289 | the intended expiry answers None and drops the nonce, keeping every remaining future pending |
| Http.RequestAnswered | TMHK-docker/daemon/daemon/http.py:278-291 | after `put_request` registers a fresh nonce among pending calls, an acknowledgement list that starts with that nonce and a value, followed by any well-formed acknowledgements, completes without raising, unregisters the nonce, resolves its future with that value, and the caller is answered that value |
| Http.HttpHandler.NotifyError | TMHK-docker/daemon/daemon/http.py:293-294 | appends exactly one `@error` notice, without a nonce |
| Http.HttpHandler.SendLog | TMHK-docker/daemon/daemon/http.py:296-297 | appends exactly one `@log` notice, without a nonce |
| Http.GuardedRoutesReject | TMHK-docker/daemon/daemon/http.py:195-276 | every guarded route refuses a request without the secret and hands nothing to the manager |
| Http.GuardAcceptsOnlySecret | TMHK-docker/daemon/daemon/http.py:133-144 | after the secret `c` is stored, exactly the header `c` passes; before, none does |
| Manager.Failing | TMHK-docker/daemon/daemon/manager.py:161-170 | the callbacks that raise are exactly the invoked ones in the raising set, in order |
| Manager.AddThenRemove | TMHK-docker/daemon/daemon/manager.py:72-87 | removing a table just added to one that held none of its callbacks gives the table back |
| Manager.FirstMissing | TMHK-docker/daemon/daemon/manager.py:33-43 | the first required manifest key that is absent; all keys before it are present |
| Manager.ResolveId | TMHK-docker/daemon/daemon/manager.py:105-114 | an existing store file gives the id; otherwise the supplied id is used; with neither, a fresh id is written to the store |
| Manager.ResolveIdAsWritten | TMHK-docker/daemon/daemon/manager.py:105-114 | as written: with a store file present, the supplied id (possibly None) is kept; without one, a supplied id makes the store read fail |
| Manager.StoreReadInverted | TMHK-docker/daemon/daemon/manager.py:112 | the written test loses the stored id and rejects a supplied one, where the intended resolution uses them |
| Manager.Check | TMHK-docker/daemon/daemon/manager.py:89-134 | the checks in order: manifest present, manifest readable, keys complete, `__init__.py` present, import works; passing yields the meta with the resolved id |
| Manager.StoreWritten | TMHK-docker/daemon/daemon/manager.py:105-114 | the store is written iff no id is stored or supplied, and then it holds the fresh id |
| Manager.FailureMessage | TMHK-docker/daemon/daemon/manager.py:26-30 | the load-failure text always starts with the script and the error; it is exactly that when the traceback is absent or empty, and otherwise that, one newline, and the whole traceback |
| Manager.LoadOutcome | TMHK-docker/daemon/daemon/manager.py:58-70 | loaded iff the checks pass and `init` does not raise; the id is the resolved one |
| Manager.ErrorReportOf | TMHK-docker/daemon/daemon/manager.py:143-159 | no report without an error listener; an empty list raises IndexError; one listener reports its reply; with several, the note is appended to a string reply (which includes every crashed handler's banner and trace), a list reply is extended by the note's characters, and any other reply raises TypeError |
| Manager.ErrorReportAsWritten | TMHK-docker/daemon/daemon/manager.py:159 | as written, no report ever reaches the queue |
| Manager.CallParseHook | TMHK-docker/daemon/daemon/manager.py:172-186 | the first `parse` listener runs iff there is one and the payload builds; its text, or the input string if it raises, is the result; a raise schedules the error listeners |
| Manager.ParseFallsBackToInput | TMHK-docker/daemon/daemon/manager.py:176-186 | without a hook, or when the hook raises, the parse result is the input string |
| Manager.Plugin.constructor | TMHK-docker/daemon/daemon/manager.py:46-56 | a fresh plugin has no config, no meta, no module, is disabled and has no listeners |
| Manager.Plugin.AddListeners | TMHK-docker/daemon/daemon/manager.py:72-77 | each event's callbacks are appended to its list |
| Manager.Plugin.RemoveListeners | TMHK-docker/daemon/daemon/manager.py:79-87 | each callback is removed once from its event's list; misses are skipped |
| Manager.Plugin.CallListeners | TMHK-docker/daemon/daemon/manager.py:161-170 | every callback of the event is invoked in order, and a raising one does not stop the rest |
| Manager.Plugin.EjectListeners | TMHK-docker/daemon/daemon/manager.py:136-138 | the `unload` callbacks run, then the table is emptied |
| Manager.Plugin.CallErrorListeners | TMHK-docker/daemon/daemon/manager.py:143-159 | as intended, a report (string, or a list reply extended by the note) is queued as exactly one `@error` notice for this plugin; otherwise the queue is unchanged |
| Manager.Plugin.TryLoad | TMHK-docker/daemon/daemon/manager.py:89-134 | the fields are assigned step by step as in the checks; the result is `Check`'s; the store written is `StoreWritten`'s |
| Manager.Plugin.Load | TMHK-docker/daemon/daemon/manager.py:58-70 | the result is `LoadOutcome`'s; a failed load leaves no listeners, and the `unload` callbacks it ran are exactly those of the table the failed `try_load` left (none when that table is empty); `config` and the module flag are as `try_load` left them |
| Manager.PluginManager.constructor | TMHK-docker/daemon/daemon/manager.py:190-192 | no plugins |
| Manager.PluginManager.LoadPlugin | TMHK-docker/daemon/daemon/manager.py:227-237 | a missing directory fails with its message; a loaded plugin is added under its id and nothing else changes |
| Manager.CharItems | TMHK-docker/daemon/daemon/manager.py:157 | `list += str` appends one one-character string per character, in order |
| Manager.PluginManager.HandleInbound | TMHK-docker/daemon/daemon/manager.py:201-209 | an execute payload schedules the callbacks of the enabled plugins; it raises exactly when `type` or `script_id` is missing or `script_id` is a list or object (unhashable) |
| Manager.PluginManager.HandleParse | TMHK-docker/daemon/daemon/manager.py:210-225 | a result only for type 1 payloads naming a known plugin and carrying data; for every such payload, the result is what that plugin's first parse hook gives (the input string when it has none) |
| Manager.PluginManager.ExecuteCallback | TMHK-docker/daemon/daemon/manager.py:194-200 | a raw payload reaches the `raw_message` listeners and a full one the `message` listeners, in order |
| Manager.InboundReachesNoPlugin | TMHK-docker/daemon/daemon/manager.py:201-209 | since no plugin is ever enabled, an execute payload reaches no plugin |
| Manager.ParseRouteFallsBack | TMHK-docker/daemon/daemon/manager.py:210-225 | a parse payload naming its plugin by `plugin_id` is answered with its own string |
| Interface.InjectorClass.constructor | TMHK-docker/daemon/daemon/interface.py:35-40 | a class starts with an empty listener table |
| Interface.InjectorClass.Listen | TMHK-docker/daemon/daemon/interface.py:53-62 | the decorated method becomes the class's listener for the event |
| Interface.InjectorClass.Instantiate | TMHK-docker/daemon/daemon/interface.py:38-45 | the class table gains the default `error` listener only when it has none |
| Interface.OnErrorReply | TMHK-docker/daemon/daemon/interface.py:64-65 | the default error listener answers with the traceback text |
| Interface.DefaultErrorReport | TMHK-docker/daemon/daemon/interface.py:64-65 | as intended (the default listener bound to its instance), a plugin with only the default error listener reports the bare traceback |
| Interface.OnErrorReplyAsWritten | TMHK-docker/daemon/daemon/interface.py:43 | calling the stored unbound `on_error` with `(event, error)` always raises |
| Interface.DefaultErrorReportAsWritten | TMHK-docker/daemon/daemon/manager.py:147-154 | as written, a plugin with only the default error listener always reports the crashed-handler banner followed by the TypeError of the call, never the plugin's traceback |
| Interface.Injector.constructor | TMHK-docker/daemon/daemon/interface.py:38-45 | the injector belongs to its class |
| Interface.Injector.SetupAsWritten | TMHK-docker/daemon/daemon/interface.py:47-48 | as written, `_setup` always raises TypeError |
| Interface.Injector.Setup | TMHK-docker/daemon/daemon/interface.py:47-48 | the class table is added to the plugin's listeners |
| Interface.Injector.Teardown | TMHK-docker/daemon/daemon/interface.py:50-51 | exactly the class table's listeners are removed from the plugin |
| Interface.Interface.constructor | TMHK-docker/daemon/daemon/interface.py:12-16 | no injectors attached |
| Interface.Interface.LoadInjectorAsWritten | TMHK-docker/daemon/daemon/interface.py:18-23 | as written, an attached injector is refused and any other raises TypeError |
| Interface.Interface.LoadInjector | TMHK-docker/daemon/daemon/interface.py:18-23 | an attached injector is refused with no change; otherwise it is attached once and its listeners are added |
| Interface.Interface.UnloadInjector | TMHK-docker/daemon/daemon/interface.py:25-31 | an attached injector is detached and its listeners removed; an unattached one raises ValueError |
| Interface.RemovedOnce | TMHK-docker/daemon/daemon/interface.py:25-31 | detaching from a list without repeats leaves no copy and no repeats |
| Interface.RemoveFirstWithin | TMHK-docker/daemon/daemon/interface.py:25-31 | detaching adds no injector |
| Common.MakeRawMessage | TMHK-docker/daemon/daemon/common.py:58-62 | a raw message builds iff `raw_data`, `source` and `service_type` are present, and then carries them |
| Common.MakeMessage | TMHK-docker/daemon/daemon/common.py:80-83 | a message builds iff the raw message does and `message`, `userid` and `username` are present |
| Common.MakeParseData | TMHK-docker/daemon/daemon/common.py:108-112 | the parse data builds iff its fields are present, with a target only for a truthy `targetid` |
| Common.ParseDataRoundTrip | TMHK-docker/daemon/daemon/common.py:91-112 | every parse record with a truthy target id is rebuilt exactly from its payload |
| DaemonInit.StampReadBack | TMHK-docker/daemon/init.py:111-123 | a stamp written as `str(t)` reads back as `t` |
| DaemonInit.ReadClientLockfile | TMHK-docker/daemon/init.py:111-123 | a missing file reads as None; otherwise the reading is exactly what `int` makes of the file's text (the explicit strip changes nothing) |
| DaemonInit.GarbageReadsAsNone | TMHK-docker/daemon/init.py:111-123 | any text without a digit (empty, blank or garbage) reads as None, like a missing file |
| DaemonInit.SinceUpdate | TMHK-docker/daemon/init.py:154 | zero without a stamp, otherwise the time since the stamp |
| DaemonInit.SincePoll | TMHK-docker/daemon/init.py:155 | sixty without a poll, otherwise the time since the poll |
| DaemonInit.NoStampNoExit | TMHK-docker/daemon/init.py:154-156 | without a readable stamp the daemon never exits |
| DaemonInit.ExitThresholds | TMHK-docker/daemon/init.py:156-160 | a polling client is given sixty seconds without a stamp, a silent one thirty |
| DaemonInit.Watch | TMHK-docker/daemon/init.py:151-162 | the loop breaks at the first pass whose readings meet the exit rule, and runs on when none does |
| DaemonInit.Startup | TMHK-docker/daemon/init.py:136-149 | the daemon runs iff the handshake reached AuthOK; otherwise the service is closed and the secret cleared |
| OldHttp.RegisterRoutes | TMHK-docker/daemon/http.py:23-28 | route registration succeeds iff every named handler is defined, and then registers each path in order |
| OldHttp.InitRaises | TMHK-docker/daemon/http.py:16-28 | as written, constructing the handler always raises AttributeError at the unload route |
| OldHttp.RoutesWithoutUnload | TMHK-docker/daemon/http.py:23-27 | without the unload route, the four paths whose handlers exist are registered |
| OldHttp.HttpHandler.constructor | TMHK-docker/daemon/http.py:16-28 | as intended (unload route left out): no secret, no nonces, empty queue, and the four existing handlers' paths registered |
| OldHttp.HttpHandler.Outbound | TMHK-docker/daemon/http.py:35-41 | an authorised poll receives the queue and empties it |
| OldHttp.HttpHandler.Inbound | TMHK-docker/daemon/http.py:43-51 | each posted message goes to the manager in order iff authorised |
| OldHttp.HttpHandler.InboundAck | TMHK-docker/daemon/http.py:53-66 | the posted list is matched against the registry as in the ack loop |
| OldHttp.HttpHandler.InboundLoadScript | TMHK-docker/daemon/http.py:68-73 | the manager is called iff authorised with both fields; the answer is always 500 once authorised |
| OldHttp.HttpHandler.PutRequest | TMHK-docker/daemon/http.py:76-83 | one new pending nonce and its queued entry |
| OldHttp.HttpHandler.Cancel | TMHK-docker/daemon/http.py:84-87 | a cancelled wait answers None and drops the nonce |
| OldHttp.HttpHandler.Expire | TMHK-docker/daemon/http.py:76-89 | a timed-out wait raises and keeps the nonce with a cancelled future |
| OldHttp.HttpHandler.NotifyError | TMHK-docker/daemon/http.py:91-92 | exactly one error notice is queued |
| OldHttp.ErrorNotice | TMHK-docker/daemon/http.py:91-92 | the notice has exactly `type: "error"` and the message |
| OldHttp.OldGuardClosed | TMHK-docker/daemon/http.py:36-37 | with the secret never set, every guarded route answers 401 |
| OldManager.PluginManager.constructor | TMHK-docker/daemon/manager.py:169-171 | no plugins |
| OldManager.PluginManager.LoadScript | TMHK-docker/daemon/manager.py:176-187 | as `load_plugin`: a missing directory fails, a loaded plugin is added under its id |
| OldManager.PluginManager.CallErrorListeners | TMHK-docker/daemon/manager.py:138-154 | the same report as today's, including a list reply extended by the note, queued as one old-style error notice; no report leaves the queue unchanged |
| OldInterface.Instantiate | TMHK-docker/daemon/interface.py:22-29 | the default `error` listener is added when missing; construction succeeds only without arguments |
| OldInterface.Listen | TMHK-docker/daemon/interface.py:34-44 | registering a listener always raises TypeError |
| OldInterface.Interface.constructor | TMHK-docker/daemon/interface.py:10-13 | the interface belongs to its plugin |
| OldInterface.Interface.SetInjector | TMHK-docker/daemon/interface.py:15-16 | the injector's class table is added to the plugin's listeners |
| Adapter.MapStatus | TMHK-docker/DockMain_StreamlabsSystem.py:211-262 | 204 is None, any other 2xx is the decoded body, anything else is the host's error text or raises |
| Adapter.DaemonRepliesSeen | TMHK-docker/DockMain_StreamlabsSystem.py:211-262 | a daemon reply with a body reaches the caller, as do a 204 and a refusal |
| Adapter.GenerateAuth | TMHK-docker/DockMain_StreamlabsSystem.py:266-269 | 32 characters, each the drawn letter or digit |
| Adapter.CheckNoDaemon | TMHK-docker/DockMain_StreamlabsSystem.py:297-314 | starting is refused iff the lockfile holds a number and the written comparison says so |
| Adapter.DaemonStampRule | TMHK-docker/DockMain_StreamlabsSystem.py:297-314 | against a stamp `t`, starting is allowed iff `t >= now - 30`; a stale stamp (`t < now - 30`) refuses it |
| Adapter.SourceCode | TMHK-docker/DockMain_StreamlabsSystem.py:391-413 | the source code is 3 or 4 exactly for whispers; Twitch is 0 or 3 and Discord is 1 |
| Adapter.Serialize | TMHK-docker/DockMain_StreamlabsSystem.py:391-413 | the payload has exactly the seven message fields and the source code |
| Adapter.SerializedNotAMessage | TMHK-docker/DockMain_StreamlabsSystem.py:391-413 | the daemon cannot build a message from that payload: it lacks `service_type` |
| Adapter.FillLeavesPlain | TMHK-docker/DockMain_StreamlabsSystem.py:617-623 | a line without `@` passes the replace chain unchanged |
| Adapter.OtherPlaceholderKept | TMHK-docker/DockMain_StreamlabsSystem.py:617-623 | replacing one placeholder leaves another one alone |
| Adapter.ShimNameKept | TMHK-docker/DockMain_StreamlabsSystem.py:617-623 | the `@` that the shim's name brings in is not taken for the commons placeholder |
| Adapter.FillOne | TMHK-docker/DockMain_StreamlabsSystem.py:617-623 | from any step on, a line holding one placeholder comes out with that placeholder's value |
| Adapter.PlaceholderFilled | TMHK-docker/DockMain_StreamlabsSystem.py:617-623 | a template line holding one placeholder comes out of the whole chain with the plugin's value in its place |
| Adapter.ShimConfig | TMHK-docker/DockMain_StreamlabsSystem.py:636-645 | the output-file default, overridden by the plugin's entries, and the debug options in debug mode |
| Adapter.CreateShim | TMHK-docker/DockMain_StreamlabsSystem.py:612-634 | a complete manifest gives the filled template, the shim's name and its config; a missing key raises |
| Adapter.KillReachesDaemon | TMHK-docker/DockMain_StreamlabsSystem.py:490-493 | the adapter's ungraceful kill is refused by the daemon as written and accepted by the corrected one |
| Adapter.ShimRequest | TMHK-docker/DockMain_StreamlabsSystem.py:647-701 | an untracked shim sends nothing; otherwise each callback's request, with the plugin's id and event type |
| Adapter.ShimEventsRaiseInDaemon | TMHK-docker/DockMain_StreamlabsSystem.py:647-701 | every forwarded shim event raises in the daemon's `handle_inbound` |
| Adapter.ErrorEvent | TMHK-docker/DockMain_StreamlabsSystem.py:364-375 | an `@error` event is never acknowledged; it is dropped only when it carries `message`, and it raises exactly when `message` is missing (tracked plugin or not), when plugins are tracked and `plugin_id` is missing, or when the plugin is untracked and the logged id field is missing |
| Adapter.EventAck | TMHK-docker/DockMain_StreamlabsSystem.py:356-387 | as intended, an event the host knows is acknowledged with its nonce and answer when its `args` can be spread (a list, string or object), and raises otherwise; an unknown type is acknowledged with an error; error notices are not, and one without `message` ends the poll |
| Adapter.HostCallsNeverAnswered | TMHK-docker/DockMain_StreamlabsSystem.py:382 | as written, building the acknowledgement for a host call raises |
| Adapter.UntrackedErrorNotice | TMHK-docker/DockMain_StreamlabsSystem.py:373 | as written, an error notice for an untracked plugin raises; as intended it is only logged |
| Adapter.AnswerMatchesRequest | TMHK-docker/DockMain_StreamlabsSystem.py:356-387 | as intended, a queued request is acknowledged with the fields the daemon's ack loop reads: a well-formed acknowledgement under the request's nonce, carrying the host's answer |
| Adapter.AcksPostedToInbound | TMHK-docker/DockMain_StreamlabsSystem.py:385-386 | as written, the acknowledgements go to `inbound`, which answers 204 and hands them to `handle_inbound`, which raises and schedules nothing |
| Adapter.BatchAnswersDaemon | TMHK-docker/DockMain_StreamlabsSystem.py:356-386 | as intended, the batch built for a queued host call, delivered to the daemon's ack loop, resolves that call with the host's answer and unregisters it, leaving every other call pending |
| Adapter.AckBatch | TMHK-docker/DockMain_StreamlabsSystem.py:356-387 | at most one acknowledgement per event, each with exactly nonce, response and error |
| Adapter.NoAcksWithoutAnswers | TMHK-docker/DockMain_StreamlabsSystem.py:356-387 | a batch with nothing to answer posts no acknowledgements |
| Adapter.RaisedStays | TMHK-docker/DockMain_StreamlabsSystem.py:356-387 | once the poll raised, the later events change nothing |
| Adapter.Restore | TMHK-docker/DockMain_StreamlabsSystem.py:174-193 | a restart file under a minute old restores the secret and kill code; an older one is dropped |
| Adapter.UnloadThenRestore | TMHK-docker/DockMain_StreamlabsSystem.py:448-456 | a reload within the minute gets back exactly what `Unload` saved |
| Adapter.FirstChallenge | TMHK-docker/DockMain_StreamlabsSystem.py:271-295 | the first auth reply carrying a challenge |
| Adapter.AuthPosts | TMHK-docker/DockMain_StreamlabsSystem.py:271-295 | the auth attempts all post the same secret |
| Adapter.FreshStampNoExit | TMHK-docker/DockMain_StreamlabsSystem.py:437-443 | a stamp at most 30 seconds old keeps the daemon's watch loop running |
| Adapter.Session.constructor | TMHK-docker/DockMain_StreamlabsSystem.py:174-193 | waiting for Init, clocks at load time, the restored secret or none |
| Adapter.Session.WriteStamp | TMHK-docker/DockMain_StreamlabsSystem.py:197-207 | the lockfile then reads back as the stamp |
| Adapter.StartupSent | TMHK-docker/DockMain_StreamlabsSystem.py:271-295 | the handshake's requests start with an auth post and end with the kill request iff no challenge came or the ping-pong was not answered with None |
| Adapter.StartupOutcome | TMHK-docker/DockMain_StreamlabsSystem.py:271-295 | the handshake ends in AuthOK iff a challenge came within five attempts and the ping-pong answered None, and in ClientServerMismatch iff no challenge came |
| Adapter.Session.DaemonStartup | TMHK-docker/DockMain_StreamlabsSystem.py:271-295 | up to five auth attempts with the secret until a challenge arrives, then the ping-pong; OK iff it succeeds |
| Adapter.Session.StartDaemon | TMHK-docker/DockMain_StreamlabsSystem.py:316-344 | a daemon is launched iff `check_no_daemon` allows it; a refused launch changes nothing, and a launch stores the new kill code and secret, sends exactly the handshake's requests and ends in the handshake's outcome |
| Adapter.Session.Init | TMHK-docker/DockMain_StreamlabsSystem.py:418-435 | stamps; a kept secret the daemon accepts skips the launch after one `authcheck` request; otherwise `start_daemon` runs, and the requests sent, the secret, the kill code and the auth state are stated on the launch and the refused-launch paths |
| Adapter.Session.PollDaemon | TMHK-docker/DockMain_StreamlabsSystem.py:346-387 | before the handshake only the poll time moves; afterwards the outbound reply is acknowledged as `AckBatch` builds it |
| Adapter.Session.Tick | TMHK-docker/DockMain_StreamlabsSystem.py:437-443 | the stamp is never more than 30 seconds old afterwards; polls at most once a second, and a poll changes the poll time, the requests sent and the raise exactly as `poll_daemon` does, so a second Tick within the second sends nothing |
| Adapter.Session.Execute | TMHK-docker/DockMain_StreamlabsSystem.py:445-446 | exactly one type-0 inbound post with the serialised message |
| Adapter.Session.ShimEvent | TMHK-docker/DockMain_StreamlabsSystem.py:647-701 | a tracked shim's callback sends exactly its request; an untracked one sends nothing |
| Adapter.Session.UnloadRecord | TMHK-docker/DockMain_StreamlabsSystem.py:448-456 | the record written at `t` restores the current secret and kill code at `t` |
| OldAdapter.PreReleaseCheck | TMHK-docker/script/DockMain_StreamlabsSystem.py:22 | reading an unbound name raises NameError; otherwise the check is whether the version ends in `a`, `b` or `rc` |
| OldAdapter.ModuleLoadAsWritten | TMHK-docker/script/DockMain_StreamlabsSystem.py:17-22 | as written, loading the module raises NameError, because the check reads `version` and only `Version` is bound |
| OldAdapter.ModuleLoads | TMHK-docker/script/DockMain_StreamlabsSystem.py:17-22 | reading `Version`, the check passes and finds the pre-release suffix |
| OldAdapter.OldMapStatus | TMHK-docker/script/DockMain_StreamlabsSystem.py:200-243 | only a 204 returns (None); every other reply raises |
| OldAdapter.OldRepliesLost | TMHK-docker/script/DockMain_StreamlabsSystem.py:216 | replies with a body and refusals raise in the old adapter, where the current one receives them |
| OldAdapter.OldHandshakeNeverSucceeds | TMHK-docker/script/DockMain_StreamlabsSystem.py:247-263 | the old adapter never sees a challenge |
| OldAdapter.OldSerialize | TMHK-docker/script/DockMain_StreamlabsSystem.py:322-345 | today's payload plus the service type |
| OldAdapter.OldPayloadIsMessage | TMHK-docker/script/DockMain_StreamlabsSystem.py:322-345 | the daemon builds a full message from the old payload |
| OldAdapter.OldEventAck | TMHK-docker/script/DockMain_StreamlabsSystem.py:299-318 | every event is acknowledged or raises |
| OldAdapter.OldAckBatch | TMHK-docker/script/DockMain_StreamlabsSystem.py:299-318 | one acknowledgement per event unless an event raised |
| OldAdapter.OldRaisedStays | TMHK-docker/script/DockMain_StreamlabsSystem.py:299-318 | once the old loop raised, later events change nothing |
| OldAdapter.KnownCallSinksBatch | TMHK-docker/script/DockMain_StreamlabsSystem.py:299-318 | a batch holding a call the host knows raises |
| OldAdapter.OldSession.constructor | TMHK-docker/script/DockMain_StreamlabsSystem.py:164-182 | the clock fields start as None |
| OldAdapter.OldSession.WriteStamp | TMHK-docker/script/DockMain_StreamlabsSystem.py:186-196 | the lockfile reads back as the stamp |
| OldAdapter.OldStartupSent | TMHK-docker/script/DockMain_StreamlabsSystem.py:247-263 | the old handshake's requests start with an auth post and end with the kill request iff the auth reply came back and either carried no challenge or the ping-pong was answered with something other than None |
| OldAdapter.OldStartupOutcome | TMHK-docker/script/DockMain_StreamlabsSystem.py:247-263 | the old handshake reaches AuthOK iff the challenge came and the ping-pong answered None, unless a raising request left an earlier AuthOK in place |
| OldAdapter.OldStartupRaised | TMHK-docker/script/DockMain_StreamlabsSystem.py:247-263 | a raising auth request makes the handshake raise, and a successful handshake never raises |
| OldAdapter.OldSession.DaemonStartup | TMHK-docker/script/DockMain_StreamlabsSystem.py:247-263 | one auth attempt; OK iff a challenge came and the ping-pong answered None |
| OldAdapter.OldSession.StartDaemon | TMHK-docker/script/DockMain_StreamlabsSystem.py:284-297 | one round: refused on a live daemon's lockfile with nothing changed; otherwise the new kill code and secret, exactly the handshake's requests, its auth state and whether it raised |
| OldAdapter.OldSession.Init | TMHK-docker/script/DockMain_StreamlabsSystem.py:350-356 | stamps; with a kept secret it only asks `auth-check`; otherwise `start_daemon`, with a refused launch leaving the secret and kill code alone and a launch sending exactly the handshake's requests |
| OldAdapter.OldSession.PollDaemon | TMHK-docker/script/DockMain_StreamlabsSystem.py:299-318 | before the handshake only the poll time moves; afterwards the outbound reply is acknowledged as `OldAckBatch` builds it |
| OldAdapter.OldSession.TickAsWritten | TMHK-docker/script/DockMain_StreamlabsSystem.py:358-364 | with the clock fields still None, every Tick raises |
| OldAdapter.OldSession.Execute | TMHK-docker/script/DockMain_StreamlabsSystem.py:366-367 | the chat payload goes to the parse route |
| Shim.Buttons | TMHK-docker/shim-template.py:51-56 | every button entry but `output_file` registers its function |
| Shim.ButtonsFromEntries | TMHK-docker/shim-template.py:51-56 | every registered function comes from a button entry, under that entry's name, and no later button entry names the same function (the last one wins) |
| Shim.DefaultOf | TMHK-docker/shim-template.py:58 | an entry's default is its `value` when present |
| Shim.Defaults | TMHK-docker/shim-template.py:58 | the defaults are exactly the entries carrying a `value`, under their names |
| Shim.PairOf | TMHK-docker/shim-template.py:59 | a non-pair string or a pair with an unhashable key makes `update` raise |
| Shim.PairsOf | TMHK-docker/shim-template.py:59 | `update` over a list succeeds iff every element is a pair |
| Shim.PairsOfKeys | TMHK-docker/shim-template.py:59 | the keys added are exactly the pairs' keys |
| Shim.PairsOfLastWins | TMHK-docker/shim-template.py:59 | each key holds the value of the last pair with that key |
| Shim.SavedUpdate | TMHK-docker/shim-template.py:45-59 | a saved object gives its entries; an empty string or list gives nothing; a list gives its pairs; any other string, number, boolean or null raises |
| Shim.Merge | TMHK-docker/shim-template.py:59 | saved values win over defaults, key by key |
| Shim.DefaultsExactly | TMHK-docker/shim-template.py:58 | a name has a default iff its entry carries a `value` |
| Shim.SavedWins | TMHK-docker/shim-template.py:58-59 | a saved value wins, and an unsaved default survives |
| Shim.ShimScript.constructor | TMHK-docker/shim-template.py:16-26 | the commons module is loaded iff the import works; nothing is delayed or registered |
| Shim.ShimScript.RegisterButtons | TMHK-docker/shim-template.py:51-56 | the registered buttons are `Buttons` of the config, or the loop raises at the first bad entry |
| Shim.ShimScript.Init | TMHK-docker/shim-template.py:38-61 | nothing without a config; otherwise buttons are registered and the defaults updated by the saved value are delayed; it raises exactly when an entry lacks a default it reads or `update` refuses the saved value |
| Shim.ShimScript.Tick | TMHK-docker/shim-template.py:63-77 | retries the import; once loaded, the delayed settings and state are forwarded once and cleared |
| Shim.ShimScript.PressButton | TMHK-docker/shim-template.py:28-36 | the button's function and name are forwarded iff the commons module is or becomes available |
| Shim.ShimScript.ReloadSettingsCall | TMHK-docker/shim-template.py:82-83 | forwarded iff the commons module is loaded, raising otherwise |
| Shim.ShimScript.ScriptToggledCall | TMHK-docker/shim-template.py:85-90 | forwarded when loaded, otherwise kept for the next Tick |
| Wraptor.ParseParts | ideal_plugin_look/wraptor_StreamlabsSystem.py:54-66 | every part is read as an integer, or None when one fails |
| Wraptor.ParseVersionString | ideal_plugin_look/wraptor_StreamlabsSystem.py:54-66 | a version is exactly three integer parts after stripping the markers |
| Wraptor.ThreePartsParse | ideal_plugin_look/wraptor_StreamlabsSystem.py:54-66 | three integer parts with a trailing marker read back as their values |
| Wraptor.VersionRoundTrip | ideal_plugin_look/wraptor_StreamlabsSystem.py:54-66 | every rendered three-part version, with any release marker, parses back to itself |
| Wraptor.LexLeTriple | ideal_plugin_look/wraptor_StreamlabsSystem.py:68-80 | the tuple comparison is major, then minor, then patch |
| Wraptor.LexLeTotal | ideal_plugin_look/wraptor_StreamlabsSystem.py:68-80 | the comparison is total and antisymmetric |
| Wraptor.LexLeTransitive | ideal_plugin_look/wraptor_StreamlabsSystem.py:68-80 | the comparison is transitive |
| Wraptor.Bounds | ideal_plugin_look/wraptor_StreamlabsSystem.py:68-80 | a constraint is a pair of parseable versions |
| Wraptor.MeetsConstraints | ideal_plugin_look/wraptor_StreamlabsSystem.py:68-80 | no constraint accepts; a single string is an inclusive minimum version; a range accepts what lies between its ends |
| Wraptor.RangeInclusive | ideal_plugin_look/wraptor_StreamlabsSystem.py:68-80 | both ends of a range are accepted |
| Wraptor.DigitRun | ideal_plugin_look/wraptor_StreamlabsSystem.py:106 | the longest leading run of digits |
| Wraptor.DottedRun | ideal_plugin_look/wraptor_StreamlabsSystem.py:106 | digits followed by a dot |
| Wraptor.MatchAt | ideal_plugin_look/wraptor_StreamlabsSystem.py:106 | a match yields three non-empty digit runs |
| Wraptor.FindVersion | ideal_plugin_look/wraptor_StreamlabsSystem.py:106 | a found version is three digit runs joined by dots |
| Wraptor.FoundVersionParses | ideal_plugin_look/wraptor_StreamlabsSystem.py:106-108 | whatever the search finds parses as a version |
| Wraptor.TestForDock | ideal_plugin_look/wraptor_StreamlabsSystem.py:82-115 | a running dock reports its version; a missing one is not found; a found file's version has three parts |
| Wraptor.Installer.constructor | ideal_plugin_look/wraptor_StreamlabsSystem.py:26 | untested, nothing installed or shown |
| Wraptor.Installer.Tick | ideal_plugin_look/wraptor_StreamlabsSystem.py:40-52 | the test runs once; an unsuitable or missing dock is installed or reported |
| Wraptor.DockVersionParses | TMHK-docker/DockMain_StreamlabsSystem.py:26 | the dock's own version string `0.1.0a` reads as 0.1.0 |
| Wraptor.MatchHeader | ideal_plugin_look/wraptor_StreamlabsSystem.py:106 | the pattern matches a `Version = "x.y.z` header |
| Wraptor.FindHeader | ideal_plugin_look/wraptor_StreamlabsSystem.py:106 | a file starting with such a header yields its version |
| Text.IntRoundTrip | TMHK-docker/daemon/init.py:117-120 | `int(str(n)) == n` |
| Text.ParseIntOfStripped | TMHK-docker/daemon/init.py:117-120 | stripping whitespace before `int()` does not change the result |
| Text.NoDigitsNoInt | TMHK-docker/daemon/init.py:119-123 | `int()` refuses every text without a decimal digit |
| Text.ParseIntIgnoresPadding | TMHK-docker/daemon/init.py:117-120 | trailing whitespace does not change what `int()` reads |
| Text.SplitJoin | ideal_plugin_look/wraptor_StreamlabsSystem.py:54-66 | splitting then joining gives the string back |
| Text.JoinSplit | ideal_plugin_look/wraptor_StreamlabsSystem.py:54-66 | joining separator-free parts then splitting gives the parts back |
| Text.ReplaceSkips | TMHK-docker/DockMain_StreamlabsSystem.py:617-623 | text before the first possible match passes `replace` untouched |
| Values.RemoveFirstCount | TMHK-docker/daemon/daemon/manager.py:79-87 | `list.remove` drops exactly one occurrence |
| Values.RemoveLast | TMHK-docker/daemon/daemon/manager.py:72-87 | removing what was just appended gives the list back |

## Left out

- I/O is not modelled. This covers files, sockets, aiohttp, `subprocess.Popen`, and the bot's `Parent.*` API. Lockfile and restart-file contents, host replies and daemon answers are parameters of the model instead.
- asyncio scheduling is not modelled. Tasks run at the point where they are scheduled, and waits are explicit outcome parameters. The one-second delay before a kill is not modelled.
- Randomness is not modelled. Secrets, kill codes, nonces, fresh ids and the eight-character shim id are parameters.
- Logging, message boxes and tracebacks are not modelled. A traceback is an opaque string.
- `importlib` is not modelled. Whether a plugin imports, and what its `init` registers or raises, are parameters.
- The thin host-API wrappers in `daemon/daemon/http.py` (lines 301-517) are not modelled. They only call `put_request`, which is modelled.
- `route_version` is not modelled. It answers fixed version text.
- Python's `int()` accepting `_` between digits is not modelled.
- Time is whole seconds. The adapter's float `time.time()` is taken as an integer.
- The new adapter's `ScriptToggled`, `ReloadSettings`, `atinit_search_scripts`, `onboard_script` and `init_commons` are not modelled. They scan directories, import modules and show dialogs.
- The new adapter's `_kill_daemon` is not modelled beyond the query it sends (`Adapter.KillReachesDaemon`).
- The daemon's exit after its watch loop is not modelled. As written, daemon/init.py:165 calls `graceful_shutdown(has_connection=False)`, but daemon/daemon/manager.py:249 defines `graceful_shutdown` without that parameter. The call therefore raises TypeError, and the daemon lockfile is not removed.
- Adapter.Session.DaemonStartup: a request that raises on the host side is not modelled. The host replies are given as decoded values.
- Adapter.Session.Init: a request that raises on the host side is not modelled. The host replies are given as decoded values.
- OldAdapter.OldSession.StartDaemon: models one round of the old `_start_daemon`. The old code recurses without a bound, so only whether another round would follow is recorded.
- The wraptor's `install_dock`, `pull_zip`, `extract_zip`, `install_zip` and `eradicate_self` are not modelled. They download and unpack files, and the model only counts installs.
- The shim's `Execute` is empty and is not modelled.
- `daemon/type/plugin.py` and the payload type declarations are not part of this model beyond the fields the code reads.
- Manager.Check: models the store read as intended (`Manager.ResolveId`), not as written (`Manager.StoreReadInverted`). It therefore does not capture the two inputs where they differ. With a store file and no supplied id, the written code gives the id None. With a supplied id and no store file, it raises FileNotFoundError. It also types `plugin.json` as an object of strings. A `plugin.json` that is valid JSON but not an object makes `cfg["name"]` raise TypeError, which neither `except KeyError` nor `load`'s `except PluginLoadFailed` catches, so it escapes `load_plugin`. The model cannot represent that input.
- Manager.LoadOutcome: uses the intended store read as `Manager.Check` does. It does not capture the None id or the FileNotFoundError of the written code. It also types `plugin.json` as an object of strings. A `plugin.json` that is valid JSON but not an object makes `cfg["name"]` raise TypeError, which neither `except KeyError` nor `load`'s `except PluginLoadFailed` catches, so it escapes `load_plugin`. The model cannot represent that input.
- Manager.Plugin.TryLoad: uses the intended store read as `Manager.Check` does. It does not capture the None id or the FileNotFoundError of the written code. It also types `plugin.json` as an object of strings. A `plugin.json` that is valid JSON but not an object makes `cfg["name"]` raise TypeError, which neither `except KeyError` nor `load`'s `except PluginLoadFailed` catches, so it escapes `load_plugin`. The model cannot represent that input.
- Manager.Plugin.Load: uses the intended store read as `Manager.Check` does. It does not capture the None id or the FileNotFoundError of the written code. It also types `plugin.json` as an object of strings. A `plugin.json` that is valid JSON but not an object makes `cfg["name"]` raise TypeError, which neither `except KeyError` nor `load`'s `except PluginLoadFailed` catches, so it escapes `load_plugin`. The model cannot represent that input.
- Manager.PluginManager.LoadPlugin: uses the intended store read as `Manager.Check` does. It does not capture the plugin being registered under a None id, or the FileNotFoundError escaping `load_plugin`. It also types `plugin.json` as an object of strings. A `plugin.json` that is valid JSON but not an object makes `cfg["name"]` raise TypeError, which neither `except KeyError` nor `load`'s `except PluginLoadFailed` catches, so it escapes `load_plugin`. The model cannot represent that input.
- OldManager.PluginManager.LoadScript: uses the intended store read as `Manager.Check` does. It does not capture the None id or the FileNotFoundError of the written code. It also types `plugin.json` as an object of strings. A `plugin.json` that is valid JSON but not an object makes `cfg["name"]` raise TypeError, which neither `except KeyError` nor `load`'s `except PluginLoadFailed` catches, so it escapes `load_plugin`. The model cannot represent that input.
- Adapter.Session.constructor: requires a restart file that `_State()` can read. A restart file without `t`, with a `t` that is neither an integer nor a boolean, or fresh but without `auth` or `killcode` makes the source's constructor raise. That raise is not modelled, because a constructor cannot return one (`Adapter.Restore` states it as `RestoreRaised`).
- OldAdapter.OldSession.constructor: has the same precondition on the restart file and the same reason as `Adapter.Session.constructor`. It also assumes that the module loaded. As written, the load raises NameError at the version check (`OldAdapter.ModuleLoadAsWritten`). Under the IronPython 2.7 host, `import secrets` also fails, since that module exists only from Python 3.6, and the file's `random.WichmannHill()` exists only in Python 2. The methods of `OldSession` describe the script as it would run once both were repaired.
- Shim.ShimScript.Init: models `update` with a list of two-item lists whose first item is a string, and with two-character strings. Python also accepts pairs whose key is a number, a boolean or null, and two-key objects used as pairs (key order). The model treats those as a raise, because its settings are keyed by strings and its objects carry no key order.
- Adapter.Session.StartDaemon: the secret and the kill code are parameters. That they are drawn by `Adapter.GenerateAuth` (32 letters or digits) is stated only by that function, not tied to this method.
- Adapter.Session.Init: the secret it may post is a parameter, as for `Adapter.Session.StartDaemon`.
- Interface.InjectorClass.Listen: gives each injector class its own table. In the source, `hasattr` also finds an inherited `__inject_listeners__`, and `@Injector.listen` binds `cls` to the class it is called on. A subclass therefore writes into its parent's dict, and all injector classes can share one dict. That aliasing is not modelled.
- Interface.InjectorClass.Instantiate: adds the default `"error"` entry to the class's own table only. In the source the shared dict means one class's default `on_error` is seen by every class that shares that dict.
- `Text.Whitespace` is the six ASCII whitespace characters. Python's `str.strip()` and `int()` also strip Unicode spaces and the separators `\x1c`-`\x1f` and `\x85`, which the model does not.
- `write_lockfile` in `daemon/init.py` is never called, so no daemon lockfile is written. `check_no_daemon` is modelled against whatever content the lockfile has.

Further behaviour of the source as written is modelled and stated, but not corrected:

- `check_no_daemon` allows a start for stamps no older than `now - 30` and refuses it for older ones (`Adapter.DaemonStampRule`). Its log text calls an old stamp "valid", which suggests the opposite intent.
- `inbound_load_plugin` unpacks three values from a two-value result, so it always answers 500.
- `handle_button` and `reload_plugin` do not exist on the manager, so those routes answer 500.
- The current `Execute` payload lacks `service_type` (`Adapter.SerializedNotAMessage`).
- Shim payloads name their plugin under `plugin_id`, while the daemon reads `script_id` (`Adapter.ShimEventsRaiseInDaemon`, `Manager.ParseRouteFallsBack`).
- No plugin is ever enabled (`Manager.InboundReachesNoPlugin`).
- `unload_injector` catches `KeyError`, but `list.remove` raises `ValueError`.
- `try_load` calls the plugin's `init` without awaiting it. The model treats `init`'s outcome as known.

## Findings

| source | as written | input that shows it | evidently intended | confidence | as-written member | corrected member |
|---|---|---|---|---|---|---|
| TMHK-docker/daemon/daemon/manager.py:112 | `elif ".__dock_store" not in files` reads the store file when it is absent | a plugin with a store file and no supplied id: the id is None; a supplied id and no store file: FileNotFoundError | read the store when it exists | high, not executed | Manager.StoreReadInverted | Manager.ResolveId |
| TMHK-docker/daemon/daemon/http.py:284-289 | `except asyncio.CancelledError` around `wait_for`, which raises TimeoutError on expiry | a request unanswered for 5 seconds, then acknowledged: the cancelled future's `set_result` raises and later acknowledgements are skipped | drop the nonce on timeout | high, not executed | Http.AckAfterExpiryFails | Http.HttpHandler.Expire |
| TMHK-docker/daemon/daemon/manager.py:159 | `notify_error(response)` where `notify_error` takes a plugin id and a message | any plugin error with one error listener: TypeError, nothing queued | pass the plugin id as well | high, not executed | Manager.ErrorReportAsWritten | Manager.Plugin.CallErrorListeners |
| TMHK-docker/daemon/daemon/interface.py:48 | `add_listeners(self, table)` where `add_listeners` takes one table | loading any injector: TypeError | pass only the table | high, not executed | Interface.Interface.LoadInjectorAsWritten | Interface.Interface.LoadInjector |
| TMHK-docker/daemon/daemon/http.py:22 | `sys.argv[2]` while the adapter launches `init.py <killcode>` | argv `["init.py", "k"]`: no kill code, so `kill?code=k` gets 401 | read `sys.argv[1]` | medium, not executed | Http.KillAlwaysRefused | Http.KillCode |
| TMHK-docker/DockMain_StreamlabsSystem.py:382 | a list is used as a dict key when an answer is acknowledged | any host call in the outbound queue: TypeError, so no acknowledgement is posted | acknowledge with the nonce and the answer | high, not executed | Adapter.HostCallsNeverAnswered | Adapter.AnswerMatchesRequest |
| TMHK-docker/DockMain_StreamlabsSystem.py:373 | `data["id"]` on an `@error` notice, which carries `plugin_id` | an error notice for an untracked plugin: KeyError | log by `plugin_id` | high, not executed | Adapter.UntrackedErrorNotice | Adapter.EventAck |
| TMHK-docker/script/DockMain_StreamlabsSystem.py:358-364 | `now - state.last_poll` while the clock fields start as None | the first Tick after Init: TypeError | start the clocks at load time | high, not executed | OldAdapter.OldSession.TickAsWritten | Adapter.Session.Tick |
| TMHK-docker/daemon/daemon/interface.py:43 | `cls.on_error` is stored unbound, and `call_error_listeners` calls it with `(event, error)` | any plugin error while the default listener is the only one: `self` is the event name, `exception` is missing, TypeError | store a listener that receives the event and the exception | high, not executed | Interface.DefaultErrorReportAsWritten | Interface.DefaultErrorReport |
| TMHK-docker/daemon/http.py:28 | registers `self.inbound_unload_script`, which the class does not define | constructing the handler at all: AttributeError, so the old daemon never starts | register only the routes whose handlers exist (the later handler comments this route out) | high, not executed | OldHttp.InitRaises | OldHttp.HttpHandler.constructor |
| TMHK-docker/DockMain_StreamlabsSystem.py:385 | the acknowledgements are posted to `inbound`, the route for bot payloads | any poll that answers a queued request: `handle_inbound` raises on the missing `type`, no future is resolved, and every `put_request` times out | post them to the ack route `inbound-ack` | high, not executed | Adapter.AcksPostedToInbound | Adapter.BatchAnswersDaemon |
| TMHK-docker/script/DockMain_StreamlabsSystem.py:22 | `version.endswith(...)` while the module binds only `Version` | loading the old adapter at all: NameError | read `Version` | high, not executed | OldAdapter.ModuleLoadAsWritten | OldAdapter.ModuleLoads |
| TMHK-docker/script/DockMain_StreamlabsSystem.py:216 | `resp["response"]` indexes the host's reply text as a dict | any 200 reply with a body: the request raises | decode the reply text as JSON | high, not executed | OldAdapter.OldRepliesLost | Adapter.MapStatus |

=== FILE: adapter.dfy ===
/** The bot-side adapter (TMHK-docker/DockMain_StreamlabsSystem.py): it starts the daemon
    and performs the handshake, stamps the client lockfile, polls the daemon for work and
    answers it, turns chat messages into payloads, writes plugin shims and forwards their
    events. Host calls (`Parent.*`), files and the clock are parameters here. */
module Adapter {
  import opened Wrappers
  import opened Values
  import opened Text
  import Http
  import Common
  import Manager
  import DaemonInit

  /** The adapter's own view of the handshake (`AuthState`). */
  datatype ClientAuth = WaitingForInit | PendingPingPong | PingPongFailed | ClientServerMismatch | AuthOK | Closing

  // ---- status mapping ----------------------------------------------------------------

  /** What the host's request call hands back once decoded: the status, the decoded
      `response` text (`None` when it is missing or is not JSON) and the `error` field. */
  datatype HostReply = HostReply(status: int, response: Option<Json>, error: Option<Json>)

  /** The Python value a request returns (`JNull` for `None`), or the exception it raises. */
  datatype Fetched = Got(value: Json) | RequestRaised

  /** `get_request`/`post_request`: 204 is `None`, any other 2xx the decoded response,
      anything else the error field. */
  function MapStatus(r: HostReply): (f: Fetched)
    ensures r.status == 204 ==> f == Got(JNull)
    ensures 200 <= r.status <= 299 && r.status != 204 ==>
      (f.Got? <==> r.response.Some?) && (f.Got? ==> f.value == r.response.value)
    ensures !(200 <= r.status <= 299) ==> (f.Got? <==> r.error.Some?) && (f.Got? ==> f.value == r.error.value)
  {
    if r.status == 204 then Got(JNull)
    else if 200 <= r.status <= 299 then
      if r.response.Some? then Got(r.response.value) else RequestRaised
    else if r.error.Some? then Got(r.error.value) else RequestRaised
  }

  /** How the host relays a daemon response: the status, the body as the `response` text,
      and its own `error` description. */
  function Relay(resp: Http.Response, hostError: Json): HostReply {
    HostReply(resp.status, if resp.body.JsonBody? then Some(resp.body.json) else None, Some(hostError))
  }

  /** What the daemon answers reaches the caller: a JSON body on success, `None` for an
      empty success, and the host's error for a refusal such as a failed authorization. */
  lemma DaemonRepliesSeen(status: int, body: Json, hostError: Json, message: string)
    requires 200 <= status <= 299 && status != 204
    ensures MapStatus(Relay(Http.Response(status, Http.JsonBody(body)), hostError)) == Got(body)
    ensures MapStatus(Relay(Http.Response(204, Http.NoBody), hostError)) == Got(JNull)
    ensures MapStatus(Relay(Http.JsonError(401, message), hostError)) == Got(hostError)
  {
  }

  /** The error text the host gives when the daemon cannot be reached. */
  const SendFailed := "An error occurred while sending the request."

  // ---- the shared secret ---------------------------------------------------------------

  const Alphabet := "abcdefghijklmnopqrstuvwxyzABCDEFGHIJKLMNOPQRSTUVWXYZ0123456789"

  /** `_generate_auth`: 32 characters drawn from the letters and digits; `draws` are the
      positions `random.choice` picks. */
  method GenerateAuth(draws: seq<nat>) returns (token: string)
    requires |draws| == 32 && forall k :: 0 <= k < 32 ==> draws[k] < |Alphabet|
    ensures |token| == 32
    ensures forall k :: 0 <= k < 32 ==> token[k] in Alphabet && token[k] == Alphabet[draws[k]]
  {
    token := "";
    var i := 0;
    while i < 32
      invariant 0 <= i <= 32 && |token| == i
      invariant forall k :: 0 <= k < i ==> token[k] == Alphabet[draws[k]]
    {
      token := token + [Alphabet[draws[i]]];
      i := i + 1;
    }
  }

  // ---- the daemon lockfile ----------------------------------------------------------------

  /** `check_no_daemon`: starting is refused only when the daemon lockfile holds an
      integer older than thirty seconds; no file, or unreadable text, allows it. */
  function CheckNoDaemon(lockfile: Option<string>, now: int): (ok: bool)
    ensures !ok <==> lockfile.Some? && ParseInt(Strip(lockfile.value, Whitespace)).Some?
                     && ParseInt(Strip(lockfile.value, Whitespace)).value < now - 30
  {
    if lockfile.None? then true
    else
      var t := ParseInt(Strip(lockfile.value, Whitespace));
      !(t.Some? && t.value < now - 30)
  }

  /** Against a lockfile written the daemon's way (`str(t)`), the rule refuses exactly the
      stale stamps and lets a fresh one through. */
  lemma DaemonStampRule(t: int, now: int)
    ensures CheckNoDaemon(Some(IntToString(t)), now) <==> t >= now - 30
  {
    DaemonInit.StampReadBack(t);
  }

  // ---- chat messages ----------------------------------------------------------------------

  /** What `serialize_data_payload` reads from the bot's message object. */
  datatype BotMessage = BotMessage(
    user: Json, userName: Json, message: Json, isChat: bool, rawData: Json, isRaw: bool,
    whisper: bool, twitch: bool, discord: bool, serviceType: Json)

  /** The message-source code. */
  function SourceCode(whisper: bool, twitch: bool, discord: bool): (code: int)
    ensures 0 <= code <= 4
    ensures code >= 3 <==> whisper
    ensures whisper ==> (code == 3 <==> twitch)
    ensures !whisper ==> (code == 0 <==> twitch) && (code == 1 <==> !twitch && discord)
  {
    if whisper then (if twitch then 3 else 4)
    else if twitch then 0
    else if discord then 1
    else 2
  }

  /** `serialize_data_payload`: the message fields and the source code, without the
      service type. */
  function Serialize(d: BotMessage): (p: Json)
    ensures p.JObj? && p.fields.Keys == {"userid", "username", "message", "is_chat", "raw_data", "is_raw", "source"}
    ensures p.fields["source"] == JInt(SourceCode(d.whisper, d.twitch, d.discord))
  {
    JObj(map[
      "userid" := d.user, "username" := d.userName, "message" := d.message,
      "is_chat" := JBool(d.isChat), "raw_data" := d.rawData, "is_raw" := JBool(d.isRaw),
      "source" := JInt(SourceCode(d.whisper, d.twitch, d.discord))])
  }

  /** The daemon cannot build a message from this payload: it has no `service_type`. */
  lemma SerializedNotAMessage(d: BotMessage)
    ensures Common.MakeMessage(Serialize(d)).None?
  {
  }

  // ---- shims -------------------------------------------------------------------------------

  const Placeholders: seq<string> := ["@name", "@description", "@author", "@version", "@shim_name", "@dock_common_module"]

  /** The chain of `replace` calls, one placeholder after the other. */
  function FillFrom(s: string, ps: seq<string>, vs: seq<string>): string
    requires |ps| == |vs| && forall k :: 0 <= k < |ps| ==> ps[k] != []
    decreases |ps|
  {
    if ps == [] then s else FillFrom(Replace(s, ps[0], vs[0]), ps[1..], vs[1..])
  }

  /** The name of a new shim: a fixed prefix and eight characters of a fresh identifier. */
  function ShimName(id8: string): string {
    "dockmanaged@" + id8
  }

  /** The text of a shim: the template with the plugin's name, description, author and
      version, the shim's name and the commons module filled in. */
  function FillTemplate(template: string, name: string, description: string, author: string, version: string, shim: string): string {
    FillFrom(template, Placeholders, [name, description, author, version, shim, "dock_common"])
  }

  predicate NoAt(s: string) { '@' !in s }

  lemma {:induction false} FillLeavesPlain(s: string, ps: seq<string>, vs: seq<string>)
    requires |ps| == |vs| && forall k :: 0 <= k < |ps| ==> ps[k] != [] && ps[k][0] == '@'
    requires NoAt(s)
    ensures FillFrom(s, ps, vs) == s
    decreases |ps|
  {
    if ps != [] {
      ReplaceAbsent(s, ps[0], vs[0]);
      FillLeavesPlain(s, ps[1..], vs[1..]);
    }
  }

  /** An `@`-word between `@`-free texts is replaced once. */
  lemma ReplaceOwn(a: string, p: string, t: string, v: string)
    requires p != [] && p[0] == '@' && NoAt(a) && NoAt(t)
    ensures Replace(a + p + t, p, v) == a + v + t
  {
    ReplaceSkips(a, p + t, p, v);
    ReplaceFront(t, p, v);
    ReplaceAbsent(t, p, v);
    assert a + p + t == a + (p + t);
  }

  /** Every placeholder is an `@` and at least two more characters, none of them an `@`. */
  lemma PlaceholderShape(i: nat)
    requires i < |Placeholders|
    ensures |Placeholders[i]| >= 3 && Placeholders[i][0] == '@' && NoAt(Placeholders[i][1..])
  {
    if i == 0 {
    } else if i == 1 {
    } else if i == 2 {
    } else if i == 3 {
    } else if i == 4 {
    } else {
    }
  }

  /** The second and third characters of every placeholder. */
  const Tags: seq<string> := ["na", "de", "au", "ve", "sh", "do"]

  lemma PlaceholderTag(i: nat)
    requires i < |Placeholders|
    ensures |Placeholders[i]| >= 3 && Placeholders[i][1..3] == Tags[i]
  {
    if i == 0 {
    } else if i == 1 {
    } else if i == 2 {
    } else if i == 3 {
    } else if i == 4 {
    } else {
    }
  }

  /** Two different placeholders differ in their second or third character. */
  lemma PlaceholdersDiffer(i: nat, j: nat)
    requires i < |Placeholders| && j < |Placeholders| && i != j
    ensures |Placeholders[i]| >= 3 && Placeholders[i][0] == '@' && NoAt(Placeholders[i][1..])
    ensures |Placeholders[j]| >= 3 && Placeholders[j][0] == '@'
    ensures Placeholders[i][1] != Placeholders[j][1] || Placeholders[i][2] != Placeholders[j][2]
  {
    PlaceholderShape(i);
    PlaceholderShape(j);
    PlaceholderTag(i);
    PlaceholderTag(j);
    var p, q := Placeholders[i], Placeholders[j];
    assert p[1] == Tags[i][0] && p[2] == Tags[i][1];
    assert q[1] == Tags[j][0] && q[2] == Tags[j][1];
    assert Tags[i][0] != Tags[j][0] || Tags[i][1] != Tags[j][1];
  }

  /** Replacing one placeholder leaves an occurrence of another one alone. */
  lemma OtherPlaceholderKept(a: string, i: nat, j: nat, t: string, v: string)
    requires i < |Placeholders| && j < |Placeholders| && i != j
    requires NoAt(a) && NoAt(t)
    ensures Replace(a + Placeholders[i] + t, Placeholders[j], v) == a + Placeholders[i] + t
  {
    var p, q := Placeholders[i], Placeholders[j];
    PlaceholdersDiffer(i, j);
    ReplaceSkips(a, p + t, q, v);
    assert a + p + t == a + (p + t);
    PatternStays(p, q, t, v);
  }

  /** An `@`-word followed by `@`-free text is not taken for a different `@`-word. */
  lemma PatternStays(p: string, q: string, t: string, v: string)
    requires |p| >= 3 && |q| >= 3 && p[0] == '@' && q[0] == '@' && NoAt(p[1..]) && NoAt(t)
    requires p[1] != q[1] || p[2] != q[2]
    ensures Replace(p + t, q, v) == p + t
  {
    var u := p + t;
    if |u| >= |q| {
      assert !(q <= u) by {
        assert u[1] == p[1] && u[2] == p[2];
      }
      assert u[1..] == p[1..] + t;
      ReplaceAbsent(u[1..], q, v);
      assert u == [u[0]] + u[1..];
    }
  }

  /** Eight characters of a fresh identifier: lower-case hexadecimal digits. */
  predicate HexId(id8: string) {
    |id8| == 8 && forall k :: 0 <= k < 8 ==> id8[k] in "0123456789abcdef"
  }

  lemma AtIdKept(id8: string, t: string)
    requires NoAt(t) && HexId(id8)
    ensures Replace("@" + id8 + t, Placeholders[5], "dock_common") == "@" + id8 + t
  {
    var p := Placeholders[5];
    var u := "@" + id8 + t;
    assert NoAt(id8);
    if |u| >= |p| {
      assert !(p <= u) by {
        assert u[2] == id8[1] && p[2] == 'o';
      }
      assert u[1..] == id8 + t;
      ReplaceAbsent(u[1..], p, "dock_common");
      assert u == [u[0]] + u[1..];
    }
  }

  /** The `@` that the shim's own name brings in is not taken for the last placeholder. */
  lemma ShimNameKept(a: string, id8: string, t: string)
    requires NoAt(a) && NoAt(t) && HexId(id8)
    ensures FillFrom(a + ShimName(id8) + t, Placeholders[5..], ["dock_common"]) == a + ShimName(id8) + t
  {
    var p := Placeholders[5];
    assert Placeholders[5..] == [p];
    var u := "@" + id8 + t;
    var s := a + ShimName(id8) + t;
    assert s == (a + "dockmanaged") + u;
    assert NoAt(a + "dockmanaged");
    ReplaceSkips(a + "dockmanaged", u, p, "dock_common");
    AtIdKept(id8, t);
    assert FillFrom(s, [p], ["dock_common"]) == FillFrom(Replace(s, p, "dock_common"), [], []);
  }

  /** From the `k`-th replacement on, a line holding placeholder `i` once, and no other
      `@`, ends up with the `i`-th value in its place. */
  lemma {:induction false} FillOne(a: string, i: nat, t: string, k: nat, vs: seq<string>, id8: string)
    requires |vs| == |Placeholders| && k <= i < |Placeholders|
    requires NoAt(a) && NoAt(t) && HexId(id8)
    requires vs[4] == ShimName(id8) && vs[5] == "dock_common"
    requires forall m :: 0 <= m < |vs| && m != 4 ==> NoAt(vs[m])
    ensures FillFrom(a + Placeholders[i] + t, Placeholders[k..], vs[k..]) == a + vs[i] + t
    decreases i - k
  {
    if k == i {
      FillAt(a, i, t, vs, id8);
    } else {
      var s := a + Placeholders[i] + t;
      assert Placeholders[k..][0] == Placeholders[k] && Placeholders[k..][1..] == Placeholders[k + 1..];
      assert vs[k..][0] == vs[k] && vs[k..][1..] == vs[k + 1..];
      OtherPlaceholderKept(a, i, k, t, vs[k]);
      FillOne(a, i, t, k + 1, vs, id8);
    }
  }

  /** The replacement of placeholder `i` itself, and the later ones, which leave the
      value alone. */
  lemma FillAt(a: string, i: nat, t: string, vs: seq<string>, id8: string)
    requires |vs| == |Placeholders| && i < |Placeholders|
    requires NoAt(a) && NoAt(t) && HexId(id8)
    requires vs[4] == ShimName(id8) && vs[5] == "dock_common"
    requires forall m :: 0 <= m < |vs| && m != 4 ==> NoAt(vs[m])
    ensures FillFrom(a + Placeholders[i] + t, Placeholders[i..], vs[i..]) == a + vs[i] + t
  {
    var s := a + Placeholders[i] + t;
    var p := Placeholders[i];
    assert Placeholders[i..][0] == p && Placeholders[i..][1..] == Placeholders[i + 1..];
    assert vs[i..][0] == vs[i] && vs[i..][1..] == vs[i + 1..];
    PlaceholderShape(i);
    ReplaceOwn(a, p, t, vs[i]);
    if i == 4 {
      assert vs[5..] == ["dock_common"];
      ShimNameKept(a, id8, t);
    } else {
      assert NoAt(a + vs[i] + t);
      LaterPlaceholders(i + 1);
      FillLeavesPlain(a + vs[i] + t, Placeholders[i + 1..], vs[i + 1..]);
    }
  }

  lemma LaterPlaceholders(i: nat)
    requires i <= |Placeholders|
    ensures forall k :: 0 <= k < |Placeholders[i..]| ==> Placeholders[i..][k] != [] && Placeholders[i..][k][0] == '@'
  {
    forall k | 0 <= k < |Placeholders[i..]|
      ensures Placeholders[i..][k] != [] && Placeholders[i..][k][0] == '@'
    {
      PlaceholderShape(i + k);
    }
  }

  /** A template line such as `Creator = "@author"` comes out with the plugin's value in
      place of its placeholder, provided no value brings an `@` of its own. */
  lemma PlaceholderFilled(a: string, i: nat, t: string, name: string, description: string, author: string, version: string, id8: string)
    requires i < |Placeholders| && NoAt(a) && NoAt(t) && HexId(id8)
    requires NoAt(name) && NoAt(description) && NoAt(author) && NoAt(version)
    ensures var vs := [name, description, author, version, ShimName(id8), "dock_common"];
      FillTemplate(a + Placeholders[i] + t, name, description, author, version, ShimName(id8)) == a + vs[i] + t
  {
    var vs := [name, description, author, version, ShimName(id8), "dock_common"];
    FillOne(a, i, t, 0, vs, id8);
    assert Placeholders[0..] == Placeholders && vs[0..] == vs;
  }

  // ---- shim files ----------------------------------------------------------------------------

  const DebugOptions: map<string, Json> := map["@dock/debug-reload" := JObj(map[
    "type" := JStr("button"), "label" := JStr("Reload plugin"), "tooltip" := JStr(""),
    "function" := JStr("__dock_reload"), "wsevent" := JStr(""), "group" := JStr("Dock Debug")])]

  /** `write_shim_config`: the output-file entry, overridden by the plugin's own entries,
      overridden in turn by the debug button when debugging is on. */
  function ShimConfig(config: map<string, Json>, debug: bool): (conf: map<string, Json>)
    ensures conf.Keys == {"output_file"} + config.Keys + (if debug then DebugOptions.Keys else {})
    ensures debug ==> conf["@dock/debug-reload"] == DebugOptions["@dock/debug-reload"]
    ensures forall k :: k in config && !(debug && k in DebugOptions) ==> conf[k] == config[k]
    ensures "output_file" !in config ==> conf["output_file"] == JStr("shim-ui-settings.json")
  {
    map["output_file" := JStr("shim-ui-settings.json")] + config + (if debug then DebugOptions else map[])
  }

  /** What `create_shim` writes: the shim's name, its script, and its UI configuration
      when the plugin has one. */
  datatype ShimFiles = ShimFiles(name: string, script: string, uiConfig: Option<map<string, Json>>)

  predicate StrField(j: Json, key: string) { HasField(j, key) && j.fields[key].JStr? }

  /** `create_shim` for a plugin manifest; `None` where Python raises (a missing or
      non-string name, description, author or version; a configuration that is not an
      object; no `debug` key beside a configuration). */
  function CreateShim(template: string, metadata: Json, id8: string): (r: Option<ShimFiles>)
    ensures r.Some? ==>
      && StrField(metadata, "name") && StrField(metadata, "description")
      && StrField(metadata, "author") && StrField(metadata, "version")
      && r.value.name == ShimName(id8)
      && r.value.script == FillTemplate(template, metadata.fields["name"].s, metadata.fields["description"].s,
                                        metadata.fields["author"].s, metadata.fields["version"].s, ShimName(id8))
      && (r.value.uiConfig.Some? <==> HasField(metadata, "config") && Truthy(metadata.fields["config"]))
      && (r.value.uiConfig.Some? ==>
            && metadata.fields["config"].JObj? && HasField(metadata, "debug")
            && r.value.uiConfig.value == ShimConfig(metadata.fields["config"].fields, Truthy(metadata.fields["debug"])))
    ensures r.None? ==>
      || !(StrField(metadata, "name") && StrField(metadata, "description")
           && StrField(metadata, "author") && StrField(metadata, "version"))
      || (HasField(metadata, "config") && Truthy(metadata.fields["config"])
          && (!metadata.fields["config"].JObj? || !HasField(metadata, "debug")))
  {
    if !(StrField(metadata, "name") && StrField(metadata, "description")
         && StrField(metadata, "author") && StrField(metadata, "version")) then None
    else
      var f := metadata.fields;
      var name := ShimName(id8);
      var script := FillTemplate(template, f["name"].s, f["description"].s, f["author"].s, f["version"].s, name);
      if "config" in f && Truthy(f["config"]) then
        if !f["config"].JObj? || "debug" !in f then None
        else Some(ShimFiles(name, script, Some(ShimConfig(f["config"].fields, Truthy(f["debug"])))))
      else Some(ShimFiles(name, script, None))
  }

  // ---- requests to the daemon --------------------------------------------------------------

  /** A request the adapter sends: a GET or POST to a route, or the kill request with its
      code and graceful flag in the query string. */
  datatype Request = Get(route: string) | Post(route: string, payload: Json) | Kill(code: Json, graceful: bool)

  /** The query string of a kill request, for a kill code that is a string. */
  function KillQuery(code: string, graceful: bool): map<string, string> {
    map["code" := code, "graceful" := if graceful then "1" else "0"]
  }

  /** The daemon launched as `init.py <killcode>` refuses the adapter's ungraceful kill
      as written, and would run it if it read its kill code from the first argument. */
  lemma KillReachesDaemon(code: string)
    requires code != ""
    ensures Http.KillRoute(Http.KillCodeAsWritten(["init.py", code]), KillQuery(code, false)).1.None?
    ensures Http.KillRoute(Http.KillCode(["init.py", code]), KillQuery(code, false)) == (Http.Response(204, Http.NoBody), Some(false))
  {
  }

  /** A call from a shim into the commons module. */
  datatype ShimCall =
    | ButtonPress(action: string, uiName: string)
    | InitialSettingsCall(settings: Json)
    | SettingsReloadedCall(settings: Json)
    | ToggledCall(state: Json)
    | InitialStateCall(state: Json)

  /** The payload `type` each forwarded shim event carries. */
  function EventType(call: ShimCall): int
    requires !call.ButtonPress?
  {
    match call
    case InitialSettingsCall(_) => 5
    case SettingsReloadedCall(_) => 3
    case ToggledCall(_) => 2
    case InitialStateCall(_) => 6
  }

  /** The `shim_*` callbacks: a shim the adapter does not track is ignored; otherwise the
      event goes to the daemon under the plugin's id. `tracking` maps a shim name to its
      plugin's id. */
  function ShimRequest(tracking: map<string, Json>, shim: string, call: ShimCall): (r: Option<Request>)
    ensures r.None? <==> shim !in tracking
    ensures r.Some? ==>
      && r.value.Post? && HasField(r.value.payload, "plugin_id")
      && r.value.payload.fields["plugin_id"] == tracking[shim]
    ensures r.Some? && call.ButtonPress? ==>
      (r.value.route == "inbound/reload-plugin" <==> call.action == "__dock_reload")
    ensures r.Some? && call.ButtonPress? && call.action != "__dock_reload" ==>
      r.value.route == "inbound/button" && HasField(r.value.payload, "type")
      && r.value.payload.fields["type"] == JInt(4)
    ensures r.Some? && !call.ButtonPress? ==>
      r.value.route == "inbound" && HasField(r.value.payload, "type")
      && r.value.payload.fields["type"] == JInt(EventType(call))
  {
    if shim !in tracking then None
    else
      var sid := tracking[shim];
      match call
      case ButtonPress(action, uiName) =>
        if action == "__dock_reload" then Some(Post("inbound/reload-plugin", JObj(map["plugin_id" := sid])))
        else Some(Post("inbound/button", JObj(map[
          "plugin_id" := sid, "type" := JInt(4), "data" := JObj(map["element" := JStr(uiName)])])))
      case InitialSettingsCall(settings) => Some(Post("inbound", JObj(map["plugin_id" := sid, "type" := JInt(5), "data" := settings])))
      case SettingsReloadedCall(settings) => Some(Post("inbound", JObj(map["plugin_id" := sid, "type" := JInt(3), "data" := settings])))
      case ToggledCall(state) => Some(Post("inbound", JObj(map["plugin_id" := sid, "type" := JInt(2), "data" := state])))
      case InitialStateCall(state) => Some(Post("inbound", JObj(map["plugin_id" := sid, "type" := JInt(6), "data" := state])))
  }

  /** The forwarded shim events name their plugin under `plugin_id`, so the daemon's
      inbound handler, which reads `script_id`, raises on every one of them. */
  lemma ShimEventsRaiseInDaemon(m: Manager.PluginManager, tracking: map<string, Json>, shim: string, call: ShimCall)
    requires shim in tracking && !call.ButtonPress?
    ensures m.HandleInbound(ShimRequest(tracking, shim, call).value.payload).raised
  {
  }

  // ---- answering the daemon's requests -----------------------------------------------------

  /** How the daemon's `outbound` route serialises one queued entry. */
  function EntryJson(e: Http.Entry): Json {
    JObj(map["nonce" := (if e.nonce.Some? then JStr(e.nonce.value) else JNull), "data" := e.data])
  }

  /** What one polled event contributes: an acknowledgement, nothing, or an exception that
      ends the poll. */
  datatype EventResult = Ack(entry: Json) | NoAck | EventRaised

  /** An `@error` event: looked up among the tracked plugins' ids (the lookup reads
      `plugin_id` only when some plugin is tracked); the notice's `message` is logged in
      either case, and an unknown plugin is logged with its `idKey` field as well. */
  function ErrorEvent(data: Json, ids: set<Json>, idKey: string): (r: EventResult)
    requires data.JObj?
    ensures !r.Ack?
    ensures r == NoAck ==> HasField(data, "message")
    ensures r == EventRaised <==>
      || !HasField(data, "message")
      || (ids != {} && !HasField(data, "plugin_id"))
      || (!(ids != {} && data.fields["plugin_id"] in ids) && !HasField(data, idKey))
  {
    if ids != {} && !HasField(data, "plugin_id") then EventRaised
    else if ids != {} && data.fields["plugin_id"] in ids then
      if HasField(data, "message") then NoAck else EventRaised
    else if !HasField(data, idKey) || !HasField(data, "message") then EventRaised
    else NoAck
  }

  /** The acknowledgement for an event type the host lacks. */
  function UnknownTypeAck(nonce: Json, kind: string): Json {
    JObj(map["nonce" := nonce, "response" := JNull, "error" := JStr("Unable to find Event Type " + kind)])
  }

  /** One turn of the loop in `poll_daemon` as written: an unknown plugin's error is logged
      by `id`, which error notices do not carry, and a host call's result is stored under
      the list being built as a key, which raises TypeError. `answer` is what the host
      call returns. */
  function EventAckAsWritten(event: Json, answer: Json, ids: set<Json>, api: set<string>): (r: EventResult)
  {
    if !HasField(event, "data") || !HasField(event.fields["data"], "type") then EventRaised
    else
      var data := event.fields["data"];
      var kind := data.fields["type"];
      if kind == JStr("@error") then ErrorEvent(data, ids, "id")
      else if !kind.JStr? || !HasField(event, "nonce") then EventRaised
      else if kind.s !in api then Ack(UnknownTypeAck(event.fields["nonce"], kind.s))
      else EventRaised
  }

  /** Whether `f(*args)` accepts the value: any iterable (a list, a string spread into its
      characters, an object spread into its keys); a number, a boolean or `null` raises
      TypeError. */
  predicate Spreadable(args: Json) { args.JList? || args.JStr? || args.JObj? }

  /** The same turn as intended: the unknown plugin is logged by `plugin_id`, and the host
      call's result is stored under `"response"`. */
  function EventAck(event: Json, answer: Json, ids: set<Json>, api: set<string>): (r: EventResult)
    ensures r.Ack? ==>
      && HasField(event, "nonce") && HasField(event, "data") && HasField(event.fields["data"], "type")
      && event.fields["data"].fields["type"] != JStr("@error")
      && r.entry.JObj? && r.entry.fields.Keys == {"nonce", "response", "error"}
      && r.entry.fields["nonce"] == event.fields["nonce"]
    ensures
      && HasField(event, "data") && HasField(event.fields["data"], "type")
      && event.fields["data"].fields["type"] == JStr("@error")
      ==> !r.Ack?
    ensures
      && HasField(event, "data") && HasField(event.fields["data"], "type")
      && event.fields["data"].fields["type"] == JStr("@error")
      && !HasField(event.fields["data"], "message")
      ==> r == EventRaised
    ensures
      && HasField(event, "nonce") && HasField(event, "data") && HasField(event.fields["data"], "type")
      && event.fields["data"].fields["type"].JStr? && event.fields["data"].fields["type"].s !in api
      && event.fields["data"].fields["type"] != JStr("@error")
      ==> r == Ack(UnknownTypeAck(event.fields["nonce"], event.fields["data"].fields["type"].s))
    ensures
      && HasField(event, "nonce") && HasField(event, "data") && HasField(event.fields["data"], "type")
      && event.fields["data"].fields["type"].JStr? && event.fields["data"].fields["type"].s in api
      && event.fields["data"].fields["type"] != JStr("@error")
      && HasField(event.fields["data"], "args") && Spreadable(event.fields["data"].fields["args"])
      ==> r == Ack(JObj(map["nonce" := event.fields["nonce"], "response" := answer, "error" := JNull]))
    ensures
      && HasField(event, "nonce") && HasField(event, "data") && HasField(event.fields["data"], "type")
      && event.fields["data"].fields["type"].JStr? && event.fields["data"].fields["type"].s in api
      && event.fields["data"].fields["type"] != JStr("@error")
      && !(HasField(event.fields["data"], "args") && Spreadable(event.fields["data"].fields["args"]))
      ==> r == EventRaised
  {
    if !HasField(event, "data") || !HasField(event.fields["data"], "type") then EventRaised
    else
      var data := event.fields["data"];
      var kind := data.fields["type"];
      if kind == JStr("@error") then ErrorEvent(data, ids, "plugin_id")
      else if !kind.JStr? || !HasField(event, "nonce") then EventRaised
      else if kind.s !in api then Ack(UnknownTypeAck(event.fields["nonce"], kind.s))
      else if !HasField(data, "args") || !Spreadable(data.fields["args"]) then EventRaised
      else Ack(JObj(map["nonce" := event.fields["nonce"], "response" := answer, "error" := JNull]))
  }

  /** As written, no request for a host call is ever answered: building its
      acknowledgement raises. */
  lemma HostCallsNeverAnswered(event: Json, answer: Json, ids: set<Json>, api: set<string>)
    requires HasField(event, "data") && HasField(event.fields["data"], "type")
    requires event.fields["data"].fields["type"].JStr? && event.fields["data"].fields["type"].s in api
    requires event.fields["data"].fields["type"] != JStr("@error")
    ensures EventAckAsWritten(event, answer, ids, api) == EventRaised
  {
  }

  /** As written, the daemon's error notice for a plugin the adapter does not track makes
      the poll raise; as intended it is only logged. */
  lemma UntrackedErrorNotice(pluginId: string, message: Json, answer: Json, ids: set<Json>, api: set<string>)
    requires JStr(pluginId) !in ids
    ensures EventAckAsWritten(EntryJson(Http.Entry(None, Http.Notice("@error", pluginId, message))), answer, ids, api) == EventRaised
    ensures EventAck(EntryJson(Http.Entry(None, Http.Notice("@error", pluginId, message))), answer, ids, api) == NoAck
  {
  }

  /** As intended, the answer to a queued request is acknowledged in the form the daemon's
      acknowledgement route matches, under the request's nonce, with the host's answer. */
  lemma AnswerMatchesRequest(nonce: string, kind: string, args: seq<Json>, answer: Json, ids: set<Json>, api: set<string>)
    requires kind in api && kind != "@error"
    ensures var e := EntryJson(Http.Entry(Some(nonce), JObj(map["type" := JStr(kind), "args" := JList(args)])));
      var r := EventAck(e, answer, ids, api);
      && r.Ack? && Http.WellFormedAck(r.entry)
      && Http.AckNonce(r.entry) == nonce && r.entry.fields["response"] == answer
  {
  }

  /** As written, the acknowledgements are posted to `inbound`: the route answers 204 and
      hands the body to `handle_inbound`, which schedules nothing and raises on the missing
      `type`, so no waiting request of the daemon is ever resolved. */
  lemma AcksPostedToInbound(h: Http.HttpHandler, m: Manager.PluginManager, headers: Http.Headers, acks: seq<Json>)
    requires Http.Authorized(headers, h.auth)
    ensures var body := JObj(map["response" := JList(acks)]);
      && h.Inbound(headers, body) == (Http.Response(204, Http.NoBody), Some(body))
      && m.HandleInbound(body) == Manager.InboundResult({}, true)
  {
  }

  /** As intended, the batch a poll builds for a queued host call, delivered with the same
      `{"response": ...}` body to the daemon's acknowledgement loop (`InboundAck`), resolves
      that call's future with the host's answer and unregisters it, leaving every other
      registered call pending. */
  lemma BatchAnswersDaemon(nonces: set<string>, waiters: map<string, Http.Waiter>, n: string, kind: string,
                           args: seq<Json>, answer: Json, ids: set<Json>, api: set<string>)
    requires Http.Clean(nonces, waiters) && n in nonces
    requires kind in api && kind != "@error"
    ensures var e := EntryJson(Http.Entry(Some(n), JObj(map["type" := JStr(kind), "args" := JList(args)])));
      var b := AckBatch([e], [answer], ids, api);
      && !b.raised && |b.acks| == 1
      && Http.Registry(nonces, waiters)
      && var r := Http.AckFold(Http.AckState(nonces, waiters, false), b.acks);
         && !r.failed && r.nonces == nonces - {n} && r.waiters[n] == Http.Resolved(answer)
         && forall x :: x in nonces && x != n ==> r.waiters[x] == Http.Pending
  {
    var e := EntryJson(Http.Entry(Some(n), JObj(map["type" := JStr(kind), "args" := JList(args)])));
    AnswerMatchesRequest(n, kind, args, answer, ids, api);
    var a := EventAck(e, answer, ids, api);
    var b := AckBatch([e], [answer], ids, api);
    assert [e][..0] == [] && [answer][..0] == [];
    assert AckBatch([], [], ids, api) == Batch([], false);
    assert a.Ack?;
    assert b == Batch([] + [a.entry], false);
    var st := Http.AckState(nonces, waiters, false);
    Http.AckMatches(st, b.acks);
    assert Http.Acked(b.acks) == {n} by {
      assert Http.AckNonce(b.acks[0]) == n;
    }
  }

  /** The acknowledgements one poll builds, in order; `raised` when an event raised, which
      ends the poll with nothing sent. */
  datatype Batch = Batch(acks: seq<Json>, raised: bool)

  function AckBatch(events: seq<Json>, answers: seq<Json>, ids: set<Json>, api: set<string>): (b: Batch)
    requires |answers| == |events|
    ensures |b.acks| <= |events|
    ensures forall k :: 0 <= k < |b.acks| ==> b.acks[k].JObj? && b.acks[k].fields.Keys == {"nonce", "response", "error"}
    decreases |events|
  {
    if events == [] then Batch([], false)
    else
      var n := |events| - 1;
      var b := AckBatch(events[..n], answers[..n], ids, api);
      if b.raised then b
      else match EventAck(events[n], answers[n], ids, api)
        case Ack(e) => Batch(b.acks + [e], false)
        case NoAck => b
        case EventRaised => Batch(b.acks, true)
  }

  /** A batch of events of which none is answered (error notices, say) sends no
      acknowledgement at all. */
  lemma {:induction false} NoAcksWithoutAnswers(events: seq<Json>, answers: seq<Json>, ids: set<Json>, api: set<string>)
    requires |answers| == |events|
    requires forall k :: 0 <= k < |events| ==> !EventAck(events[k], answers[k], ids, api).Ack?
    ensures AckBatch(events, answers, ids, api).acks == []
    decreases |events|
  {
    if events != [] {
      var n := |events| - 1;
      NoAcksWithoutAnswers(events[..n], answers[..n], ids, api);
    }
  }

  // ---- restart state -------------------------------------------------------------------------

  /** What `_State` makes of the restart file. */
  datatype RestoreOutcome = NoRestartFile | Expired | Restored(auth: Json, killcode: Json) | RestoreRaised

  /** `_State.__init__`: a restart file less than a minute old gives back the secret and the
      kill code (and is removed); an older one is left in place and ignored. `None` for
      no file. */
  function Restore(now: int, restart: Option<Json>): (r: RestoreOutcome)
    ensures restart.None? <==> r == NoRestartFile
    ensures r.Restored? ==>
      && HasField(restart.value, "auth") && HasField(restart.value, "killcode")
      && r.auth == restart.value.fields["auth"] && r.killcode == restart.value.fields["killcode"]
    ensures r.Restored? || r.Expired? ==> HasField(restart.value, "t")
    ensures
      && (r.Restored? || r.Expired?) && restart.value.fields["t"].JInt?
      ==> (r.Restored? <==> now - restart.value.fields["t"].i < 60)
  {
    if restart.None? then NoRestartFile
    else
      var data := restart.value;
      if !HasField(data, "t") || !(data.fields["t"].JInt? || data.fields["t"].JBool?) then RestoreRaised
      else
        var t := if data.fields["t"].JInt? then data.fields["t"].i else if data.fields["t"].b then 1 else 0;
        if now - t >= 60 then Expired
        else if !HasField(data, "auth") || !HasField(data, "killcode") then RestoreRaised
        else Restored(data.fields["auth"], data.fields["killcode"])
  }

  /** What `Unload` writes to the restart file. */
  function RestartRecord(t: int, auth: Json, killcode: Json): Json {
    JObj(map["t" := JInt(t), "auth" := auth, "killcode" := killcode])
  }

  /** A reload within the minute gets back exactly the secret and kill code that were
      saved; a later one starts afresh. */
  lemma UnloadThenRestore(t: int, now: int, auth: Json, killcode: Json)
    ensures Restore(now, Some(RestartRecord(t, auth, killcode))) ==
      if now - t < 60 then Restored(auth, killcode) else Expired
  {
  }

  /** Once a poll has raised, the events after it change nothing. */
  lemma {:induction false} RaisedStays(events: seq<Json>, answers: seq<Json>, ids: set<Json>, api: set<string>, i: nat)
    requires |answers| == |events| && i <= |events|
    requires AckBatch(events[..i], answers[..i], ids, api).raised
    ensures AckBatch(events, answers, ids, api) == AckBatch(events[..i], answers[..i], ids, api)
    decreases |events|
  {
    if i < |events| {
      var n := |events| - 1;
      assert events[..n][..i] == events[..i] && answers[..n][..i] == answers[..i];
      RaisedStays(events[..n], answers[..n], ids, api, i);
    } else {
      assert events[..i] == events && answers[..i] == answers;
    }
  }

  // ---- the handshake ---------------------------------------------------------------------------

  predicate HasChallenge(j: Json) { HasField(j, "challenge") }

  /** The index of the first reply carrying a challenge, `|rs|` when none does. */
  function FirstChallenge(rs: seq<Json>): (i: nat)
    ensures i <= |rs|
    ensures i < |rs| ==> HasChallenge(rs[i])
    ensures forall k :: 0 <= k < i ==> !HasChallenge(rs[k])
  {
    if rs == [] then 0 else if HasChallenge(rs[0]) then 0 else 1 + FirstChallenge(rs[1..])
  }

  function AuthPost(token: string): Request { Post("auth", JObj(map["code" := JStr(token)])) }

  /** `n` attempts at the auth route with the same secret. */
  function AuthPosts(token: string, n: nat): (rs: seq<Request>)
    ensures |rs| == n && forall k :: 0 <= k < n ==> rs[k] == AuthPost(token)
  {
    if n == 0 then [] else AuthPosts(token, n - 1) + [AuthPost(token)]
  }

  function PingPost(reply: Json): Request
    requires HasChallenge(reply)
  {
    Post("pingpong", JObj(map["challenge" := reply.fields["challenge"]]))
  }

  /** The requests a launch's handshake sends with secret `token` and kill code `kill`:
      the auth posts up to the first challenge, then the pingpong, and the kill request
      when no challenge came or the pingpong was not answered with `None`. */
  function StartupSent(token: string, authReplies: seq<Json>, pingReply: Json, kill: Json): (rs: seq<Request>)
    requires |authReplies| == 5
    ensures 0 < |rs| <= 7
    ensures rs[0] == AuthPost(token)
    ensures rs[|rs| - 1] == Kill(kill, false) <==> FirstChallenge(authReplies) == 5 || pingReply != JNull
  {
    var f := FirstChallenge(authReplies);
    if f == 5 then AuthPosts(token, 5) + [Kill(kill, false)]
    else AuthPosts(token, f + 1) + [PingPost(authReplies[f])] + (if pingReply == JNull then [] else [Kill(kill, false)])
  }

  /** Where a launch's handshake leaves the authentication state. */
  function StartupOutcome(authReplies: seq<Json>, pingReply: Json): (a: ClientAuth)
    ensures a == AuthOK <==> FirstChallenge(authReplies) < 5 && pingReply == JNull
    ensures a == ClientServerMismatch <==> FirstChallenge(authReplies) >= 5
  {
    if FirstChallenge(authReplies) >= 5 then ClientServerMismatch
    else if pingReply == JNull then AuthOK
    else PingPongFailed
  }

  /** A stamp written by the adapter at most 30 seconds ago keeps the daemon's watch loop
      running, whatever the polls have done. */
  lemma FreshStampNoExit(stamp: int, now: int, lastPoll: Option<int>)
    requires stamp != 0 && now - stamp <= 30
    ensures !DaemonInit.ExitsAt(DaemonInit.Observation(now, Some(IntToString(stamp)), lastPoll))
  {
    DaemonInit.StampReadBack(stamp);
  }

  // ---- the adapter's state -----------------------------------------------------------------------

  /** The module-level `state` of the adapter together with the lockfile it stamps and the
      requests it has sent. `tracking` maps each shim's name to its plugin's id; `api` is
      the set of host calls (`Parent` attributes) the daemon may ask for. */
  class Session {
    var authState: ClientAuth
    var lastStamp: int
    var lastPoll: int
    var auth: Json
    var killcode: Json
    var tracking: map<string, Json>
    var stampFile: Option<string>
    var sent: seq<Request>
    const api: set<string>

    /** The lockfile holds the last stamp. */
    predicate Stamped()
      reads this
    {
      stampFile == Some(IntToString(lastStamp))
    }

    /** `_State()` at load time `now`, given the restart file's content; a restart file
        the adapter cannot read (`RestoreRaised`) stops the load and is excluded. The
        lockfile is removed when the module loads. */
    constructor (now: int, restart: Option<Json>, api: set<string>)
      requires !Restore(now, restart).RestoreRaised?
      ensures authState == WaitingForInit && lastStamp == now && lastPoll == now
      ensures Restore(now, restart).Restored? ==>
        auth == Restore(now, restart).auth && killcode == Restore(now, restart).killcode
      ensures !Restore(now, restart).Restored? ==> auth == JNull && killcode == JNull
      ensures tracking == map[] && stampFile == None && sent == [] && this.api == api
    {
      authState := WaitingForInit;
      lastStamp := now;
      lastPoll := now;
      var r := Restore(now, restart);
      if r.Restored? {
        auth := r.auth;
        killcode := r.killcode;
      } else {
        auth := JNull;
        killcode := JNull;
      }
      tracking := map[];
      stampFile := None;
      sent := [];
      this.api := api;
    }

    /** `write_stamp`: the lockfile then reads back as `t`. */
    method WriteStamp(t: int)
      modifies this`stampFile, this`lastStamp
      ensures lastStamp == t && Stamped()
      ensures DaemonInit.ReadClientLockfile(stampFile) == Some(t)
    {
      stampFile := Some(IntToString(t));
      lastStamp := t;
      DaemonInit.StampReadBack(t);
    }

    /** `_daemon_startup` with the freshly drawn `token`: up to five auth attempts until a
        reply carries a challenge, then the pingpong, whose `None` reply means success; on
        any failure the daemon is told to quit at once. `authReplies` are the replies the
        auth attempts would get, `pingReply` the pingpong's. */
    method DaemonStartup(token: string, authReplies: seq<Json>, pingReply: Json) returns (ok: bool)
      requires |authReplies| == 5
      modifies this`auth, this`authState, this`sent
      ensures auth == JStr(token)
      ensures ok <==> authState == AuthOK
      ensures authState == StartupOutcome(authReplies, pingReply)
      ensures sent == old(sent) + StartupSent(token, authReplies, pingReply, killcode)
      ensures FirstChallenge(authReplies) == 5 ==>
        && authState == ClientServerMismatch
        && sent == old(sent) + AuthPosts(token, 5) + [Kill(killcode, false)]
      ensures FirstChallenge(authReplies) < 5 ==>
        && authState == (if pingReply == JNull then AuthOK else PingPongFailed)
        && sent == old(sent) + AuthPosts(token, FirstChallenge(authReplies) + 1)
             + [PingPost(authReplies[FirstChallenge(authReplies)])]
             + (if pingReply == JNull then [] else [Kill(killcode, false)])
    {
      auth := JStr(token);
      var response := JNull;
      var i := 0;
      var found := false;
      while i < 5 && !found
        invariant 0 <= i <= 5
        invariant auth == JStr(token)
        invariant i > 0 ==> response == authReplies[i - 1]
        invariant found ==> i > 0 && FirstChallenge(authReplies) == i - 1
        invariant !found ==> forall k :: 0 <= k < i ==> !HasChallenge(authReplies[k])
        invariant sent == old(sent) + AuthPosts(token, i)
      {
        sent := sent + [AuthPost(token)];
        response := authReplies[i];
        found := HasChallenge(response);
        i := i + 1;
      }
      if HasChallenge(response) {
        sent := sent + [PingPost(response)];
        if pingReply == JNull {
          authState := AuthOK;
        } else {
          authState := PingPongFailed;
        }
      } else {
        authState := ClientServerMismatch;
      }
      if authState != AuthOK {
        sent := sent + [Kill(killcode, false)];
        return false;
      }
      return true;
    }

    /** `start_daemon`: nothing when a live daemon's lockfile is found; otherwise a new
        kill code, the daemon's launch, and the handshake. Returns whether it launched. */
    method StartDaemon(now: int, lockfile: Option<string>, code: string, token: string, authReplies: seq<Json>, pingReply: Json)
      returns (launched: bool)
      requires |authReplies| == 5
      modifies this`auth, this`authState, this`sent, this`killcode
      ensures launched <==> CheckNoDaemon(lockfile, now)
      ensures !launched ==> auth == old(auth) && authState == old(authState) && sent == old(sent) && killcode == old(killcode)
      ensures launched ==>
        && killcode == JStr(code) && auth == JStr(token)
        && (authState == AuthOK <==> FirstChallenge(authReplies) < 5 && pingReply == JNull)
        && (authState != AuthOK ==> |sent| > 0 && sent[|sent| - 1] == Kill(JStr(code), false))
      ensures launched ==>
        && authState == StartupOutcome(authReplies, pingReply)
        && sent == old(sent) + StartupSent(token, authReplies, pingReply, JStr(code))
    {
      if !CheckNoDaemon(lockfile, now) {
        return false;
      }
      killcode := JStr(code);
      var ok := DaemonStartup(token, authReplies, pingReply);
      return true;
    }

    /** `Init`: stamp the lockfile; with a secret kept over a reload, ask the daemon
        whether it still holds; start a daemon when there is no secret or the daemon does
        not answer. `authcheck` is the reply to that question. */
    method Init(now: int, lockfile: Option<string>, authcheck: Json, code: string, token: string,
                authReplies: seq<Json>, pingReply: Json)
      requires |authReplies| == 5
      modifies this`auth, this`authState, this`sent, this`killcode, this`stampFile, this`lastStamp
      ensures lastStamp == now && Stamped()
      ensures Truthy(old(auth)) && authcheck == JNull ==>
        authState == AuthOK && sent == old(sent) + [Get("authcheck")] && auth == old(auth)
        && killcode == old(killcode)
      ensures Truthy(old(auth)) && authcheck != JNull && authcheck != JStr(SendFailed) ==>
        authState == old(authState) && sent == old(sent) + [Get("authcheck")] && auth == old(auth)
        && killcode == old(killcode)
      ensures (!Truthy(old(auth)) || authcheck == JStr(SendFailed)) && !CheckNoDaemon(lockfile, now) ==>
        && authState == old(authState) && auth == old(auth) && killcode == old(killcode)
        && sent == old(sent) + (if Truthy(old(auth)) then [Get("authcheck")] else [])
      ensures (!Truthy(old(auth)) || authcheck == JStr(SendFailed)) && CheckNoDaemon(lockfile, now) ==>
        && killcode == JStr(code) && auth == JStr(token)
        && (authState == AuthOK <==> FirstChallenge(authReplies) < 5 && pingReply == JNull)
        && authState == StartupOutcome(authReplies, pingReply)
        && sent == old(sent) + (if Truthy(old(auth)) then [Get("authcheck")] else [])
             + StartupSent(token, authReplies, pingReply, JStr(code))
    {
      var secret := Truthy(auth);
      WriteStamp(now);
      if secret {
        sent := sent + [Get("authcheck")];
        if authcheck != JStr(SendFailed) {
          if authcheck == JNull {
            authState := AuthOK;
          }
          return;
        }
      }
      ghost var asked := sent;
      assert asked == old(sent) + (if secret then [Get("authcheck")] else []);
      var launched := StartDaemon(now, lockfile, code, token, authReplies, pingReply);
    }

    /** `poll_daemon` as intended (see `EventAck`): before the handshake only the poll
        time moves; otherwise fetch the outbound queue, answer each event in order, post
        the acknowledgements when there are any, and record the poll time. A failed or
        malformed fetch, or an event that raises, leaves the poll time alone. `reply` is
        what the fetch returns, `answers` the host's answer to each event. */
    method PollDaemon(t: int, reply: Fetched, answers: seq<Json>) returns (raised: bool)
      requires reply.Got? && reply.value.JList? ==> |answers| == |reply.value.items|
      modifies this`lastPoll, this`sent
      ensures authState != AuthOK ==> lastPoll == t && sent == old(sent) && !raised
      ensures authState == AuthOK && reply.RequestRaised? ==>
        raised && lastPoll == old(lastPoll) && sent == old(sent) + [Get("outbound")]
      ensures authState == AuthOK && reply.Got? && !reply.value.JList? ==>
        !raised && lastPoll == old(lastPoll) && sent == old(sent) + [Get("outbound")]
      ensures authState == AuthOK && reply.Got? && reply.value.JList? ==>
        var b := AckBatch(reply.value.items, answers, tracking.Values, api);
        && raised == b.raised
        && lastPoll == (if b.raised then old(lastPoll) else t)
        && sent == old(sent) + [Get("outbound")]
             + (if b.raised || b.acks == [] then [] else [Post("inbound", JObj(map["response" := JList(b.acks)]))])
    {
      if authState != AuthOK {
        lastPoll := t;
        return false;
      }
      sent := sent + [Get("outbound")];
      if reply.RequestRaised? {
        return true;
      }
      if reply.value == JStr(SendFailed) || !reply.value.JList? {
        return false;
      }
      var events := reply.value.items;
      var ids := tracking.Values;
      var response: seq<Json> := [];
      var i := 0;
      raised := false;
      while i < |events| && !raised
        invariant 0 <= i <= |events|
        invariant AckBatch(events[..i], answers[..i], ids, api) == Batch(response, raised)
      {
        assert events[..i + 1][..i] == events[..i] && answers[..i + 1][..i] == answers[..i];
        match EventAck(events[i], answers[i], ids, api) {
          case Ack(e) => response := response + [e];
          case NoAck =>
          case EventRaised => raised := true;
        }
        i := i + 1;
      }
      if raised {
        RaisedStays(events, answers, ids, api, i);
        return true;
      }
      assert events[..i] == events && answers[..i] == answers;
      if response != [] {
        sent := sent + [Post("inbound", JObj(map["response" := JList(response)]))];
      }
      lastPoll := t;
    }

    /** `Tick` at time `now`: restamp the lockfile when the stamp is over 30 seconds old,
        poll when the last poll is over a second old. */
    method Tick(now: int, reply: Fetched, answers: seq<Json>) returns (raised: bool)
      requires reply.Got? && reply.value.JList? ==> |answers| == |reply.value.items|
      modifies this`lastStamp, this`stampFile, this`lastPoll, this`sent
      ensures now - lastStamp <= 30
      ensures now - old(lastStamp) > 30 ==> lastStamp == now && Stamped()
      ensures now - old(lastStamp) <= 30 ==> lastStamp == old(lastStamp) && stampFile == old(stampFile)
      ensures now - old(lastPoll) <= 1 ==> !raised && lastPoll == old(lastPoll) && sent == old(sent)
      ensures now - old(lastPoll) > 1 && authState != AuthOK ==> !raised && lastPoll == now && sent == old(sent)
      ensures now - old(lastPoll) > 1 && authState == AuthOK ==>
        |sent| > |old(sent)| && sent[|old(sent)|] == Get("outbound")
      ensures now - old(lastPoll) > 1 && authState == AuthOK && reply.RequestRaised? ==>
        raised && lastPoll == old(lastPoll) && sent == old(sent) + [Get("outbound")]
      ensures now - old(lastPoll) > 1 && authState == AuthOK && reply.Got? && !reply.value.JList? ==>
        !raised && lastPoll == old(lastPoll) && sent == old(sent) + [Get("outbound")]
      ensures now - old(lastPoll) > 1 && authState == AuthOK && reply.Got? && reply.value.JList? ==>
        var b := AckBatch(reply.value.items, answers, tracking.Values, api);
        && raised == b.raised
        && lastPoll == (if b.raised then old(lastPoll) else now)
        && sent == old(sent) + [Get("outbound")]
             + (if b.raised || b.acks == [] then [] else [Post("inbound", JObj(map["response" := JList(b.acks)]))])
    {
      if now - lastStamp > 30 {
        WriteStamp(now);
      }
      raised := false;
      if now - lastPoll > 1 {
        raised := PollDaemon(now, reply, answers);
      }
    }

    /** `Execute`: a chat message goes to the daemon's inbound route as a type-0 payload. */
    method Execute(d: BotMessage)
      modifies this`sent
      ensures sent == old(sent) + [Post("inbound", JObj(map["type" := JInt(0), "data" := Serialize(d)]))]
    {
      sent := sent + [Post("inbound", JObj(map["type" := JInt(0), "data" := Serialize(d)]))];
    }

    /** A shim callback (`shim_button_pressed`, `shim_initial_settings`, ...): the request
        it sends, if any. */
    method ShimEvent(shim: string, call: ShimCall)
      modifies this`sent
      ensures sent == old(sent) + (if shim in tracking then [ShimRequest(tracking, shim, call).value] else [])
    {
      var r := ShimRequest(tracking, shim, call);
      if r.Some? {
        sent := sent + [r.value];
      }
    }

    /** `Unload`: the restart record written at time `t`. */
    function UnloadRecord(t: int): (j: Json)
      reads this
      ensures Restore(t, Some(j)) == Restored(auth, killcode)
    {
      RestartRecord(t, auth, killcode)
    }
  }
}

=== FILE: common.dfy ===
/** The records handed to plugin listeners (TMHK-docker/daemon/daemon/common.py). Each
    constructor copies payload fields; a field the constructor reads and the payload lacks
    raises, which is `None` here. The `source` enum lookup is kept as the raw value
    (the enums module is not part of this model). */
module Common {
  import opened Wrappers
  import opened Values

  datatype User = User(id: Json, name: Json)

  datatype RawMessage = RawMessage(rawData: Json, source: Json, serviceType: Json)

  datatype Message = Message(raw: RawMessage, content: Json, author: User)

  datatype ParseData = ParseData(targetString: Json, triggerString: Json, author: User, target: Option<User>)

  /** `RawMessage(payload)`: reads `raw_data`, `source` and `service_type`. */
  function MakeRawMessage(p: Json): (r: Option<RawMessage>)
    ensures r.Some? <==> HasField(p, "raw_data") && HasField(p, "source") && HasField(p, "service_type")
    ensures r.Some? ==>
      && r.value.rawData == p.fields["raw_data"]
      && r.value.source == p.fields["source"]
      && r.value.serviceType == p.fields["service_type"]
  {
    if HasField(p, "raw_data") && HasField(p, "source") && HasField(p, "service_type") then
      Some(RawMessage(p.fields["raw_data"], p.fields["source"], p.fields["service_type"]))
    else None
  }

  /** `Message(payload)`: the raw-message fields, then `message`, `userid` and `username`. */
  function MakeMessage(p: Json): (r: Option<Message>)
    ensures r.Some? <==> MakeRawMessage(p).Some? && HasField(p, "message") && HasField(p, "userid") && HasField(p, "username")
    ensures r.Some? ==>
      && r.value.raw == MakeRawMessage(p).value
      && r.value.content == p.fields["message"]
      && r.value.author == User(p.fields["userid"], p.fields["username"])
  {
    var raw := MakeRawMessage(p);
    if raw.Some? && HasField(p, "message") && HasField(p, "userid") && HasField(p, "username") then
      Some(Message(raw.value, p.fields["message"], User(p.fields["userid"], p.fields["username"])))
    else None
  }

  /** `ParseData(payload)`: `targetname` is read only when `targetid` is truthy, and the
      target is absent exactly when `targetid` is falsy. */
  function MakeParseData(p: Json): (r: Option<ParseData>)
    ensures r.Some? <==>
      && HasField(p, "string") && HasField(p, "trigger_message") && HasField(p, "authorid")
      && HasField(p, "authorname") && HasField(p, "targetid")
      && (Truthy(p.fields["targetid"]) ==> HasField(p, "targetname"))
    ensures r.Some? ==>
      && r.value.targetString == p.fields["string"]
      && r.value.triggerString == p.fields["trigger_message"]
      && r.value.author == User(p.fields["authorid"], p.fields["authorname"])
      && (r.value.target.None? <==> !Truthy(p.fields["targetid"]))
      && (r.value.target.Some? ==> r.value.target.value == User(p.fields["targetid"], p.fields["targetname"]))
  {
    if !(HasField(p, "string") && HasField(p, "trigger_message") && HasField(p, "authorid")
         && HasField(p, "authorname") && HasField(p, "targetid")) then None
    else if !Truthy(p.fields["targetid"]) then
      Some(ParseData(p.fields["string"], p.fields["trigger_message"],
                     User(p.fields["authorid"], p.fields["authorname"]), None))
    else if !HasField(p, "targetname") then None
    else
      Some(ParseData(p.fields["string"], p.fields["trigger_message"],
                     User(p.fields["authorid"], p.fields["authorname"]),
                     Some(User(p.fields["targetid"], p.fields["targetname"]))))
  }

  /** The parse payload a bot would send for `d`, with `targetname` present exactly when
      there is a target. */
  function ParsePayload(d: ParseData): Json {
    var base := map["string" := d.targetString, "trigger_message" := d.triggerString,
                    "authorid" := d.author.id, "authorname" := d.author.name];
    match d.target
      case None => JObj(base["targetid" := JNull])
      case Some(u) => JObj(base["targetid" := u.id]["targetname" := u.name])
  }

  /** Construction recovers every record whose target, when present, has a truthy id. */
  lemma ParseDataRoundTrip(d: ParseData)
    requires d.target.Some? ==> Truthy(d.target.value.id)
    ensures MakeParseData(ParsePayload(d)) == Some(d)
  {
  }
}

=== FILE: daemon_init.dfy ===
/** The daemon's entry point (TMHK-docker/daemon/init.py): the handshake wait that decides
    whether the daemon starts at all, and the watch loop that decides when it shuts down. */
module DaemonInit {
  import opened Wrappers
  import opened Values
  import opened Text
  import Http

  /** `read_client_lockfile`: `None` when the file is missing (`content` is `None`) or its
      stripped text is not an integer. */
  function ReadClientLockfile(content: Option<string>): (r: Option<int>)
    ensures content.None? ==> r.None?
    ensures content.Some? ==> r == ParseInt(content.value)
  {
    if content.None? then None
    else
      ParseIntOfStripped(content.value);
      ParseInt(Strip(content.value, Whitespace))
  }

  /** A timestamp written as `str(t)` reads back as `t`. */
  lemma StampReadBack(t: int)
    ensures ReadClientLockfile(Some(IntToString(t))) == Some(t)
  {
    var s := IntToString(t);
    var d := NatToString(if t < 0 then -t else t);
    assert s == (if t < 0 then "-" else "") + d;
    assert IsDigit(d[|d| - 1]);
    StripUnchanged(s, Whitespace);
    IntRoundTrip(t);
  }

  /** Text without a single digit (empty, blank, or garbage) reads as `None`, like a
      missing file. */
  lemma GarbageReadsAsNone(s: string)
    requires forall k :: 0 <= k < |s| ==> !IsDigit(s[k])
    ensures ReadClientLockfile(Some(s)) == None
  {
    NoDigitsNoInt(s);
  }

  /** `now - (read_client_lockfile() or now)`: seconds since the client's last stamp, zero
      when there is no usable stamp (a stamp of 0 is falsy too). */
  function SinceUpdate(now: int, stamp: Option<int>): (d: int)
    ensures stamp.None? ==> d == 0
    ensures stamp.Some? && stamp.value != 0 ==> d + stamp.value == now
  {
    now - (if stamp.Some? && stamp.value != 0 then stamp.value else now)
  }

  /** `now - (http.last_poll or now - 60)`: seconds since the last poll, sixty when there
      has been none. */
  function SincePoll(now: int, lastPoll: Option<int>): (d: int)
    ensures lastPoll.None? ==> d == 60
    ensures lastPoll.Some? && lastPoll.value != 0 ==> d + lastPoll.value == now
  {
    now - (if lastPoll.Some? && lastPoll.value != 0 then lastPoll.value else now - 60)
  }

  /** The exit test of the watch loop. */
  predicate ShouldExit(clientUpdate: int, lastPoll: int) {
    clientUpdate > 60 || (clientUpdate > 30 && lastPoll > 10)
  }

  /** With no readable client stamp the daemon never leaves the watch loop, whatever the
      polls do. */
  lemma NoStampNoExit(now: int, lastPoll: Option<int>)
    ensures !ShouldExit(SinceUpdate(now, None), SincePoll(now, lastPoll))
  {
  }

  /** A client that keeps polling (every 10 seconds or more often) is given a full minute
      without stamps; one that stopped polling, half a minute. */
  lemma ExitThresholds(now: int, stamp: int, lastPoll: int)
    requires stamp != 0 && lastPoll != 0
    ensures now - lastPoll <= 10 ==>
      (ShouldExit(SinceUpdate(now, Some(stamp)), SincePoll(now, Some(lastPoll))) <==> now - stamp > 60)
    ensures now - lastPoll > 10 ==>
      (ShouldExit(SinceUpdate(now, Some(stamp)), SincePoll(now, Some(lastPoll))) <==> now - stamp > 30)
  {
  }

  /** What one pass of the watch loop sees: the clock, the client lockfile's content and
      the handler's `last_poll`. */
  datatype Observation = Observation(now: int, lockfile: Option<string>, lastPoll: Option<int>)

  predicate ExitsAt(o: Observation) {
    ShouldExit(SinceUpdate(o.now, ReadClientLockfile(o.lockfile)), SincePoll(o.now, o.lastPoll))
  }

  /** The watch loop over a run of observations: the index of the pass that breaks out, the
      first one whose observation meets the exit test. */
  method Watch(obs: seq<Observation>) returns (exitAt: Option<nat>)
    ensures exitAt.Some? ==> exitAt.value < |obs| && ExitsAt(obs[exitAt.value])
    ensures exitAt.Some? ==> forall k :: 0 <= k < exitAt.value ==> !ExitsAt(obs[k])
    ensures exitAt.None? ==> forall k :: 0 <= k < |obs| ==> !ExitsAt(obs[k])
  {
    var i := 0;
    while i < |obs|
      invariant 0 <= i <= |obs|
      invariant forall k :: 0 <= k < i ==> !ExitsAt(obs[k])
    {
      var o := obs[i];
      var clientUpdate := SinceUpdate(o.now, ReadClientLockfile(o.lockfile));
      var lastPoll := SincePoll(o.now, o.lastPoll);
      if clientUpdate > 60 || (clientUpdate > 30 && lastPoll > 10) {
        return Some(i);
      }
      i := i + 1;
    }
    return None;
  }

  /** A request reaching the handler while startup waits for the handshake. */
  datatype HandshakeRequest =
    | AuthRequest(body: Json, token: string)
    | PingpongRequest(headers: Http.Headers, body: Json)

  datatype StartupResult = Running | Aborted

  /** Lines 136-149 of `main`: set up, start serving, wait (at most ten seconds, here: the
      requests that arrive in that time) for the pingpong; on timeout record PingPongFailed
      and end the service quietly; on any state but AuthOK end it too. */
  method Startup(h: Http.HttpHandler, requests: seq<HandshakeRequest>) returns (r: StartupResult)
    requires h.Valid() && !h.serving
    modifies h
    ensures h.Valid()
    ensures r == Running <==> h.authState == Some(Http.AuthOK)
    ensures r == Running ==> h.serving
    ensures r == Aborted ==> !h.serving && h.authState == Some(Http.Closing) && h.auth == JNull
  {
    h.Setup();
    var raised := h.StartService();
    var i := 0;
    while i < |requests| && !h.authEventSet
      invariant 0 <= i <= |requests|
      invariant h.Valid() && h.ready && h.serving
      invariant h.authState != Some(Http.AuthOK) ==> !h.authEventSet || h.authState == Some(Http.ClientServerMismatch)
    {
      match requests[i] {
        case AuthRequest(body, token) =>
          var resp := h.RouteAuth(body, token);
        case PingpongRequest(headers, body) =>
          var resp := h.RoutePingpong(headers, body);
      }
      i := i + 1;
    }
    if !h.authEventSet {
      h.authState := Some(Http.PingPongFailed);
      raised := h.EndService(false);
      return Aborted;
    }
    if h.authState != Some(Http.AuthOK) {
      raised := h.EndService(false);
      return Aborted;
    }
    r := Running;
  }
}

=== FILE: http.dfy ===
/** The daemon's HTTP boundary (TMHK-docker/daemon/daemon/http.py): the shared-secret and
    challenge handshake, the bearer guard on every other route, and the nonce-matched
    outbound call queue. The aiohttp server, the event loop and logging are not modelled:
    each route is one method taking the already-decoded request. */
module Http {
  import opened Wrappers
  import opened Values

  datatype AuthState =
    | WaitingForClient
    | PendingPingPong
    | PingPongFailed
    | ClientServerMismatch
    | AuthOK
    | Closing

  /** One `{nonce, data}` entry of `waiting_for_poll`. */
  datatype Entry = Entry(nonce: Option<string>, data: Json)

  datatype Body = NoBody | Text(text: string) | JsonBody(json: Json) | Entries(entries: seq<Entry>)

  datatype Response = Response(status: int, body: Body)

  type Headers = map<string, string>

  /** The bearer guard: the `Authorization` header is present and equal to the stored secret.
      A stored `None` (or a non-string secret) never equals a header string. */
  predicate Authorized(headers: Headers, secret: Json) {
    "Authorization" in headers && secret == JStr(headers["Authorization"])
  }

  function JsonError(status: int, message: string): Response {
    Response(status, JsonBody(JObj(map["error" := JStr(message)])))
  }

  /** aiohttp's answer when a handler raises. */
  const InternalError := Response(500, NoBody)

  /** The state of the future registered for a nonce. */
  datatype Waiter = Pending | Resolved(result: Json) | Cancelled

  /** Pending-call bookkeeping: the keys of `nonces` are futures that were created, and a
      future that already holds a result is never still registered. */
  predicate Registry(nonces: set<string>, waiters: map<string, Waiter>) {
    nonces <= waiters.Keys && forall n :: n in nonces ==> !waiters[n].Resolved?
  }

  /** Stronger: every registered future is still pending (no expired future left behind). */
  predicate Clean(nonces: set<string>, waiters: map<string, Waiter>) {
    nonces <= waiters.Keys && forall n :: n in nonces ==> waiters[n] == Pending
  }

  // ---- acknowledgements ------------------------------------------------------------

  datatype AckState = AckState(nonces: set<string>, waiters: map<string, Waiter>, failed: bool)

  /** One iteration of the `inbound_ack` loop. `failed` records that the handler raised
      (missing key, unhashable nonce, or `set_result` on a cancelled future); the loop stops
      there, keeping the effects of the earlier iterations. */
  function AckStep(st: AckState, msg: Json): (r: AckState)
    requires Registry(st.nonces, st.waiters)
    ensures Registry(r.nonces, r.waiters)
    ensures r.nonces <= st.nonces && r.waiters.Keys == st.waiters.Keys
    ensures st.failed ==> r == st
  {
    if st.failed then st
    else if !HasField(msg, "nonce") then st.(failed := true)
    else match msg.fields["nonce"]
      case JStr(n) =>
        if n !in st.nonces then st
        else if !HasField(msg, "response") || st.waiters[n] != Pending then
          AckState(st.nonces - {n}, st.waiters, true)
        else
          AckState(st.nonces - {n}, st.waiters[n := Resolved(msg.fields["response"])], false)
      case JList(_) => st.(failed := true)
      case JObj(_) => st.(failed := true)
      case _ => st
  }

  /** The whole `for msg in data` loop. */
  function AckFold(st: AckState, msgs: seq<Json>): (r: AckState)
    requires Registry(st.nonces, st.waiters)
    ensures Registry(r.nonces, r.waiters)
    ensures r.nonces <= st.nonces && r.waiters.Keys == st.waiters.Keys
    decreases |msgs|
  {
    if msgs == [] then st else AckFold(AckStep(st, msgs[0]), msgs[1..])
  }

  /** A `response` value that is not a list but that `for msg in data` still iterates over
      without a single turn: the empty string and the empty object. Any other non-list
      value makes the loop raise, on the iteration itself or on `msg["nonce"]`. */
  predicate EmptyIterable(v: Json) {
    v == JStr("") || v == JObj(map[])
  }

  /** A well-formed acknowledgement: an object with a string nonce and a response. */
  predicate WellFormedAck(msg: Json) {
    HasField(msg, "nonce") && msg.fields["nonce"].JStr? && HasField(msg, "response")
  }

  function AckNonce(msg: Json): string
    requires WellFormedAck(msg)
  {
    msg.fields["nonce"].s
  }

  /** The nonces named by a list of well-formed acknowledgements. */
  function Acked(msgs: seq<Json>): (s: set<string>)
    requires forall k :: 0 <= k < |msgs| ==> WellFormedAck(msgs[k])
  {
    set k | 0 <= k < |msgs| :: AckNonce(msgs[k])
  }

  /** The response carried by the first acknowledgement naming `n`. */
  function FirstResponse(msgs: seq<Json>, n: string): Json
    requires forall k :: 0 <= k < |msgs| ==> WellFormedAck(msgs[k])
    requires n in Acked(msgs)
  {
    if AckNonce(msgs[0]) == n then msgs[0].fields["response"]
    else
      assert n in Acked(msgs[1..]) by {
        var k :| 0 <= k < |msgs| && AckNonce(msgs[k]) == n;
        assert AckNonce(msgs[1..][k - 1]) == n;
      }
      FirstResponse(msgs[1..], n)
  }

  lemma AckedCons(msgs: seq<Json>)
    requires msgs != [] && forall k :: 0 <= k < |msgs| ==> WellFormedAck(msgs[k])
    ensures Acked(msgs) == {AckNonce(msgs[0])} + Acked(msgs[1..])
  {
    assert forall k :: 1 <= k < |msgs| ==> msgs[k] == msgs[1..][k - 1];
    forall n | n in Acked(msgs) ensures n in {AckNonce(msgs[0])} + Acked(msgs[1..]) {
      var k :| 0 <= k < |msgs| && AckNonce(msgs[k]) == n;
      if k > 0 { assert AckNonce(msgs[1..][k - 1]) == n; }
    }
  }

  /** Matching: with every registered future pending and well-formed acknowledgements, the
      loop never fails; each registered nonce that is acknowledged is removed and its future
      resolved exactly once, with the first response naming it; every other future and
      registration is left as it was (unknown nonces change nothing). */
  lemma {:induction false} AckMatches(st: AckState, msgs: seq<Json>)
    requires !st.failed && Clean(st.nonces, st.waiters)
    requires forall k :: 0 <= k < |msgs| ==> WellFormedAck(msgs[k])
    ensures Registry(st.nonces, st.waiters)
    ensures var r := AckFold(st, msgs);
      && !r.failed
      && Clean(r.nonces, r.waiters)
      && r.nonces == st.nonces - Acked(msgs)
      && (forall n :: n in st.nonces && n in Acked(msgs) ==> r.waiters[n] == Resolved(FirstResponse(msgs, n)))
      && (forall n :: n in st.waiters && !(n in st.nonces && n in Acked(msgs)) ==> r.waiters[n] == st.waiters[n])
    decreases |msgs|
  {
    if msgs != [] {
      var m := msgs[0];
      var n := AckNonce(m);
      var st' := AckStep(st, m);
      AckedCons(msgs);
      assert forall k :: 0 <= k < |msgs[1..]| ==> WellFormedAck(msgs[1..][k]) by {
        assert forall k :: 0 <= k < |msgs[1..]| ==> msgs[1..][k] == msgs[k + 1];
      }
      AckMatches(st', msgs[1..]);
      var r := AckFold(st, msgs);
      assert r == AckFold(st', msgs[1..]);
      forall x | x in st.nonces && x in Acked(msgs)
        ensures r.waiters[x] == Resolved(FirstResponse(msgs, x))
      {
        if x != n {
          assert x in Acked(msgs[1..]);
        }
      }
    }
  }

  /** Acknowledgements naming only unregistered nonces leave the registry unchanged. */
  lemma {:induction false} AckUnknownIgnored(st: AckState, msgs: seq<Json>)
    requires !st.failed && Registry(st.nonces, st.waiters)
    requires forall k :: 0 <= k < |msgs| ==> WellFormedAck(msgs[k]) && AckNonce(msgs[k]) !in st.nonces
    ensures AckFold(st, msgs) == st
    decreases |msgs|
  {
    if msgs != [] {
      AckUnknownIgnored(st, msgs[1..]);
    }
  }

  /** Once the loop has failed, later acknowledgements are not looked at. */
  lemma {:induction false} AckFoldFailed(st: AckState, msgs: seq<Json>)
    requires st.failed && Registry(st.nonces, st.waiters)
    ensures AckFold(st, msgs) == st
    decreases |msgs|
  {
    if msgs != [] {
      AckFoldFailed(st, msgs[1..]);
    }
  }

  /** The timeout bug: a future expired as written stays registered (cancelled); a later
      acknowledgement naming it makes the loop fail there, so a well-formed acknowledgement
      after it for a pending call is never delivered. */
  lemma AckAfterExpiryFails(st: AckState, expired: string, other: string, v: Json, w: Json)
    requires !st.failed && Registry(st.nonces, st.waiters)
    requires expired in st.nonces && st.waiters[expired] == Cancelled
    requires other in st.nonces && st.waiters[other] == Pending && other != expired
    ensures var r := AckFold(st, [AckMessage(expired, v), AckMessage(other, w)]);
      r.failed && other in r.nonces && r.waiters[other] == Pending
  {
    var msgs := [AckMessage(expired, v), AckMessage(other, w)];
    var st1 := AckStep(st, msgs[0]);
    assert st1.failed;
    AckFoldFailed(st1, msgs[1..]);
  }

  function AckMessage(nonce: string, response: Json): (m: Json)
    ensures WellFormedAck(m) && AckNonce(m) == nonce
  {
    JObj(map["nonce" := JStr(nonce), "response" := response])
  }

  /** The answer `put_request` gives its caller once its wait ends. */
  datatype RequestOutcome = Answered(response: Json) | AnsweredNone | RaisedTimeout

  /** What `put_request` returns once its future holds a result. */
  function AnswerOf(w: Waiter): RequestOutcome
    requires w.Resolved?
  {
    Answered(w.result)
  }

  /** End to end: `put_request` registers a fresh nonce `n` next to calls that are all still
      pending (`PutRequest`); an `inbound_ack` whose list starts with an acknowledgement for
      `n` carrying `v`, whatever well-formed acknowledgements follow, then completes without
      raising (`InboundAck`), unregisters `n` and resolves its future with `v`, so the
      waiting caller is answered `v`. */
  lemma RequestAnswered(nonces: set<string>, waiters: map<string, Waiter>, n: string, v: Json, rest: seq<Json>)
    requires Clean(nonces, waiters) && n !in waiters
    requires forall k :: 0 <= k < |rest| ==> WellFormedAck(rest[k])
    ensures Registry(nonces + {n}, waiters[n := Pending])
    ensures var r := AckFold(AckState(nonces + {n}, waiters[n := Pending], false), [AckMessage(n, v)] + rest);
      && !r.failed && n !in r.nonces && n in r.waiters && r.waiters[n] == Resolved(v)
      && AnswerOf(r.waiters[n]) == Answered(v)
  {
    var msgs := [AckMessage(n, v)] + rest;
    var st := AckState(nonces + {n}, waiters[n := Pending], false);
    assert forall k :: 1 <= k < |msgs| ==> msgs[k] == rest[k - 1];
    assert n in Acked(msgs) by { assert AckNonce(msgs[0]) == n; }
    AckMatches(st, msgs);
  }

  /** `wait_for_pingpong` seen at one instant: it returns at once when the handshake is done
      or the event is set, raises before `setup`, and otherwise either times out (a truthy
      timeout) or keeps waiting. */
  datatype WaitResult = Returned | RaisedNotSetUp | TimedOut | StillWaiting

  /** `kill_code`: the third command-line word, when there is one. */
  function KillCodeAsWritten(argv: seq<string>): (code: Option<string>)
    ensures |argv| == 2 ==> code == None
  {
    if |argv| >= 3 then Some(argv[2]) else None
  }

  /** The kill code the daemon was started with: the word after the script path. */
  function KillCode(argv: seq<string>): (code: Option<string>)
    ensures forall script, k :: argv == [script, k] ==> code == Some(k)
  {
    if |argv| >= 2 then Some(argv[1]) else None
  }

  /** `route_kill_override`: answers, and says whether a shutdown (graceful or not) was
      scheduled to run one second later. */
  function KillRoute(killCode: Option<string>, query: map<string, string>): (r: (Response, Option<bool>))
    ensures r.1.Some? <==> killCode.Some? && killCode.value != "" && "code" in query && query["code"] == killCode.value
    ensures r.1.Some? ==> r.0.status == 204 && (r.1.value <==> !("graceful" in query && query["graceful"] == "0"))
    ensures r.1.None? ==> r.0.status == 401
  {
    if killCode.None? || killCode.value == "" then
      (JsonError(401, "killcode not provided on startup"), None)
    else if "code" !in query || query["code"] != killCode.value then
      (JsonError(401, "missing code"), None)
    else
      var graceful := (if "graceful" in query then query["graceful"] else "1") != "0";
      (Response(204, NoBody), Some(graceful))
  }

  /** With the adapter's launch line (`init.py <killcode>`), the kill code is never seen, so
      every kill request is refused. */
  lemma KillAlwaysRefused(script: string, code: string, query: map<string, string>)
    ensures KillRoute(KillCodeAsWritten([script, code]), query).0.status == 401
    ensures code != "" ==> KillRoute(KillCode([script, code]), map["code" := code]).1.Some?
  {
  }

  class HttpHandler {
    /** `_auth`: the shared secret, `JNull` until the auth route stores one. */
    var auth: Json
    /** `_auth_state`: `None` until `setup`. */
    var authState: Option<AuthState>
    /** `setup` ran: the application and the auth event exist. */
    var ready: bool
    var authEventSet: bool
    /** `__site` and `__runner` are both set. */
    var serving: bool
    var challenge: Option<string>
    var lastPoll: Option<int>
    /** The keys of the `nonces` dict. */
    var nonces: set<string>
    /** The future created for every nonce issued so far. */
    var waiters: map<string, Waiter>
    /** `waiting_for_poll`. */
    var queue: seq<Entry>

    ghost predicate Valid()
      reads this
    {
      Registry(nonces, waiters) && (authEventSet ==> ready)
    }

    constructor ()
      ensures Valid() && auth == JNull && authState == None && !ready && !serving
      ensures challenge == None && lastPoll == None && nonces == {} && waiters == map[] && queue == []
    {
      auth := JNull;
      authState := None;
      ready := false;
      authEventSet := false;
      serving := false;
      challenge := None;
      lastPoll := None;
      nonces := {};
      waiters := map[];
      queue := [];
    }

    /** `setup`: creates the auth event and the application. */
    method Setup()
      requires Valid()
      modifies this
      ensures Valid() && ready && !authEventSet && authState == Some(WaitingForClient)
      ensures auth == old(auth) && serving == old(serving) && challenge == old(challenge)
      ensures nonces == old(nonces) && waiters == old(waiters) && queue == old(queue) && lastPoll == old(lastPoll)
    {
      ready := true;
      authEventSet := false;
      authState := Some(WaitingForClient);
    }

    /** `start_service`: raises before `setup`; otherwise starts listening. */
    method StartService() returns (raised: bool)
      requires Valid()
      modifies this`serving, this`authState
      ensures Valid()
      ensures raised <==> !old(ready)
      ensures raised ==> serving == old(serving) && authState == old(authState)
      ensures !raised ==> serving && authState == Some(PendingPingPong)
    {
      if !ready {
        return true;
      }
      serving := true;
      authState := Some(PendingPingPong);
      return false;
    }

    /** `end_service`: with no active server it raises when `error` is set and does nothing
        otherwise; else it stops the server, moves to Closing and forgets the secret. */
    method EndService(error: bool) returns (raised: bool)
      requires Valid()
      modifies this`serving, this`authState, this`auth
      ensures Valid()
      ensures raised <==> !old(serving) && error
      ensures !old(serving) ==> serving == old(serving) && authState == old(authState) && auth == old(auth)
      ensures old(serving) ==> !serving && authState == Some(Closing) && auth == JNull
    {
      if !serving {
        return error;
      }
      serving := false;
      authState := Some(Closing);
      auth := JNull;
      return false;
    }

    /** `wait_for_pingpong(timeout)` at the instant it is called. */
    function WaitForPingpong(timeout: Option<int>): (w: WaitResult)
      reads this
      ensures w == Returned <==> authState == Some(AuthOK) || (ready && authEventSet)
      ensures w == RaisedNotSetUp <==> authState != Some(AuthOK) && !ready
      ensures w == TimedOut ==> timeout.Some? && timeout.value != 0
    {
      if authState == Some(AuthOK) then Returned
      else if !ready then RaisedNotSetUp
      else if authEventSet then Returned
      else if timeout.Some? && timeout.value != 0 then TimedOut
      else StillWaiting
    }

    /** `POST /auth`: refuses when a truthy secret is stored; otherwise stores the posted
        code, moves to PendingPingPong and answers with the fresh challenge `token`. */
    method RouteAuth(body: Json, token: string) returns (resp: Response)
      requires Valid()
      modifies this`auth, this`authState, this`challenge
      ensures Valid()
      ensures Truthy(old(auth)) ==> resp == Response(401, Text("Auth already set"))
      ensures !Truthy(old(auth)) && !HasField(body, "code") ==> resp == InternalError
      ensures Truthy(old(auth)) || !HasField(body, "code") ==>
        auth == old(auth) && authState == old(authState) && challenge == old(challenge)
      ensures !Truthy(old(auth)) && HasField(body, "code") ==>
        && auth == body.fields["code"]
        && authState == Some(PendingPingPong)
        && challenge == Some(token)
        && resp == Response(200, JsonBody(JObj(map["challenge" := JStr(token)])))
    {
      if Truthy(auth) {
        return Response(401, Text("Auth already set"));
      }
      if !HasField(body, "code") {
        return InternalError;
      }
      auth := body.fields["code"];
      authState := Some(PendingPingPong);
      challenge := Some(token);
      resp := Response(200, JsonBody(JObj(map["challenge" := JStr(token)])));
    }

    /** `POST /pingpong`: bad header 401 and no pending challenge 404, both without change;
        a wrong challenge moves to ClientServerMismatch (400), the right one to AuthOK (204);
        either way the auth event is set. */
    method RoutePingpong(headers: Headers, body: Json) returns (resp: Response)
      requires Valid() && ready
      modifies this`authState, this`authEventSet
      ensures Valid()
      ensures !Authorized(headers, auth) ==> resp == JsonError(401, "missing authorization")
      ensures Authorized(headers, auth) && challenge.None? ==> resp == Response(404, NoBody)
      ensures Authorized(headers, auth) && challenge.Some? && !HasField(body, "challenge") ==> resp == InternalError
      ensures !Authorized(headers, auth) || challenge.None? || !HasField(body, "challenge") ==>
        authState == old(authState) && authEventSet == old(authEventSet)
      ensures Authorized(headers, auth) && challenge.Some? && HasField(body, "challenge") ==>
        authEventSet &&
        if body.fields["challenge"] == JStr(challenge.value)
        then authState == Some(AuthOK) && resp == Response(204, NoBody)
        else authState == Some(ClientServerMismatch) && resp == Response(400, Text("Failed pingpong"))
    {
      if !Authorized(headers, auth) {
        return JsonError(401, "missing authorization");
      }
      if challenge.None? {
        return Response(404, NoBody);
      }
      if !HasField(body, "challenge") {
        return InternalError;
      }
      if body.fields["challenge"] != JStr(challenge.value) {
        authState := Some(ClientServerMismatch);
        authEventSet := true;
        return Response(400, Text("Failed pingpong"));
      }
      authState := Some(AuthOK);
      authEventSet := true;
      resp := Response(204, NoBody);
    }

    /** The task `route_kill_override` schedules: a graceful kill runs the (empty) graceful
        shutdown and ends the service once; an ungraceful one ends it twice, and the second
        call, finding no server, raises. */
    method KillTask(graceful: bool) returns (raised: bool)
      requires Valid()
      modifies this`serving, this`authState, this`auth
      ensures Valid()
      ensures old(serving) ==> !serving && authState == Some(Closing) && auth == JNull
      ensures raised <==> !graceful || !old(serving)
    {
      if graceful {
        raised := EndService(true);
      } else {
        var first := EndService(true);
        raised := EndService(true);
        raised := first || raised;
      }
    }

    /** `GET /authcheck`. */
    function RouteEnsureAuth(headers: Headers): (resp: Response)
      reads this
      ensures resp.status == 204 <==> Authorized(headers, auth)
      ensures resp.status != 204 ==> resp == JsonError(401, "bad authorization")
    {
      if Authorized(headers, auth) then Response(204, NoBody) else JsonError(401, "bad authorization")
    }

    /** `GET /outbound`: hands over the queued entries in insertion order, empties the queue
        and records the poll time; an unauthorised poll changes nothing. */
    method Outbound(headers: Headers, now: int) returns (resp: Response)
      requires Valid()
      modifies this`queue, this`lastPoll
      ensures Valid()
      ensures !Authorized(headers, auth) ==>
        resp == JsonError(401, "missing authorization") && queue == old(queue) && lastPoll == old(lastPoll)
      ensures Authorized(headers, auth) ==>
        resp == Response(200, Entries(old(queue))) && queue == [] && lastPoll == Some(now)
    {
      if !Authorized(headers, auth) {
        return JsonError(401, "missing authorization");
      }
      resp := Response(200, Entries(queue));
      queue := [];
      lastPoll := Some(now);
    }

    /** `POST /inbound`: schedules the manager's `handle_inbound` on the posted payload. */
    function Inbound(headers: Headers, body: Json): (r: (Response, Option<Json>))
      reads this
      ensures r.1.Some? <==> Authorized(headers, auth)
      ensures r.1.Some? ==> r.1.value == body && r.0 == Response(204, NoBody)
    {
      if !Authorized(headers, auth) then (JsonError(401, "missing authorization"), None)
      else (Response(204, NoBody), Some(body))
    }

    /** `POST /inbound/parse`: answers `{text}` with what the manager's `handle_parse`
        produced (`handled`), or, when that raised (`None`), with the posted
        `data.string` (itself raising when absent). */
    function InboundParse(headers: Headers, body: Json, handled: Option<Json>): (resp: Response)
      reads this
      ensures !Authorized(headers, auth) ==> resp == JsonError(401, "missing authorization")
      ensures Authorized(headers, auth) && handled.Some? ==>
        resp == Response(200, JsonBody(JObj(map["text" := handled.value])))
      ensures Authorized(headers, auth) && handled.None? && HasField(body, "data") && HasField(body.fields["data"], "string") ==>
        resp == Response(200, JsonBody(JObj(map["text" := body.fields["data"].fields["string"]])))
      ensures Authorized(headers, auth) && handled.None? && !(HasField(body, "data") && HasField(body.fields["data"], "string")) ==>
        resp == InternalError
    {
      if !Authorized(headers, auth) then JsonError(401, "missing authorization")
      else if handled.Some? then Response(200, JsonBody(JObj(map["text" := handled.value])))
      else if HasField(body, "data") && HasField(body.fields["data"], "string") then
        Response(200, JsonBody(JObj(map["text" := body.fields["data"].fields["string"]])))
      else InternalError
    }

    /** `POST /inbound/button`: past the guard it calls `manager.handle_button`, which does
        not exist, so the handler raises. */
    function InboundButton(headers: Headers): (resp: Response)
      reads this
      ensures resp.status == 401 <==> !Authorized(headers, auth)
      ensures Authorized(headers, auth) ==> resp == InternalError
    {
      if !Authorized(headers, auth) then JsonError(401, "missing authorization") else InternalError
    }

    /** `POST /inbound/load-plugin`: calls `manager.load_plugin(directory, plugin_id)` (the
        call is returned, its effect on the registry happens), then unpacks three values from
        the two it returns, which raises: an authorised request always gets a 500. */
    function InboundLoadPlugin(headers: Headers, body: Json): (r: (Response, Option<(Json, Json)>))
      reads this
      ensures !Authorized(headers, auth) ==> r == (JsonError(401, "missing authorization"), None)
      ensures Authorized(headers, auth) ==> r.0 == InternalError
      ensures r.1.Some? <==> Authorized(headers, auth) && HasField(body, "directory") && HasField(body, "plugin_id")
      ensures r.1.Some? ==> r.1.value == (body.fields["directory"], body.fields["plugin_id"])
    {
      if !Authorized(headers, auth) then (JsonError(401, "missing authorization"), None)
      else if HasField(body, "directory") && HasField(body, "plugin_id") then
        (InternalError, Some((body.fields["directory"], body.fields["plugin_id"])))
      else (InternalError, None)
    }

    /** `POST /inbound/reload-plugin`: past the guard it calls `manager.reload_plugin`, which
        does not exist. */
    function InboundReloadPlugin(headers: Headers): (resp: Response)
      reads this
      ensures resp.status == 401 <==> !Authorized(headers, auth)
      ensures Authorized(headers, auth) ==> resp == InternalError
    {
      if !Authorized(headers, auth) then JsonError(401, "missing authorization") else InternalError
    }

    /** `GET /inbound-ack`: runs the matching loop over `body["response"]`. */
    method InboundAck(headers: Headers, body: Json) returns (resp: Response)
      requires Valid()
      modifies this`nonces, this`waiters
      ensures Valid()
      ensures !Authorized(headers, auth) ==>
        resp == JsonError(401, "missing authorization") && nonces == old(nonces) && waiters == old(waiters)
      ensures Authorized(headers, auth) && !(HasField(body, "response") && body.fields["response"].JList?) ==>
        && resp.status == (if HasField(body, "response") && EmptyIterable(body.fields["response"]) then 204 else 500)
        && nonces == old(nonces) && waiters == old(waiters)
      ensures Authorized(headers, auth) && HasField(body, "response") && body.fields["response"].JList? ==>
        var r := AckFold(AckState(old(nonces), old(waiters), false), body.fields["response"].items);
        nonces == r.nonces && waiters == r.waiters && resp.status == (if r.failed then 500 else 204)
    {
      if !Authorized(headers, auth) {
        return JsonError(401, "missing authorization");
      }
      if !(HasField(body, "response") && body.fields["response"].JList?) {
        return if HasField(body, "response") && EmptyIterable(body.fields["response"]) then Response(204, NoBody)
          else InternalError;
      }
      var msgs := body.fields["response"].items;
      var st := AckState(nonces, waiters, false);
      var i := 0;
      while i < |msgs| && !st.failed
        invariant 0 <= i <= |msgs|
        invariant Registry(st.nonces, st.waiters)
        invariant AckFold(st, msgs[i..]) == AckFold(AckState(old(nonces), old(waiters), false), msgs)
      {
        assert msgs[i..][1..] == msgs[i + 1..];
        st := AckStep(st, msgs[i]);
        i := i + 1;
      }
      if st.failed {
        AckFoldFailed(st, msgs[i..]);
      }
      nonces, waiters := st.nonces, st.waiters;
      resp := if st.failed then InternalError else Response(204, NoBody);
    }

    /** The first half of `put_request`: registers a pending future under the fresh `nonce`
        and queues exactly one `{nonce, data}` entry for the next poll. */
    method PutRequest(payload: Json, nonce: string)
      requires Valid() && nonce !in waiters
      modifies this`nonces, this`waiters, this`queue
      ensures Valid()
      ensures nonces == old(nonces) + {nonce} && waiters == old(waiters)[nonce := Pending]
      ensures queue == old(queue) + [Entry(Some(nonce), payload)]
    {
      nonces := nonces + {nonce};
      waiters := waiters[nonce := Pending];
      queue := queue + [Entry(Some(nonce), payload)];
    }

    /** Expiry as written: `wait_for` cancels the future and raises TimeoutError, which the
        `except CancelledError` branch does not catch; the nonce stays registered. */
    method ExpireAsWritten(nonce: string) returns (o: RequestOutcome)
      requires Valid() && nonce in nonces && waiters[nonce] == Pending
      modifies this`waiters
      ensures Valid()
      ensures o == RaisedTimeout && nonces == old(nonces) && waiters == old(waiters)[nonce := Cancelled]
      ensures !Clean(nonces, waiters)
    {
      waiters := waiters[nonce := Cancelled];
      o := RaisedTimeout;
    }

    /** Expiry as intended (the body of the written except branch, reached on timeout):
        the entry is removed and the caller gets `None`. */
    method Expire(nonce: string) returns (o: RequestOutcome)
      requires Valid() && nonce in nonces && waiters[nonce] == Pending
      modifies this`nonces, this`waiters
      ensures Valid()
      ensures o == AnsweredNone && nonces == old(nonces) - {nonce} && waiters == old(waiters)[nonce := Cancelled]
      ensures Clean(old(nonces), old(waiters)) ==> Clean(nonces, waiters)
    {
      nonces := nonces - {nonce};
      waiters := waiters[nonce := Cancelled];
      o := AnsweredNone;
    }

    /** `notify_error(plugin_id, msg)`: queues an `@error` notice with no nonce. */
    method NotifyError(pluginId: string, message: Json)
      requires Valid()
      modifies this`queue
      ensures Valid()
      ensures queue == old(queue) + [Entry(None, Notice("@error", pluginId, message))]
    {
      queue := queue + [Entry(None, Notice("@error", pluginId, message))];
    }

    /** `send_log(plugin_id, msg)`: queues an `@log` notice with no nonce. */
    method SendLog(pluginId: string, message: Json)
      requires Valid()
      modifies this`queue
      ensures Valid()
      ensures queue == old(queue) + [Entry(None, Notice("@log", pluginId, message))]
    {
      queue := queue + [Entry(None, Notice("@log", pluginId, message))];
    }
  }

  function Notice(kind: string, pluginId: string, message: Json): Json {
    JObj(map["type" := JStr(kind), "plugin_id" := JStr(pluginId), "message" := message])
  }

  /** Every guarded route rejects a request whose header is not the stored secret, before
      looking at its body. */
  lemma GuardedRoutesReject(h: HttpHandler, headers: Headers, body: Json, handled: Option<Json>)
    requires !Authorized(headers, h.auth)
    ensures h.RouteEnsureAuth(headers).status == 401
    ensures h.Inbound(headers, body).0.status == 401 && h.Inbound(headers, body).1.None?
    ensures h.InboundParse(headers, body, handled).status == 401
    ensures h.InboundButton(headers).status == 401
    ensures h.InboundLoadPlugin(headers, body).1.None?
    ensures h.InboundReloadPlugin(headers).status == 401
  {
  }

  /** After the auth route stored secret `c`, exactly the header `c` passes the guard. */
  lemma GuardAcceptsOnlySecret(headers: Headers, c: string)
    ensures Authorized(headers, JStr(c)) <==> "Authorization" in headers && headers["Authorization"] == c
    ensures !Authorized(headers, JNull)
  {
  }
}

=== FILE: interface.dfy ===
/** Injectors: classes whose decorated methods become plugin listeners
    (TMHK-docker/daemon/daemon/interface.py). The class-level `__inject_listeners__` dict is
    the `listeners` field of an `InjectorClass`; a missing attribute is the empty dict. */
module Interface {
  import opened Wrappers
  import opened Values
  import Manager

  class InjectorClass {
    const name: string
    /** `cls.__inject_listeners__`. */
    var listeners: Manager.Listeners

    constructor (name: string)
      ensures this.name == name && listeners == map[]
    {
      this.name := name;
      listeners := map[];
    }

    /** The callable `cls.on_error`. */
    function OnError(): Handler {
      Handler(name, "on_error")
    }

    /** `listen(event)` applied to a method: the class table maps `event` to it, replacing
        any earlier registration for that event. */
    method Listen(event: string, meth: Handler)
      modifies this`listeners
      ensures listeners == old(listeners)[event := meth]
    {
      listeners := listeners[event := meth];
    }

    /** `Injector.__new__`: makes sure the class table has an `"error"` entry, adding
        `on_error` only when none was declared, then creates the instance. */
    method Instantiate() returns (inj: Injector)
      modifies this`listeners
      ensures fresh(inj) && inj.cls == this
      ensures "error" in old(listeners) ==> listeners == old(listeners)
      ensures "error" !in old(listeners) ==> listeners == old(listeners)["error" := OnError()]
    {
      if "error" !in listeners {
        listeners := listeners["error" := OnError()];
      }
      inj := new Injector(this);
    }
  }

  /** The default `on_error` answers with the formatted traceback. */
  function OnErrorReply(trace: string): (r: Manager.HandlerReply)
    ensures r.Returned? && r.value == JStr(trace)
  {
    Manager.Returned(JStr(trace))
  }

  /** As intended (the default listener bound to the injector instance, so that it receives
      the event name and the exception), a plugin whose only error listener is the default
      one reports the bare traceback. */
  lemma DefaultErrorReport(t: Manager.Table, c: InjectorClass, trace: string)
    requires "error" in t && t["error"] == [c.OnError()]
    ensures Manager.ErrorReportOf(t, OnErrorReply(trace)) == Manager.Report(JStr(trace))
  {
  }

  /** The banner `call_error_listeners` puts before the traceback of a crashed error
      listener. */
  const HandlerCrashBanner := "An error occurred in the error handler\n"

  /** Calling the default error listener as written: the table holds `cls.on_error` taken
      from the class, a plain function, so `caller(event, error)` binds `self` to the event
      name and `event` to the exception, leaves `exception` unfilled and raises TypeError;
      `callTrace` is the formatted traceback of that TypeError. */
  function OnErrorReplyAsWritten(callTrace: string): (r: Manager.HandlerReply)
    ensures r.HandlerRaised?
  {
    Manager.HandlerRaised(callTrace)
  }

  /** As written, a plugin whose only error listener is the default one never reports the
      plugin's traceback: the report is always the banner of a crashed handler followed by
      the TypeError of the call itself. */
  lemma DefaultErrorReportAsWritten(t: Manager.Table, c: InjectorClass, callTrace: string)
    requires "error" in t && t["error"] == [c.OnError()]
    ensures var r := Manager.ErrorReportOf(t, OnErrorReplyAsWritten(callTrace));
      && r == Manager.Report(JStr(HandlerCrashBanner + callTrace))
      && r.message.s[..|HandlerCrashBanner|] == HandlerCrashBanner
  {
  }

  class Injector {
    const cls: InjectorClass

    constructor (cls: InjectorClass)
      ensures this.cls == cls
    {
      this.cls := cls;
    }

    /** `_setup` as written: `add_listeners` receives two arguments where it takes one, so
        the call raises TypeError before the plugin's table is touched. */
    method SetupAsWritten(plugin: Manager.Plugin) returns (raised: Option<string>)
      ensures raised == Some("TypeError")
    {
      raised := Some("TypeError");
    }

    /** `_setup` as intended: the class table is added to the plugin's listeners. */
    method Setup(plugin: Manager.Plugin)
      modifies plugin`listeners
      ensures plugin.listeners == Manager.Added(old(plugin.listeners), cls.listeners)
    {
      plugin.AddListeners(cls.listeners);
    }

    /** `_teardown`: exactly the class table's listeners are removed from the plugin. */
    method Teardown(plugin: Manager.Plugin)
      modifies plugin`listeners
      ensures plugin.listeners == Manager.Removed(old(plugin.listeners), cls.listeners)
    {
      plugin.RemoveListeners(cls.listeners);
    }
  }

  /** The `Interface` handed to a plugin's `init`. */
  class Interface {
    const plugin: Manager.Plugin
    /** `__injectors`. */
    var injectors: seq<Injector>

    ghost predicate Valid()
      reads this
    {
      forall i, j :: 0 <= i < j < |injectors| ==> injectors[i] != injectors[j]
    }

    constructor (plugin: Manager.Plugin)
      ensures this.plugin == plugin && injectors == [] && Valid()
    {
      this.plugin := plugin;
      injectors := [];
    }

    /** `load_injector` as written: an attached injector is refused; any other reaches
        `_setup`, which raises, so nothing is ever attached. */
    method LoadInjectorAsWritten(inj: Injector) returns (raised: Option<string>)
      requires Valid()
      ensures Valid()
      ensures raised == Some(if inj in injectors then "InjectorLoadUnloadError" else "TypeError")
    {
      if inj in injectors {
        return Some("InjectorLoadUnloadError");
      }
      raised := inj.SetupAsWritten(plugin);
    }

    /** `load_injector` with the setup call corrected: an attached injector is refused with
        nothing changed; otherwise setup runs and the injector is appended exactly once. */
    method LoadInjector(inj: Injector) returns (raised: Option<string>)
      requires Valid()
      modifies this`injectors, plugin`listeners
      ensures Valid()
      ensures old(inj in injectors) ==>
        raised == Some("InjectorLoadUnloadError") && injectors == old(injectors)
        && plugin.listeners == old(plugin.listeners)
      ensures !old(inj in injectors) ==>
        raised.None? && injectors == old(injectors) + [inj]
        && plugin.listeners == Manager.Added(old(plugin.listeners), inj.cls.listeners)
    {
      if inj in injectors {
        return Some("InjectorLoadUnloadError");
      }
      inj.Setup(plugin);
      injectors := injectors + [inj];
      raised := None;
    }

    /** `unload_injector`: the injector leaves the list before teardown; an unattached one
        makes `list.remove` raise ValueError, which the `except KeyError` lets through. */
    method UnloadInjector(inj: Injector) returns (raised: Option<string>)
      requires Valid()
      modifies this`injectors, plugin`listeners
      ensures Valid()
      ensures !old(inj in injectors) ==>
        raised == Some("ValueError") && injectors == old(injectors) && plugin.listeners == old(plugin.listeners)
      ensures old(inj in injectors) ==>
        raised.None? && injectors == RemoveFirst(old(injectors), inj) && inj !in injectors
        && plugin.listeners == Manager.Removed(old(plugin.listeners), inj.cls.listeners)
    {
      if inj !in injectors {
        return Some("ValueError");
      }
      RemovedOnce(injectors, inj);
      injectors := RemoveFirst(injectors, inj);
      inj.Teardown(plugin);
      raised := None;
    }
  }

  /** Removing from a list without repeats leaves no copy and no repeats. */
  lemma {:induction false} RemovedOnce(s: seq<Injector>, x: Injector)
    requires forall i, j :: 0 <= i < j < |s| ==> s[i] != s[j]
    ensures x !in RemoveFirst(s, x)
    ensures forall i, j :: 0 <= i < j < |RemoveFirst(s, x)| ==> RemoveFirst(s, x)[i] != RemoveFirst(s, x)[j]
    decreases |s|
  {
    if s != [] {
      if s[0] == x {
        assert forall j :: 0 < j < |s| ==> s[j] != s[0];
      } else {
        var tail := RemoveFirst(s[1..], x);
        RemovedOnce(s[1..], x);
        RemoveFirstWithin(s[1..], x);
        assert s[0] !in s[1..] by {
          assert forall j :: 0 < j < |s| ==> s[j] != s[0];
        }
        assert RemoveFirst(s, x) == [s[0]] + tail;
      }
    }
  }

  lemma {:induction false} RemoveFirstWithin(s: seq<Injector>, x: Injector)
    ensures forall y :: y in RemoveFirst(s, x) ==> y in s
    decreases |s|
  {
    if s != [] && s[0] != x {
      RemoveFirstWithin(s[1..], x);
      assert RemoveFirst(s, x) == [s[0]] + RemoveFirst(s[1..], x);
    }
  }
}

=== FILE: manager.dfy ===
/** The plugin registry and each plugin's listener table
    (TMHK-docker/daemon/daemon/manager.py). Importing the plugin module and running its
    `init` are oracles: the import either succeeds or yields a traceback, and `init`
    yields the listener dicts it registered and, possibly, the traceback it raised with.
    A listener callback is a `Handler`; whether calling it raises is given by a set. */
module Manager {
  import opened Wrappers
  import opened Values
  import Common
  import Http

  /** `Plugin._listeners`: event name to the ordered list of callbacks. */
  type Table = map<string, seq<Handler>>

  /** The dict of event name to callback that `add_listeners`/`remove_listeners` take. */
  type Listeners = map<string, Handler>

  function Get(t: Table, e: string): seq<Handler> {
    if e in t then t[e] else []
  }

  /** The table after `add_listeners(m)`: each named callback appended to its event's list. */
  function Added(t: Table, m: Listeners): Table {
    map e | e in t.Keys + m.Keys :: if e in m then Get(t, e) + [m[e]] else t[e]
  }

  /** The table after `remove_listeners(m)`: one occurrence of each named callback gone, the
      event keys untouched. */
  function Removed(t: Table, m: Listeners): Table {
    map e | e in t :: if e in m then RemoveFirst(t[e], m[e]) else t[e]
  }

  /** The listener dicts registered one after another. */
  function AddedAll(t: Table, regs: seq<Listeners>): Table
    decreases |regs|
  {
    if regs == [] then t else Added(AddedAll(t, regs[..|regs| - 1]), regs[|regs| - 1])
  }

  function Restrict(m: Listeners, keys: set<string>): Listeners {
    map e | e in m && e in keys :: m[e]
  }

  /** The callbacks among `s` that raise, in call order. */
  function Failing(s: seq<Handler>, raises: set<Handler>): (r: seq<Handler>)
    ensures |r| <= |s|
    ensures forall h :: h in r <==> h in s && h in raises
    decreases |s|
  {
    if s == [] then []
    else Failing(s[..|s| - 1], raises) + (if s[|s| - 1] in raises then [s[|s| - 1]] else [])
  }

  /** Teardown undoes setup: removing what was added gives back every event's list, as a
      multiset always and exactly when the callback was not already listed; an event the
      add created is left with an empty list. */
  lemma AddThenRemove(t: Table, m: Listeners)
    ensures Removed(Added(t, m), m).Keys == t.Keys + m.Keys
    ensures forall e :: e in m && e !in t ==> Removed(Added(t, m), m)[e] == []
    ensures forall e :: e in t ==> multiset(Removed(Added(t, m), m)[e]) == multiset(t[e])
    ensures forall e :: e in t && (e in m ==> m[e] !in t[e]) ==> Removed(Added(t, m), m)[e] == t[e]
  {
    AddedKeys(t, m);
    forall e | e in t.Keys + m.Keys
      ensures e in Removed(Added(t, m), m)
      ensures e in m && e !in t ==> Removed(Added(t, m), m)[e] == []
      ensures e in t ==> multiset(Removed(Added(t, m), m)[e]) == multiset(t[e])
      ensures e in t && (e in m ==> m[e] !in t[e]) ==> Removed(Added(t, m), m)[e] == t[e]
    {
      AddThenRemoveAt(t, m, e);
    }
  }

  lemma AddedKeys(t: Table, m: Listeners)
    ensures Added(t, m).Keys == t.Keys + m.Keys
    ensures Removed(Added(t, m), m).Keys == t.Keys + m.Keys
  {
  }

  lemma AddThenRemoveAt(t: Table, m: Listeners, e: string)
    requires e in t.Keys + m.Keys
    ensures e in Removed(Added(t, m), m)
    ensures e in m && e !in t ==> Removed(Added(t, m), m)[e] == []
    ensures e in t ==> multiset(Removed(Added(t, m), m)[e]) == multiset(t[e])
    ensures e in t && (e in m ==> m[e] !in t[e]) ==> Removed(Added(t, m), m)[e] == t[e]
  {
    var r := Removed(Added(t, m), m);
    if e in m {
      assert r[e] == RemoveFirst(Get(t, e) + [m[e]], m[e]);
      if e in t {
        RemoveFirstCount(t[e] + [m[e]], m[e]);
        assert multiset(t[e] + [m[e]]) == multiset(t[e]) + multiset{m[e]};
        if m[e] !in t[e] {
          RemoveLast(t[e], m[e]);
        }
      } else {
        assert Get(t, e) + [m[e]] == [m[e]];
      }
    }
  }

  lemma AddedStep(t: Table, m: Listeners, done: set<string>, e: string)
    requires e in m && e !in done
    ensures Added(t, Restrict(m, done + {e})) == Added(t, Restrict(m, done))[e := Get(t, e) + [m[e]]]
  {
    var a := Added(t, Restrict(m, done + {e}));
    var b := Added(t, Restrict(m, done))[e := Get(t, e) + [m[e]]];
    assert a.Keys == b.Keys;
    forall k | k in a ensures a[k] == b[k] {
    }
  }

  lemma RemovedStep(t: Table, m: Listeners, done: set<string>, e: string)
    requires e in m && e !in done
    ensures e in t ==> Removed(t, Restrict(m, done + {e})) == Removed(t, Restrict(m, done))[e := RemoveFirst(t[e], m[e])]
    ensures e !in t ==> Removed(t, Restrict(m, done + {e})) == Removed(t, Restrict(m, done))
  {
    var a := Removed(t, Restrict(m, done + {e}));
    var b := Removed(t, Restrict(m, done));
    assert a.Keys == b.Keys;
    if e in t {
      var b' := b[e := RemoveFirst(t[e], m[e])];
      assert a[e] == b'[e];
      forall k | k in a && k != e ensures a[k] == b'[k] {
        assert a[k] == b[k];
      }
      assert a == b';
    } else {
      forall k | k in a ensures a[k] == b[k] {
      }
    }
  }

  // ---- metadata and loading ------------------------------------------------------------

  const PluginJson := "plugin.json"
  const InitPy := "init.py"
  const StoreFile := ".__dock_store"
  const RequiredKeys: seq<string> := ["name", "description", "author", "version"]

  /** What loading sees of a plugin directory: its file names, `plugin.json` parsed (`None`
      when it does not parse) and the content of `.__dock_store`. */
  datatype PluginDir = PluginDir(files: set<string>, manifest: Option<map<string, string>>, store: string)

  /** `PluginMeta`. */
  datatype Meta = Meta(name: string, description: string, author: string, version: string,
                       uiConfig: Option<string>, dockVersion: Option<string>, scriptId: string)

  /** What the plugin's `init` did: the listener dicts it registered, then possibly a raise. */
  datatype InitOutcome = InitOutcome(registered: seq<Listeners>, raised: Option<string>)

  /** `PluginLoadFailed(script_name, error, traceback)`. */
  datatype LoadFailure = LoadFailure(script: string, error: string, trace: Option<string>)

  datatype CheckResult = Passed(meta: Meta) | Rejected(failure: LoadFailure)

  /** `load`'s `(ok, resp)`. */
  datatype LoadResult = Loaded(id: string) | Failed(message: string)

  /** The index of the first required key the manifest lacks (`|keys|` when none). */
  function FirstMissing(keys: seq<string>, cfg: map<string, string>): (i: nat)
    ensures i <= |keys|
    ensures forall j :: 0 <= j < i ==> keys[j] in cfg
    ensures i < |keys| ==> keys[i] !in cfg
    decreases |keys|
  {
    if keys == [] then 0
    else if keys[0] !in cfg then 0
    else 1 + FirstMissing(keys[1..], cfg)
  }

  predicate Complete(cfg: map<string, string>) {
    FirstMissing(RequiredKeys, cfg) == |RequiredKeys|
  }

  function Lookup(cfg: map<string, string>, k: string): Option<string> {
    if k in cfg then Some(cfg[k]) else None
  }

  predicate IdGiven(s: Option<string>) {
    s.Some? && s.value != ""
  }

  /** The id the plugin ends up with and what is written to `.__dock_store`: a fresh id is
      generated and written only when there is no store file and no id was supplied; a store
      file, when present, is read; otherwise the supplied id is kept. */
  datatype IdResolution = IdResolution(id: string, written: Option<string>)

  function ResolveId(files: set<string>, supplied: Option<string>, store: string, freshId: string): (r: IdResolution)
    ensures r.written.Some? <==> StoreFile !in files && !IdGiven(supplied)
    ensures r.written.Some? ==> r.id == freshId && r.written.value == freshId
    ensures StoreFile in files ==> r.id == store
    ensures StoreFile !in files && IdGiven(supplied) ==> r.id == supplied.value
  {
    if StoreFile !in files && !IdGiven(supplied) then IdResolution(freshId, Some(freshId))
    else if StoreFile in files then IdResolution(store, None)
    else IdResolution(supplied.value, None)
  }

  /** The id branch as written: the `elif` tests for the store file's ABSENCE again, so an
      existing store is never read (the supplied id, possibly `None`, is kept) and a
      supplied id without a store file makes the read of the missing file raise. */
  datatype IdResolutionAsWritten = ResolvedAsWritten(id: Option<string>, written: Option<string>) | StoreNotFound

  function ResolveIdAsWritten(files: set<string>, supplied: Option<string>, store: string, freshId: string): (r: IdResolutionAsWritten)
    ensures StoreFile in files ==> r == ResolvedAsWritten(supplied, None)
    ensures StoreFile !in files && IdGiven(supplied) ==> r == StoreNotFound
  {
    if StoreFile !in files && !IdGiven(supplied) then ResolvedAsWritten(Some(freshId), Some(freshId))
    else if StoreFile !in files then StoreNotFound
    else ResolvedAsWritten(supplied, None)
  }

  /** The inverted test: a plugin whose store holds its id, loaded without an id, ends up
      with no id at all, and loading with a remembered id and no store file raises; the
      corrected branch keeps the stored id and the supplied one respectively. */
  lemma StoreReadInverted(files: set<string>, store: string, freshId: string, id: string)
    requires StoreFile in files && id != ""
    ensures ResolveIdAsWritten(files, None, store, freshId) == ResolvedAsWritten(None, None)
    ensures ResolveId(files, None, store, freshId).id == store
    ensures ResolveIdAsWritten(files - {StoreFile}, Some(id), store, freshId) == StoreNotFound
    ensures ResolveId(files - {StoreFile}, Some(id), store, freshId).id == id
  {
  }

  /** The checks of `try_load` up to the import, in their order: `plugin.json` present, it
      parses, the four required keys, then `init.py` present, then the import. */
  function Check(dirName: string, dir: PluginDir, supplied: Option<string>, freshId: string,
                 importError: Option<string>): (r: CheckResult)
    ensures PluginJson !in dir.files ==>
      r == Rejected(LoadFailure("@" + dirName, "directory does not contain a plugin.json file.", None))
    ensures PluginJson in dir.files && dir.manifest.None? ==>
      r == Rejected(LoadFailure("@" + dirName, "unable to load plugin.json", None))
    ensures PluginJson in dir.files && dir.manifest.Some? && !Complete(dir.manifest.value) ==>
      r == Rejected(LoadFailure("@" + dirName, "plugin.json is missing key: " + RequiredKeys[FirstMissing(RequiredKeys, dir.manifest.value)], None))
    ensures r.Rejected? && r.failure.script != "@" + dirName ==>
      PluginJson in dir.files && dir.manifest.Some? && Complete(dir.manifest.value)
    ensures PluginJson in dir.files && dir.manifest.Some? && Complete(dir.manifest.value) && InitPy !in dir.files ==>
      r == Rejected(LoadFailure(dir.manifest.value["name"], "no init.py file found", None))
    ensures r.Passed? <==>
      PluginJson in dir.files && dir.manifest.Some? && Complete(dir.manifest.value) && InitPy in dir.files && importError.None?
    ensures r.Passed? ==>
      && r.meta.scriptId == ResolveId(dir.files, supplied, dir.store, freshId).id
      && r.meta.name == dir.manifest.value["name"]
  {
    if PluginJson !in dir.files then
      Rejected(LoadFailure("@" + dirName, "directory does not contain a plugin.json file.", None))
    else if dir.manifest.None? then
      Rejected(LoadFailure("@" + dirName, "unable to load plugin.json", None))
    else
      var cfg := dir.manifest.value;
      var k := FirstMissing(RequiredKeys, cfg);
      if k < |RequiredKeys| then
        Rejected(LoadFailure("@" + dirName, "plugin.json is missing key: " + RequiredKeys[k], None))
      else if InitPy !in dir.files then
        Rejected(LoadFailure(cfg["name"], "no init.py file found", None))
      else if importError.Some? then
        Rejected(LoadFailure(cfg["name"], "Failed to load module", importError))
      else
        Passed(MakeMeta(cfg, ResolveId(dir.files, supplied, dir.store, freshId).id))
  }

  function MakeMeta(cfg: map<string, string>, id: string): Meta
    requires Complete(cfg)
  {
    Meta(cfg["name"], cfg["description"], cfg["author"], cfg["version"],
         Lookup(cfg, "ui_config"), Lookup(cfg, "dock_version"), id)
  }

  /** `.__dock_store` is written (before the `init.py` check) exactly when the manifest
      passed and neither a store file nor an id was there. */
  function StoreWritten(dir: PluginDir, supplied: Option<string>, freshId: string): (w: Option<string>)
    ensures w.Some? <==>
      && PluginJson in dir.files && dir.manifest.Some? && Complete(dir.manifest.value)
      && StoreFile !in dir.files && !IdGiven(supplied)
    ensures w.Some? ==> w.value == freshId
  {
    if PluginJson in dir.files && dir.manifest.Some? && Complete(dir.manifest.value) then
      ResolveId(dir.files, supplied, dir.store, freshId).written
    else None
  }

  /** The message `load` returns for a failure: the traceback is appended after a newline
      only when there is a non-empty one. */
  function FailureMessage(f: LoadFailure): (m: string)
    ensures var base := "Failed to load script '" + f.script + "': " + f.error;
      && |base| <= |m| && m[..|base|] == base
      && (m == base <==> f.trace.None? || f.trace.value == "")
      && (m != base ==> f.trace.Some? && |m| == |base| + 1 + |f.trace.value| && m[|base|] == '\n' && m[|base| + 1..] == f.trace.value)
  {
    var base := "Failed to load script '" + f.script + "': " + f.error;
    if f.trace.Some? && f.trace.value != "" then base + "\n" + f.trace.value else base
  }

  /** `load`'s answer: `(True, script_id)` when every check passed and `init` returned,
      `(False, message)` otherwise. */
  function LoadOutcome(dirName: string, dir: PluginDir, supplied: Option<string>, freshId: string,
                       importError: Option<string>, init: InitOutcome): (r: LoadResult)
    ensures r.Loaded? <==> Check(dirName, dir, supplied, freshId, importError).Passed? && init.raised.None?
    ensures r.Loaded? ==> r.id == ResolveId(dir.files, supplied, dir.store, freshId).id
    ensures Check(dirName, dir, supplied, freshId, importError).Rejected? ==>
      r == Failed(FailureMessage(Check(dirName, dir, supplied, freshId, importError).failure))
  {
    match Check(dirName, dir, supplied, freshId, importError)
      case Rejected(f) => Failed(FailureMessage(f))
      case Passed(meta) =>
        if init.raised.Some? then
          Failed(FailureMessage(LoadFailure(meta.name, "Encountered an error while calling init", init.raised)))
        else Loaded(meta.scriptId)
  }

  // ---- error and parse dispatch ----------------------------------------------------------

  /** What the first error callback produced: a value, or a raise with its traceback. */
  datatype HandlerReply = Returned(value: Json) | HandlerRaised(trace: string)

  function HandlerText(reply: HandlerReply): Json {
    match reply
      case Returned(v) => v
      case HandlerRaised(tr) => JStr("An error occurred in the error handler\n" + tr)
  }

  const MultipleHandlersNote := "\n\nMultiple error handlers registered. Only one will be used, and this message will not go away until there is only one"

  datatype ErrorReport = NoErrorHandler | ReportCrashed(reason: string) | Report(message: Json)

  /** The items `list += s` appends for a string `s`: one one-character string per
      character. */
  function CharItems(s: string): (items: seq<Json>)
    ensures |items| == |s| && forall k :: 0 <= k < |s| ==> items[k] == JStr([s[k]])
  {
    if s == [] then [] else [JStr([s[0]])] + CharItems(s[1..])
  }

  /** What `call_error_listeners` computes: nothing without an `"error"` entry; only the first
      callback is consulted (an empty list raises IndexError); with several registered the
      note is added with `+=`, which appends it to a string reply, extends a list reply by
      the note's characters, and raises for any other reply. */
  function ErrorReportOf(t: Table, reply: HandlerReply): (r: ErrorReport)
    ensures r == NoErrorHandler <==> "error" !in t
    ensures "error" in t && t["error"] == [] ==> r == ReportCrashed("IndexError")
    ensures "error" in t && |t["error"]| == 1 ==> r == Report(HandlerText(reply))
    ensures "error" in t && |t["error"]| > 1 && HandlerText(reply).JStr? ==>
      r == Report(JStr(HandlerText(reply).s + MultipleHandlersNote))
    ensures "error" in t && |t["error"]| > 1 && HandlerText(reply).JList? ==>
      && r.Report? && r.message.JList?
      && |r.message.items| == |HandlerText(reply).items| + |MultipleHandlersNote|
      && r.message.items[..|HandlerText(reply).items|] == HandlerText(reply).items
      && forall k :: 0 <= k < |MultipleHandlersNote| ==>
           r.message.items[|HandlerText(reply).items| + k] == JStr([MultipleHandlersNote[k]])
    ensures "error" in t && |t["error"]| > 1 && !HandlerText(reply).JStr? && !HandlerText(reply).JList? ==>
      r == ReportCrashed("TypeError")
  {
    if "error" !in t then NoErrorHandler
    else if t["error"] == [] then ReportCrashed("IndexError")
    else
      var text := HandlerText(reply);
      if |t["error"]| > 1 then
        match text
        case JStr(s) => Report(JStr(s + MultipleHandlersNote))
        case JList(items) => Report(JList(items + CharItems(MultipleHandlersNote)))
        case _ => ReportCrashed("TypeError")
      else Report(text)
  }

  /** As written, the report is handed to `notify_error` with one argument where two are
      required, so every report raises TypeError and nothing is ever queued. */
  function ErrorReportAsWritten(t: Table, reply: HandlerReply): (r: ErrorReport)
    ensures !r.Report?
    ensures r == NoErrorHandler <==> "error" !in t
  {
    match ErrorReportOf(t, reply)
      case Report(_) => ReportCrashed("TypeError")
      case other => other
  }

  /** `has_parse_hook`: a non-empty `"parse"` list. */
  predicate HasParseHook(t: Table) {
    "parse" in t && t["parse"] != []
  }

  /** What the parse hook reply was: `str()` of its return value, or a raise. */
  datatype HookReply = HookReturned(text: string) | HookRaised

  /** One `call_parse_hook`: the text produced (`None` when it raised), the hook consulted,
      and whether the error listeners were scheduled. */
  datatype ParseRun = ParseRun(result: Option<Json>, hook: Option<Handler>, errorScheduled: bool)

  function CallParseHook(t: Table, payload: Json, reply: HookReply): (r: ParseRun)
    ensures r.hook.Some? <==> HasParseHook(t) && Common.MakeParseData(payload).Some?
    ensures r.hook.Some? ==> r.hook.value == t["parse"][0]
    ensures !HasParseHook(t) ==> r.result == (if HasField(payload, "string") then Some(payload.fields["string"]) else None)
    ensures r.errorScheduled <==> r.hook.Some? && reply == HookRaised
    ensures r.hook.Some? ==> r.result == Some(if reply.HookReturned? then JStr(reply.text) else payload.fields["string"])
  {
    if !HasParseHook(t) then
      ParseRun(if HasField(payload, "string") then Some(payload.fields["string"]) else None, None, false)
    else if Common.MakeParseData(payload).None? then ParseRun(None, None, false)
    else match reply
      case HookReturned(text) => ParseRun(Some(JStr(text)), Some(t["parse"][0]), false)
      case HookRaised => ParseRun(Some(payload.fields["string"]), Some(t["parse"][0]), true)
  }

  /** Without a hook, or when the hook raises, the input string comes back unchanged. */
  lemma ParseFallsBackToInput(t: Table, payload: Json, reply: HookReply)
    requires HasField(payload, "string")
    requires !HasParseHook(t) || (reply == HookRaised && Common.MakeParseData(payload).Some?)
    ensures CallParseHook(t, payload, reply).result == Some(payload.fields["string"])
  {
  }

  class Plugin {
    const directory: string
    var config: Option<map<string, string>>
    var meta: Option<Meta>
    var moduleLoaded: bool
    /** Nothing in the source ever sets this. */
    var enabled: bool
    var listeners: Table

    constructor (directory: string)
      ensures this.directory == directory && config == None && meta == None
      ensures !moduleLoaded && !enabled && listeners == map[]
    {
      this.directory := directory;
      config := None;
      meta := None;
      moduleLoaded := false;
      enabled := false;
      listeners := map[];
    }

    /** `add_listeners`. */
    method AddListeners(m: Listeners)
      modifies this`listeners
      ensures listeners == Added(old(listeners), m)
    {
      var todo := m.Keys;
      while todo != {}
        invariant todo <= m.Keys
        invariant listeners == Added(old(listeners), Restrict(m, m.Keys - todo))
        decreases todo
      {
        var e :| e in todo;
        AddedStep(old(listeners), m, m.Keys - todo, e);
        listeners := listeners[e := (if e in listeners then listeners[e] else []) + [m[e]]];
        assert m.Keys - (todo - {e}) == (m.Keys - todo) + {e};
        todo := todo - {e};
      }
      assert Restrict(m, m.Keys) == m;
    }

    /** `remove_listeners`: a missing event or a callback not in its list is skipped. */
    method RemoveListeners(m: Listeners)
      modifies this`listeners
      ensures listeners == Removed(old(listeners), m)
    {
      var todo := m.Keys;
      while todo != {}
        invariant todo <= m.Keys
        invariant listeners == Removed(old(listeners), Restrict(m, m.Keys - todo))
        decreases todo
      {
        var e :| e in todo;
        RemovedStep(old(listeners), m, m.Keys - todo, e);
        if e in listeners && m[e] in listeners[e] {
          listeners := listeners[e := RemoveFirst(listeners[e], m[e])];
        } else if e in listeners {
          assert RemoveFirst(listeners[e], m[e]) == listeners[e];
          assert listeners[e := listeners[e]] == listeners;
        }
        assert m.Keys - (todo - {e}) == (m.Keys - todo) + {e};
        todo := todo - {e};
      }
      assert Restrict(m, m.Keys) == m;
    }

    /** `call_listeners(event)`: every callback of the event, in order; one that raises only
        schedules the error listeners and the rest still run. */
    method CallListeners(event: string, raises: set<Handler>) returns (invoked: seq<Handler>, failed: seq<Handler>)
      ensures invoked == Get(listeners, event)
      ensures failed == Failing(invoked, raises)
    {
      invoked, failed := [], [];
      if event in listeners {
        var hs := listeners[event];
        var i := 0;
        while i < |hs|
          invariant 0 <= i <= |hs|
          invariant invoked == hs[..i]
          invariant failed == Failing(hs[..i], raises)
        {
          assert hs[..i + 1][..i] == hs[..i];
          invoked := invoked + [hs[i]];
          if hs[i] in raises {
            failed := failed + [hs[i]];
          }
          i := i + 1;
        }
        assert hs[..|hs|] == hs;
      }
    }

    /** `eject_listeners`: the `"unload"` callbacks run, then the table is emptied (so the
        error reports they schedule find no error handler). */
    method EjectListeners(raises: set<Handler>) returns (invoked: seq<Handler>, failed: seq<Handler>)
      modifies this`listeners
      ensures invoked == Get(old(listeners), "unload") && failed == Failing(invoked, raises)
      ensures listeners == map[]
    {
      invoked, failed := CallListeners("unload", raises);
      listeners := map[];
    }

    /** `call_error_listeners` with the call to `notify_error` given the plugin id it needs. */
    method CallErrorListeners(reply: HandlerReply, http: Http.HttpHandler)
      requires http.Valid() && meta.Some?
      modifies http`queue
      ensures http.Valid()
      ensures ErrorReportOf(listeners, reply).Report? ==>
        http.queue == old(http.queue) + [Http.Entry(None, Http.Notice("@error", meta.value.scriptId, ErrorReportOf(listeners, reply).message))]
      ensures !ErrorReportOf(listeners, reply).Report? ==> http.queue == old(http.queue)
    {
      var report := ErrorReportOf(listeners, reply);
      if report.Report? {
        http.NotifyError(meta.value.scriptId, report.message);
      }
    }

    /** `try_load`: the checks in order, assigning `config`, `meta` and the module as they
        pass; `init` then registers its listeners. Returns the failure, if any, and what was
        written to the store file. */
    method TryLoad(dir: PluginDir, supplied: Option<string>, freshId: string, importError: Option<string>, init: InitOutcome)
      returns (failure: Option<LoadFailure>, written: Option<string>)
      modifies this`config, this`meta, this`moduleLoaded, this`listeners
      ensures written == StoreWritten(dir, supplied, freshId)
      ensures var c := Check(directory, dir, supplied, freshId, importError);
        && (c.Rejected? ==> failure == Some(c.failure) && listeners == old(listeners))
        && (c.Passed? ==> (
              && failure == (if init.raised.Some? then Some(LoadFailure(c.meta.name, "Encountered an error while calling init", init.raised)) else None)
              && listeners == AddedAll(old(listeners), init.registered)
              && meta == Some(c.meta) && moduleLoaded))
        && (c.Rejected? ==> moduleLoaded == old(moduleLoaded))
      ensures config == if PluginJson in dir.files && dir.manifest.Some? then dir.manifest else old(config)
    {
      written := None;
      if PluginJson !in dir.files {
        return Some(LoadFailure("@" + directory, "directory does not contain a plugin.json file.", None)), None;
      }
      if dir.manifest.None? {
        return Some(LoadFailure("@" + directory, "unable to load plugin.json", None)), None;
      }
      var cfg := dir.manifest.value;
      config := Some(cfg);
      var k := FirstMissing(RequiredKeys, cfg);
      if k < |RequiredKeys| {
        return Some(LoadFailure("@" + directory, "plugin.json is missing key: " + RequiredKeys[k], None)), None;
      }
      var ids := ResolveId(dir.files, supplied, dir.store, freshId);
      meta := Some(MakeMeta(cfg, ids.id));
      written := ids.written;
      if InitPy !in dir.files {
        return Some(LoadFailure(cfg["name"], "no init.py file found", None)), written;
      }
      if importError.Some? {
        return Some(LoadFailure(cfg["name"], "Failed to load module", importError)), written;
      }
      moduleLoaded := true;
      var i := 0;
      while i < |init.registered|
        invariant 0 <= i <= |init.registered|
        invariant listeners == AddedAll(old(listeners), init.registered[..i])
        invariant config == Some(cfg) && meta == Some(MakeMeta(cfg, ids.id)) && moduleLoaded
      {
        assert init.registered[..i + 1][..i] == init.registered[..i];
        AddListeners(init.registered[i]);
        i := i + 1;
      }
      assert init.registered[..|init.registered|] == init.registered;
      if init.raised.Some? {
        return Some(LoadFailure(cfg["name"], "Encountered an error while calling init", init.raised)), written;
      }
      failure := None;
    }

    /** `load`: on failure the listeners are ejected only when there are some, and the
        message carries the traceback when there is one. */
    method Load(dir: PluginDir, supplied: Option<string>, freshId: string, importError: Option<string>,
                init: InitOutcome, unloadRaises: set<Handler>)
      returns (r: LoadResult, written: Option<string>, unloadCalls: seq<Handler>)
      modifies this`config, this`meta, this`moduleLoaded, this`listeners
      ensures r == LoadOutcome(directory, dir, supplied, freshId, importError, init)
      ensures written == StoreWritten(dir, supplied, freshId)
      ensures r.Loaded? ==>
        && meta.Some? && meta.value.scriptId == r.id
        && listeners == AddedAll(old(listeners), init.registered)
      ensures r.Failed? ==> listeners == map[]
      ensures r.Loaded? ==> unloadCalls == []
      ensures r.Failed? ==>
        var left := if Check(directory, dir, supplied, freshId, importError).Passed?
                    then AddedAll(old(listeners), init.registered) else old(listeners);
        unloadCalls == Get(left, "unload")
      ensures config == if PluginJson in dir.files && dir.manifest.Some? then dir.manifest else old(config)
      ensures moduleLoaded == (Check(directory, dir, supplied, freshId, importError).Passed? || old(moduleLoaded))
    {
      var failure;
      failure, written := TryLoad(dir, supplied, freshId, importError, init);
      unloadCalls := [];
      if failure.Some? {
        if listeners != map[] {
          var failed;
          unloadCalls, failed := EjectListeners(unloadRaises);
        }
        return Failed(FailureMessage(failure.value)), written, unloadCalls;
      }
      r := Loaded(meta.value.scriptId);
    }
  }

  /** How the inbound and parse handlers fail or finish. */
  datatype InboundResult = InboundResult(scheduled: set<string>, raised: bool)

  class PluginManager {
    const http: Http.HttpHandler
    var plugins: map<string, Plugin>

    /** No plugin is ever enabled. */
    ghost predicate Valid()
      reads this, plugins.Values
    {
      forall id :: id in plugins ==> !plugins[id].enabled
    }

    constructor (http: Http.HttpHandler)
      ensures this.http == http && plugins == map[] && Valid()
    {
      this.http := http;
      plugins := map[];
    }

    /** `load_plugin`: a missing directory (`present` false) fails at once; otherwise a new plugin is loaded
        and entered under its id only when loading succeeded. */
    method LoadPlugin(directory: string, present: bool, dir: PluginDir, supplied: Option<string>, freshId: string,
                      importError: Option<string>, init: InitOutcome, unloadRaises: set<Handler>)
      returns (r: LoadResult)
      requires Valid()
      modifies this`plugins
      ensures Valid()
      ensures !present ==> r == Failed("The given directory does not exist")
      ensures present ==> r == LoadOutcome(directory, dir, supplied, freshId, importError, init)
      ensures r.Failed? ==> plugins == old(plugins)
      ensures r.Loaded? ==> r.id in plugins && fresh(plugins[r.id]) && plugins == old(plugins)[r.id := plugins[r.id]]
    {
      if !present {
        return Failed("The given directory does not exist");
      }
      var p := new Plugin(directory);
      var written, unloadCalls;
      r, written, unloadCalls := p.Load(dir, supplied, freshId, importError, init, unloadRaises);
      if r.Loaded? {
        plugins := plugins[r.id := p];
      }
    }

    /** `handle_inbound`: an execute payload (type 0) schedules the callback of every enabled
        plugin; then reading `script_id` raises when the payload has none, and looking it up
        among the plugins raises when it cannot be hashed. */
    function HandleInbound(payload: Json): (r: InboundResult)
      reads this, plugins.Values
      ensures !HasField(payload, "type") ==> r == InboundResult({}, true)
      ensures r.scheduled == (if HasField(payload, "type") && payload.fields["type"] == JInt(0)
                              then set id | id in plugins && plugins[id].enabled else {})
      ensures HasField(payload, "type") ==>
        (r.raised <==> !HasField(payload, "script_id") || !Hashable(payload.fields["script_id"]))
    {
      if !HasField(payload, "type") then InboundResult({}, true)
      else
        var scheduled := if payload.fields["type"] == JInt(0) then set id | id in plugins && plugins[id].enabled else {};
        InboundResult(scheduled, !HasField(payload, "script_id") || !Hashable(payload.fields["script_id"]))
    }

    /** `handle_parse`: type 1 only, then the plugin named by `script_id`, then its first
        parse hook (or the input string). `None` is a raise. */
    function HandleParse(payload: Json, reply: HookReply): (r: Option<Json>)
      reads this, plugins.Values
      ensures r.Some? ==>
        && HasField(payload, "type") && payload.fields["type"] == JInt(1)
        && HasField(payload, "script_id") && payload.fields["script_id"].JStr?
        && payload.fields["script_id"].s in plugins && HasField(payload, "data")
      ensures
        && HasField(payload, "type") && payload.fields["type"] == JInt(1)
        && HasField(payload, "script_id") && payload.fields["script_id"].JStr?
        && payload.fields["script_id"].s in plugins && HasField(payload, "data")
        ==> r == CallParseHook(plugins[payload.fields["script_id"].s].listeners, payload.fields["data"], reply).result
      ensures r.Some? && !HasParseHook(plugins[payload.fields["script_id"].s].listeners) ==>
        HasField(payload.fields["data"], "string") && r == Some(payload.fields["data"].fields["string"])
    {
      if !HasField(payload, "type") || payload.fields["type"] != JInt(1) then None
      else if !HasField(payload, "script_id") || !payload.fields["script_id"].JStr? then None
      else if payload.fields["script_id"].s !in plugins then None
      else if !HasField(payload, "data") then None
      else
        var t := plugins[payload.fields["script_id"].s].listeners;
        var data := payload.fields["data"];
        if !HasParseHook(t) then
          if HasField(data, "string") then Some(data.fields["string"]) else None
        else CallParseHook(t, data, reply).result
    }

    /** `_execute_callback`: a raw payload becomes a RawMessage for the `"raw_message"`
        listeners, any other a Message for the `"message"` listeners; a payload missing a
        field the record reads raises before any listener runs. */
    method ExecuteCallback(p: Plugin, payload: Json, raises: set<Handler>)
      returns (event: Option<string>, invoked: seq<Handler>, failed: seq<Handler>)
      ensures event.None? ==> invoked == []
      ensures event.Some? ==> HasField(payload, "data") && HasField(payload.fields["data"], "is_raw")
      ensures event == Some("raw_message") <==>
        && HasField(payload, "data") && HasField(payload.fields["data"], "is_raw")
        && Truthy(payload.fields["data"].fields["is_raw"]) && Common.MakeRawMessage(payload.fields["data"]).Some?
      ensures event == Some("message") <==>
        && HasField(payload, "data") && HasField(payload.fields["data"], "is_raw")
        && !Truthy(payload.fields["data"].fields["is_raw"]) && Common.MakeMessage(payload.fields["data"]).Some?
      ensures event.Some? ==> invoked == Get(p.listeners, event.value) && failed == Failing(invoked, raises)
    {
      event, invoked, failed := None, [], [];
      if !HasField(payload, "data") || !HasField(payload.fields["data"], "is_raw") {
        return;
      }
      var data := payload.fields["data"];
      if Truthy(data.fields["is_raw"]) {
        if Common.MakeRawMessage(data).Some? {
          event := Some("raw_message");
          invoked, failed := p.CallListeners("raw_message", raises);
        }
      } else if Common.MakeMessage(data).Some? {
        event := Some("message");
        invoked, failed := p.CallListeners("message", raises);
      }
    }
  }

  /** Since no plugin is ever enabled, an execute payload reaches no plugin. */
  lemma InboundReachesNoPlugin(m: PluginManager, payload: Json)
    requires m.Valid()
    ensures m.HandleInbound(payload).scheduled == {}
  {
  }

  /** A parse request whose payload names its plugin under `plugin_id` (as the payload type
      declares) instead of `script_id` makes `handle_parse` raise, so the parse route answers
      with the input string. */
  lemma ParseRouteFallsBack(m: PluginManager, h: Http.HttpHandler, headers: Http.Headers, payload: Json, reply: HookReply)
    requires Http.Authorized(headers, h.auth)
    requires HasField(payload, "plugin_id") && !HasField(payload, "script_id")
    requires HasField(payload, "data") && HasField(payload.fields["data"], "string")
    ensures m.HandleParse(payload, reply).None?
    ensures h.InboundParse(headers, payload, m.HandleParse(payload, reply))
      == Http.Response(200, Http.JsonBody(JObj(map["text" := payload.fields["data"].fields["string"]])))
  {
  }
}

=== FILE: old_adapter.dfy ===
/** The earlier bot-side adapter (TMHK-docker/script/DockMain_StreamlabsSystem.py). It shares
    the restart file, the lockfile rule and the request shapes with the current adapter, and
    differs in its status mapping, its single-attempt handshake, its poll loop, its chat
    payload and its uninitialised clock fields. */
module OldAdapter {
  import opened Wrappers
  import opened Values
  import opened Text
  import Http
  import Common
  import DaemonInit
  import opened Adapter

  // ---- loading the module ------------------------------------------------------------

  /** The module-level names bound when the version check runs: the imports, then the
      script's metadata. */
  const LoadedNames := {"codecs", "json", "os", "sys", "secrets", "time", "_random", "logging", "random",
                        "subprocess", "ScriptName", "Description", "Creator", "Version"}

  /** The old adapter's version string. */
  const OldVersion := "0.1.0a"

  predicate EndsWith(s: string, suffix: string) {
    |suffix| <= |s| && s[|s| - |suffix|..] == suffix
  }

  /** The load-time check `<name>.endswith(('a', 'b', 'rc'))`: `None` where reading the
      variable `name` raises NameError (the module has not bound it); otherwise whether the
      version is a pre-release, whose git revision would then be appended. */
  function PreReleaseCheck(names: set<string>, name: string, version: string): (r: Option<bool>)
    ensures r.Some? <==> name in names
    ensures r.Some? ==> (r.value <==> EndsWith(version, "a") || EndsWith(version, "b") || EndsWith(version, "rc"))
  {
    if name !in names then None
    else Some(EndsWith(version, "a") || EndsWith(version, "b") || EndsWith(version, "rc"))
  }

  /** As written, loading the module raises NameError: the check reads `version`, and only
      `Version` is bound. */
  lemma ModuleLoadAsWritten()
    ensures PreReleaseCheck(LoadedNames, "version", OldVersion).None?
  {
    assert "version" != "Version" by { assert "version"[0] != "Version"[0]; }
  }

  /** Reading `Version`, the check passes and finds the pre-release suffix `a`. */
  lemma ModuleLoads()
    ensures PreReleaseCheck(LoadedNames, "Version", OldVersion) == Some(true)
  {
    assert OldVersion[|OldVersion| - 1..] == "a";
  }

  // ---- status mapping ----------------------------------------------------------------

  /** `get_request`/`post_request` as written: beyond a 204 they index the raw reply text as
      if it were the decoded object, which raises, so every other status raises. */
  function OldMapStatus(r: HostReply): (f: Fetched)
    ensures f.Got? <==> r.status == 204
    ensures f.Got? ==> f.value == JNull
  {
    if r.status == 204 then Got(JNull) else RequestRaised
  }

  /** A daemon reply with a body never reaches the old adapter, and neither does a refusal,
      where the current mapping passes both on. */
  lemma OldRepliesLost(status: int, body: Json, hostError: Json, message: string)
    requires 200 <= status <= 299 && status != 204
    ensures OldMapStatus(Relay(Http.Response(status, Http.JsonBody(body)), hostError)) == RequestRaised
    ensures MapStatus(Relay(Http.Response(status, Http.JsonBody(body)), hostError)) == Got(body)
    ensures OldMapStatus(Relay(Http.JsonError(401, message), hostError)) == RequestRaised
    ensures MapStatus(Relay(Http.JsonError(401, message), hostError)) == Got(hostError)
  {
    DaemonRepliesSeen(status, body, hostError, message);
  }

  /** Whatever the daemon answers to the auth request, the old adapter never sees a
      challenge, so its handshake cannot succeed. */
  lemma OldHandshakeNeverSucceeds(authReply: HostReply)
    ensures !(OldMapStatus(authReply).Got? && HasChallenge(OldMapStatus(authReply).value))
  {
  }

  // ---- chat messages ---------------------------------------------------------------------

  /** The old `serialize_data_payload`: as today's, plus the service type. */
  function OldSerialize(d: BotMessage): (p: Json)
    ensures p.JObj? && p.fields.Keys == Serialize(d).fields.Keys + {"service_type"}
    ensures p.fields["service_type"] == d.serviceType
    ensures forall k :: k in Serialize(d).fields ==> p.fields[k] == Serialize(d).fields[k]
  {
    JObj(Serialize(d).fields["service_type" := d.serviceType])
  }

  /** Unlike today's payload, the old one is a complete message for the daemon: its text,
      author, raw data, source and service type come through. */
  lemma OldPayloadIsMessage(d: BotMessage)
    ensures var m := Common.MakeMessage(OldSerialize(d));
      && m.Some?
      && m.value.content == d.message
      && m.value.author == Common.User(d.user, d.userName)
      && m.value.raw.rawData == d.rawData
      && m.value.raw.source == JInt(SourceCode(d.whisper, d.twitch, d.discord))
      && m.value.raw.serviceType == d.serviceType
  {
    var p := OldSerialize(d);
    assert HasField(p, "raw_data") && HasField(p, "source") && HasField(p, "service_type");
    assert HasField(p, "message") && HasField(p, "userid") && HasField(p, "username");
  }

  // ---- the poll loop ---------------------------------------------------------------------

  /** One turn of the old poll loop: no `@error` branch (such a notice is an unknown host
      call), and a host call's acknowledgement raises as in the current loop. */
  function OldEventAck(event: Json, api: set<string>): (r: EventResult)
    ensures r != NoAck
    ensures r.Ack? ==>
      && HasField(event, "nonce") && HasField(event, "data") && HasField(event.fields["data"], "type")
      && event.fields["data"].fields["type"].JStr? && event.fields["data"].fields["type"].s !in api
      && r.entry == UnknownTypeAck(event.fields["nonce"], event.fields["data"].fields["type"].s)
    ensures
      && HasField(event, "data") && HasField(event.fields["data"], "type")
      && event.fields["data"].fields["type"].JStr? && event.fields["data"].fields["type"].s in api
      ==> r == EventRaised
  {
    if !HasField(event, "data") || !HasField(event.fields["data"], "type") then EventRaised
    else
      var kind := event.fields["data"].fields["type"];
      if !kind.JStr? || !HasField(event, "nonce") then EventRaised
      else if kind.s !in api then Ack(UnknownTypeAck(event.fields["nonce"], kind.s))
      else EventRaised
  }

  /** The acknowledgements the old loop builds; it stops at the first event that raises. */
  function OldAckBatch(events: seq<Json>, api: set<string>): (b: Batch)
    ensures |b.acks| <= |events|
    ensures !b.raised ==> |b.acks| == |events|
    decreases |events|
  {
    if events == [] then Batch([], false)
    else
      var n := |events| - 1;
      var b := OldAckBatch(events[..n], api);
      if b.raised then b
      else match OldEventAck(events[n], api)
        case Ack(e) => Batch(b.acks + [e], false)
        case NoAck => b
        case EventRaised => Batch(b.acks, true)
  }

  /** Once the old loop has raised, later events change nothing. */
  lemma {:induction false} OldRaisedStays(events: seq<Json>, api: set<string>, i: nat)
    requires i <= |events| && OldAckBatch(events[..i], api).raised
    ensures OldAckBatch(events, api) == OldAckBatch(events[..i], api)
    decreases |events|
  {
    if i < |events| {
      var n := |events| - 1;
      assert events[..n][..i] == events[..i];
      OldRaisedStays(events[..n], api, i);
    } else {
      assert events[..i] == events;
    }
  }

  /** A batch in which the host knows one of the requested calls raises as written. */
  lemma {:induction false} KnownCallSinksBatch(events: seq<Json>, api: set<string>, j: nat)
    requires j < |events|
    requires HasField(events[j], "data") && HasField(events[j].fields["data"], "type")
    requires events[j].fields["data"].fields["type"].JStr? && events[j].fields["data"].fields["type"].s in api
    ensures OldAckBatch(events, api).raised
    decreases |events|
  {
    var n := |events| - 1;
    if j < n {
      assert events[..n][j] == events[j];
      KnownCallSinksBatch(events[..n], api, j);
    }
  }

  // ---- the old handshake ------------------------------------------------------------------

  /** The requests the old handshake sends with secret `token` and kill code `kill`, given
      what the auth and pingpong requests return: it stops at the first request that raises,
      and ends with the kill request unless the pingpong was answered with `None`. */
  function OldStartupSent(token: string, authResponse: Fetched, pingResponse: Fetched, kill: Json): (rs: seq<Request>)
    ensures 0 < |rs| <= 3 && rs[0] == AuthPost(token)
    ensures rs[|rs| - 1] == Kill(kill, false) <==>
      authResponse.Got? && (!HasChallenge(authResponse.value) || (pingResponse.Got? && pingResponse.value != JNull))
  {
    if authResponse.RequestRaised? then [AuthPost(token)]
    else if !HasChallenge(authResponse.value) then [AuthPost(token), Kill(kill, false)]
    else if pingResponse.RequestRaised? || pingResponse.value == JNull then [AuthPost(token), PingPost(authResponse.value)]
    else [AuthPost(token), PingPost(authResponse.value), Kill(kill, false)]
  }

  /** Where the old handshake leaves the authentication state that was `prior`: a raising
      request leaves it alone. */
  function OldStartupOutcome(authResponse: Fetched, pingResponse: Fetched, prior: ClientAuth): (a: ClientAuth)
    ensures a == AuthOK <==>
      (authResponse.Got? && HasChallenge(authResponse.value) && pingResponse == Got(JNull))
      || (prior == AuthOK && (authResponse.RequestRaised? || (HasChallenge(authResponse.value) && pingResponse.RequestRaised?)))
  {
    if authResponse.RequestRaised? then prior
    else if !HasChallenge(authResponse.value) then ClientServerMismatch
    else if pingResponse.RequestRaised? then prior
    else if pingResponse.value == JNull then AuthOK
    else PingPongFailed
  }

  /** Whether the old handshake raises: one of its requests raises before it is done. */
  function OldStartupRaised(authResponse: Fetched, pingResponse: Fetched, killResponse: Fetched): (r: bool)
    ensures authResponse.RequestRaised? ==> r
    ensures authResponse.Got? && HasChallenge(authResponse.value) && pingResponse == Got(JNull) ==> !r
  {
    authResponse.RequestRaised?
    || (HasChallenge(authResponse.value) && pingResponse.RequestRaised?)
    || (!(HasChallenge(authResponse.value) && pingResponse == Got(JNull)) && killResponse.RequestRaised?)
  }

  // ---- the adapter's state -----------------------------------------------------------------

  /** The old module-level `state`, the lockfile and the requests sent. The clock fields
      start out as `None`. */
  class OldSession {
    var authState: ClientAuth
    var lastStamp: Option<int>
    var lastPoll: Option<int>
    var auth: Json
    var killcode: Json
    var stampFile: Option<string>
    var sent: seq<Request>
    const api: set<string>

    /** `_State()` given the restart file's content, as in the current adapter, except that
        neither clock field is set. */
    constructor (now: int, restart: Option<Json>, api: set<string>)
      requires !Restore(now, restart).RestoreRaised?
      ensures authState == WaitingForInit && lastStamp == None && lastPoll == None
      ensures Restore(now, restart).Restored? ==>
        auth == Restore(now, restart).auth && killcode == Restore(now, restart).killcode
      ensures !Restore(now, restart).Restored? ==> auth == JNull && killcode == JNull
      ensures stampFile == None && sent == [] && this.api == api
    {
      authState := WaitingForInit;
      lastStamp := None;
      lastPoll := None;
      var r := Restore(now, restart);
      if r.Restored? {
        auth := r.auth;
        killcode := r.killcode;
      } else {
        auth := JNull;
        killcode := JNull;
      }
      stampFile := None;
      sent := [];
      this.api := api;
    }

    /** `write_stamp`. */
    method WriteStamp(t: int)
      modifies this`stampFile, this`lastStamp
      ensures lastStamp == Some(t) && DaemonInit.ReadClientLockfile(stampFile) == Some(t)
    {
      stampFile := Some(IntToString(t));
      lastStamp := Some(t);
      DaemonInit.StampReadBack(t);
    }

    /** The old `_daemon_startup`: a single auth attempt with the drawn `token`, the
        pingpong when a challenge came back, and the kill request on failure. The three
        arguments after the token are what the three requests return (or that they
        raise), which with the old mapping never includes a challenge. */
    method DaemonStartup(token: string, authResponse: Fetched, pingResponse: Fetched, killResponse: Fetched)
      returns (ok: bool, raised: bool)
      modifies this`auth, this`authState, this`sent
      ensures auth == JStr(token)
      ensures ok ==> !raised && authState == AuthOK
      ensures !ok && !raised ==> authState != AuthOK
      ensures ok <==> authResponse.Got? && HasChallenge(authResponse.value) && pingResponse == Got(JNull)
      ensures authResponse.RequestRaised? ==> raised && authState == old(authState) && sent == old(sent) + [AuthPost(token)]
      ensures authResponse.Got? && !HasChallenge(authResponse.value) ==>
        && authState == ClientServerMismatch && raised == killResponse.RequestRaised?
        && sent == old(sent) + [AuthPost(token), Kill(killcode, false)]
      ensures sent == old(sent) + OldStartupSent(token, authResponse, pingResponse, killcode)
      ensures authState == OldStartupOutcome(authResponse, pingResponse, old(authState))
      ensures raised == OldStartupRaised(authResponse, pingResponse, killResponse)
    {
      auth := JStr(token);
      sent := sent + [AuthPost(token)];
      if authResponse.RequestRaised? {
        return false, true;
      }
      var response := authResponse.value;
      if HasChallenge(response) {
        sent := sent + [PingPost(response)];
        if pingResponse.RequestRaised? {
          return false, true;
        }
        if pingResponse.value == JNull {
          authState := AuthOK;
        } else {
          authState := PingPongFailed;
        }
      } else {
        authState := ClientServerMismatch;
      }
      if authState != AuthOK {
        sent := sent + [Kill(killcode, false)];
        return false, killResponse.RequestRaised?;
      }
      return true, false;
    }

    /** One round of the old `start_daemon`: refuse on a live daemon's lockfile, else draw
        the kill code `code`, launch, and run the handshake; `retry` says the round failed
        quietly and the old code would launch again. */
    method StartDaemon(now: int, lockfile: Option<string>, code: string, token: string,
                       authResponse: Fetched, pingResponse: Fetched, killResponse: Fetched)
      returns (retry: bool, raised: bool)
      modifies this`auth, this`authState, this`sent, this`killcode
      ensures !CheckNoDaemon(lockfile, now) ==>
        && !retry && !raised && sent == old(sent) && authState == old(authState)
        && auth == old(auth) && killcode == old(killcode)
      ensures CheckNoDaemon(lockfile, now) ==>
        && killcode == JStr(code) && auth == JStr(token)
        && (retry <==> !raised && authState != AuthOK)
        && sent == old(sent) + OldStartupSent(token, authResponse, pingResponse, JStr(code))
        && authState == OldStartupOutcome(authResponse, pingResponse, old(authState))
        && raised == OldStartupRaised(authResponse, pingResponse, killResponse)
    {
      retry, raised := false, false;
      if !CheckNoDaemon(lockfile, now) {
        return;
      }
      killcode := JStr(code);
      var ok;
      ok, raised := DaemonStartup(token, authResponse, pingResponse, killResponse);
      retry := !ok && !raised;
    }

    /** The old `Init`: stamp; with a kept secret, ask the daemon (and ignore the answer);
        without one, start a daemon. */
    method Init(now: int, lockfile: Option<string>, authcheck: Fetched, code: string, token: string,
                authResponse: Fetched, pingResponse: Fetched, killResponse: Fetched)
      returns (raised: bool)
      modifies this`auth, this`authState, this`sent, this`killcode, this`stampFile, this`lastStamp
      ensures lastStamp == Some(now) && DaemonInit.ReadClientLockfile(stampFile) == Some(now)
      ensures Truthy(old(auth)) ==>
        && sent == old(sent) + [Get("auth-check")] && authState == old(authState) && auth == old(auth)
        && killcode == old(killcode) && raised == authcheck.RequestRaised?
      ensures !Truthy(old(auth)) && !CheckNoDaemon(lockfile, now) ==>
        && !raised && sent == old(sent) && authState == old(authState)
        && auth == old(auth) && killcode == old(killcode)
      ensures !Truthy(old(auth)) && CheckNoDaemon(lockfile, now) ==>
        && killcode == JStr(code) && auth == JStr(token)
        && sent == old(sent) + OldStartupSent(token, authResponse, pingResponse, JStr(code))
        && authState == OldStartupOutcome(authResponse, pingResponse, old(authState))
        && raised == OldStartupRaised(authResponse, pingResponse, killResponse)
    {
      WriteStamp(now);
      if Truthy(auth) {
        sent := sent + [Get("auth-check")];
        raised := authcheck.RequestRaised?;
      } else {
        var retry;
        retry, raised := StartDaemon(now, lockfile, code, token, authResponse, pingResponse, killResponse);
      }
    }

    /** The old `poll_daemon`: before the handshake only the poll time moves; otherwise
        fetch, build the acknowledgements and post them, even when there are none. It
        never records the time of a completed poll. */
    method PollDaemon(t: int, reply: Fetched) returns (raised: bool)
      modifies this`lastPoll, this`sent
      ensures authState != AuthOK ==> lastPoll == Some(t) && sent == old(sent) && !raised
      ensures authState == AuthOK ==> lastPoll == old(lastPoll)
      ensures authState == AuthOK && reply.RequestRaised? ==> raised && sent == old(sent) + [Get("outbound")]
      ensures authState == AuthOK && reply.Got? && !reply.value.JList? ==> !raised && sent == old(sent) + [Get("outbound")]
      ensures authState == AuthOK && reply.Got? && reply.value.JList? ==>
        var b := OldAckBatch(reply.value.items, api);
        && raised == b.raised
        && sent == old(sent) + [Get("outbound")]
             + (if b.raised then [] else [Post("inbound", JObj(map["response" := JList(b.acks)]))])
    {
      if authState != AuthOK {
        lastPoll := Some(t);
        return false;
      }
      sent := sent + [Get("outbound")];
      if reply.RequestRaised? {
        return true;
      }
      if !reply.value.JList? {
        return false;
      }
      var events := reply.value.items;
      var response: seq<Json> := [];
      var i := 0;
      raised := false;
      while i < |events| && !raised
        invariant 0 <= i <= |events|
        invariant OldAckBatch(events[..i], api) == Batch(response, raised)
      {
        assert events[..i + 1][..i] == events[..i];
        match OldEventAck(events[i], api) {
          case Ack(e) => response := response + [e];
          case NoAck =>
          case EventRaised => raised := true;
        }
        i := i + 1;
      }
      if raised {
        OldRaisedStays(events, api, i);
        return true;
      }
      assert events[..i] == events;
      sent := sent + [Post("inbound", JObj(map["response" := JList(response)]))];
    }

    /** The old `Tick` as written: both clock differences are taken against fields that
        start as `None`, which raises; the poll time is only ever set by a poll that this
        method never reaches while it is `None`. */
    method TickAsWritten(now: int, reply: Fetched) returns (raised: bool)
      modifies this`lastStamp, this`stampFile, this`lastPoll, this`sent
      ensures old(lastStamp).None? ==> raised && lastStamp == None && stampFile == old(stampFile)
      ensures old(lastPoll).None? ==> raised && lastPoll == None && sent == old(sent)
      ensures old(lastStamp).Some? && now - old(lastStamp).value > 30 ==> lastStamp == Some(now)
      ensures old(lastPoll).Some? && old(lastStamp).Some? && now - old(lastPoll).value <= 1 ==>
        !raised && lastPoll == old(lastPoll) && sent == old(sent)
    {
      if lastStamp.None? {
        return true;
      }
      if now - lastStamp.value > 30 {
        WriteStamp(now);
      }
      if lastPoll.None? {
        return true;
      }
      raised := false;
      if now - lastPoll.value > 1 {
        raised := PollDaemon(now, reply);
      }
    }

    /** The old `Execute`: the chat payload goes to the parse route. */
    method Execute(d: BotMessage)
      modifies this`sent
      ensures sent == old(sent) + [Post("inbound/parse", JObj(map["type" := JInt(0), "data" := OldSerialize(d)]))]
    {
      sent := sent + [Post("inbound/parse", JObj(map["type" := JInt(0), "data" := OldSerialize(d)]))];
    }
  }
}

=== FILE: old_http.dfy ===
/** The earlier daemon HTTP handler (TMHK-docker/daemon/http.py): no handshake yet, a guard
    against the `auth_state` field, and the same nonce-matched call queue. */
module OldHttp {
  import opened Wrappers
  import opened Values
  import Http

  /** The routes `__init__` registers, in order: each path with the name of the handler
      method it reads off the instance. */
  const RouteTable: seq<(string, string)> := [
    ("/outbound", "outbound"),
    ("/inbound", "inbound"),
    ("/inbound-ack", "inbound_ack"),
    ("/inbound/load-script", "inbound_load_script"),
    ("/inbound/unload-script", "inbound_unload_script")
  ]

  /** The methods the class defines. */
  const Methods := {"setup", "outbound", "inbound", "inbound_ack", "inbound_load_script", "put_request", "notify_error"}

  /** Registering routes in order: `self.<name>` raises AttributeError (`None`) at the first
      handler the class does not define; otherwise the registered paths. */
  function RegisterRoutes(routes: seq<(string, string)>, defined: set<string>): (r: Option<seq<string>>)
    ensures r.Some? <==> forall k :: 0 <= k < |routes| ==> routes[k].1 in defined
    ensures r.Some? ==> |r.value| == |routes| && forall k :: 0 <= k < |routes| ==> r.value[k] == routes[k].0
  {
    if routes == [] then Some([])
    else if routes[0].1 !in defined then None
    else
      var rest := RegisterRoutes(routes[1..], defined);
      assert forall k :: 1 <= k < |routes| ==> routes[k] == routes[1..][k - 1];
      if rest.None? then None else Some([routes[0].0] + rest.value)
  }

  /** As written, constructing the handler always raises: its last route names
      `inbound_unload_script`, which the class does not define. */
  lemma InitRaises()
    ensures RegisterRoutes(RouteTable, Methods).None?
  {
    assert RouteTable[4].1 !in Methods;
  }

  /** Without that route, every handler exists and the four paths are registered. */
  lemma RoutesWithoutUnload()
    ensures RegisterRoutes(RouteTable[..4], Methods) == Some(["/outbound", "/inbound", "/inbound-ack", "/inbound/load-script"])
  {
    var t := RouteTable[..4];
    assert forall k :: 0 <= k < 4 ==> t[k].1 in Methods by {
      assert t[0].1 == "outbound" && t[1].1 == "inbound" && t[2].1 == "inbound_ack" && t[3].1 == "inbound_load_script";
    }
    assert RegisterRoutes(t, Methods).Some?;
    var r := RegisterRoutes(t, Methods).value;
    assert |r| == 4;
    assert t[0].0 == "/outbound" && t[1].0 == "/inbound" && t[2].0 == "/inbound-ack" && t[3].0 == "/inbound/load-script";
    assert r[0] == "/outbound" && r[1] == "/inbound" && r[2] == "/inbound-ack" && r[3] == "/inbound/load-script";
    assert r == ["/outbound", "/inbound", "/inbound-ack", "/inbound/load-script"];
  }

  class HttpHandler {
    /** The paths registered on the route table. */
    const routes: seq<string>
    /** `auth_state`: the guard's secret; it starts as `None` and nothing in this file
        assigns it. */
    var authState: Json
    var nonces: set<string>
    var waiters: map<string, Http.Waiter>
    var queue: seq<Http.Entry>

    ghost predicate Valid()
      reads this
    {
      Http.Registry(nonces, waiters)
    }

    /** `__init__` as intended: the route for the missing `inbound_unload_script` handler
        left out, so every registered handler exists. */
    constructor ()
      ensures Valid() && authState == JNull && nonces == {} && waiters == map[] && queue == []
      ensures RegisterRoutes(RouteTable[..4], Methods) == Some(routes)
      ensures forall k :: 0 <= k < |routes| ==> routes[k] == RouteTable[k].0
    {
      RoutesWithoutUnload();
      routes := ["/outbound", "/inbound", "/inbound-ack", "/inbound/load-script"];
      authState := JNull;
      nonces := {};
      waiters := map[];
      queue := [];
    }

    /** `GET /outbound`: a copy of the queue, then the queue is emptied. */
    method Outbound(headers: Http.Headers) returns (resp: Http.Response)
      requires Valid()
      modifies this`queue
      ensures Valid()
      ensures !Http.Authorized(headers, authState) ==>
        resp == Http.JsonError(401, "missing authorization") && queue == old(queue)
      ensures Http.Authorized(headers, authState) ==>
        resp == Http.Response(200, Http.Entries(old(queue))) && queue == []
    {
      if !Http.Authorized(headers, authState) {
        return Http.JsonError(401, "missing authorization");
      }
      resp := Http.Response(200, Http.Entries(queue));
      queue := [];
    }

    /** `GET /inbound`: schedules the manager's `handle_message` once per posted message, in
        order. */
    function Inbound(headers: Http.Headers, msgs: seq<Json>): (r: (Http.Response, seq<Json>))
      reads this
      ensures !Http.Authorized(headers, authState) ==> r.0.status == 401 && r.1 == []
      ensures Http.Authorized(headers, authState) ==> r == (Http.Response(204, Http.NoBody), msgs)
    {
      if !Http.Authorized(headers, authState) then (Http.JsonError(401, "missing authorization"), [])
      else (Http.Response(204, Http.NoBody), msgs)
    }

    /** `GET /inbound-ack`: the posted body is the list of acknowledgements itself; each is
        matched as in the later handler. */
    method InboundAck(headers: Http.Headers, msgs: seq<Json>) returns (resp: Http.Response)
      requires Valid()
      modifies this`nonces, this`waiters
      ensures Valid()
      ensures !Http.Authorized(headers, authState) ==>
        resp == Http.JsonError(401, "missing authorization") && nonces == old(nonces) && waiters == old(waiters)
      ensures Http.Authorized(headers, authState) ==>
        var r := Http.AckFold(Http.AckState(old(nonces), old(waiters), false), msgs);
        nonces == r.nonces && waiters == r.waiters && resp.status == (if r.failed then 500 else 204)
    {
      if !Http.Authorized(headers, authState) {
        return Http.JsonError(401, "missing authorization");
      }
      var st := Http.AckState(nonces, waiters, false);
      var i := 0;
      while i < |msgs| && !st.failed
        invariant 0 <= i <= |msgs|
        invariant Http.Registry(st.nonces, st.waiters)
        invariant Http.AckFold(st, msgs[i..]) == Http.AckFold(Http.AckState(old(nonces), old(waiters), false), msgs)
      {
        assert msgs[i..][1..] == msgs[i + 1..];
        st := Http.AckStep(st, msgs[i]);
        i := i + 1;
      }
      if st.failed {
        Http.AckFoldFailed(st, msgs[i..]);
      }
      nonces, waiters := st.nonces, st.waiters;
      resp := if st.failed then Http.InternalError else Http.Response(204, Http.NoBody);
    }

    /** `GET /inbound/load-script`: calls `manager.load_script(directory, script_id)` and then
        returns nothing, which aiohttp answers with a server error. */
    function InboundLoadScript(headers: Http.Headers, body: Json): (r: (Http.Response, Option<(Json, Json)>))
      reads this
      ensures !Http.Authorized(headers, authState) ==> r.0.status == 401 && r.1.None?
      ensures Http.Authorized(headers, authState) ==> r.0 == Http.InternalError
      ensures r.1.Some? <==> Http.Authorized(headers, authState) && HasField(body, "directory") && HasField(body, "script_id")
      ensures r.1.Some? ==> r.1.value == (body.fields["directory"], body.fields["script_id"])
    {
      if !Http.Authorized(headers, authState) then (Http.JsonError(401, "missing authorization"), None)
      else if HasField(body, "directory") && HasField(body, "script_id") then
        (Http.InternalError, Some((body.fields["directory"], body.fields["script_id"])))
      else (Http.InternalError, None)
    }

    /** `put_request` up to its wait: one new pending nonce and one queued entry. */
    method PutRequest(payload: Json, nonce: string)
      requires Valid() && nonce !in waiters
      modifies this`nonces, this`waiters, this`queue
      ensures Valid()
      ensures nonces == old(nonces) + {nonce} && waiters == old(waiters)[nonce := Http.Pending]
      ensures queue == old(queue) + [Http.Entry(Some(nonce), payload)]
    {
      nonces := nonces + {nonce};
      waiters := waiters[nonce := Http.Pending];
      queue := queue + [Http.Entry(Some(nonce), payload)];
    }

    /** The written `except CancelledError` branch (the wait was cancelled): the nonce is
        deleted and the caller gets `None`. */
    method Cancel(nonce: string) returns (o: Http.RequestOutcome)
      requires Valid() && nonce in nonces && waiters[nonce] == Http.Pending
      modifies this`nonces, this`waiters
      ensures Valid()
      ensures o == Http.AnsweredNone && nonces == old(nonces) - {nonce}
      ensures waiters == old(waiters)[nonce := Http.Cancelled]
    {
      nonces := nonces - {nonce};
      waiters := waiters[nonce := Http.Cancelled];
      o := Http.AnsweredNone;
    }

    /** Expiry of the five-second wait: TimeoutError passes the `except` and the nonce stays
        registered with its cancelled future. */
    method Expire(nonce: string) returns (o: Http.RequestOutcome)
      requires Valid() && nonce in nonces && waiters[nonce] == Http.Pending
      modifies this`waiters
      ensures Valid()
      ensures o == Http.RaisedTimeout && nonces == old(nonces)
      ensures waiters == old(waiters)[nonce := Http.Cancelled]
    {
      waiters := waiters[nonce := Http.Cancelled];
      o := Http.RaisedTimeout;
    }

    /** `notify_error(msg)`: queues `{type: "error", message}` with no nonce. */
    method NotifyError(message: Json)
      requires Valid()
      modifies this`queue
      ensures Valid()
      ensures queue == old(queue) + [Http.Entry(None, ErrorNotice(message))]
    {
      queue := queue + [Http.Entry(None, ErrorNotice(message))];
    }
  }

  function ErrorNotice(message: Json): (j: Json)
    ensures j.JObj? && j.fields.Keys == {"type", "message"} && j.fields["type"] == JStr("error")
    ensures j.fields["message"] == message
  {
    JObj(map["type" := JStr("error"), "message" := message])
  }

  /** With `auth_state` left at `None`, no request passes the guard: every route answers 401. */
  lemma OldGuardClosed(h: HttpHandler, headers: Http.Headers, msgs: seq<Json>, body: Json)
    requires h.authState == JNull
    ensures h.Inbound(headers, msgs).0.status == 401
    ensures h.InboundLoadScript(headers, body).0.status == 401
  {
  }
}

=== FILE: old_interface.dfy ===
/** The earlier injector interface (TMHK-docker/daemon/interface.py). The class table and
    the instances are those of `Interface`; what differs is instantiation, `listen` and the
    `set_injector` entry point. */
module OldInterface {
  import opened Wrappers
  import opened Values
  import Manager
  import Inj = Interface

  /** `Injector.__new__` of the earlier file: the `"error"` default is added first; then the
      constructor arguments are forwarded to `object.__new__`, which refuses any. */
  method Instantiate(c: Inj.InjectorClass, argCount: nat) returns (inj: Option<Inj.Injector>)
    modifies c`listeners
    ensures "error" in old(c.listeners) ==> c.listeners == old(c.listeners)
    ensures "error" !in old(c.listeners) ==> c.listeners == old(c.listeners)["error" := c.OnError()]
    ensures inj.Some? <==> argCount == 0
    ensures inj.Some? ==> fresh(inj.value) && inj.value.cls == c
  {
    if "error" !in c.listeners {
      c.listeners := c.listeners["error" := c.OnError()];
    }
    if argCount > 0 {
      return None;
    }
    var i := new Inj.Injector(c);
    inj := Some(i);
  }

  /** `listen(name)` of the earlier file: the table is looked up on the decorated
      function's own class, `function`, which refuses new attributes, so registering
      raises TypeError and no table changes. */
  method Listen(c: Inj.InjectorClass, event: string, meth: Handler) returns (raised: Option<string>)
    ensures raised == Some("TypeError")
  {
    raised := Some("TypeError");
  }

  class Interface {
    const plugin: Manager.Plugin

    constructor (plugin: Manager.Plugin)
      ensures this.plugin == plugin
    {
      this.plugin := plugin;
    }

    /** `set_injector`: runs the injector's setup, which adds its class table to the
        plugin's listeners. */
    method SetInjector(inj: Inj.Injector)
      modifies plugin`listeners
      ensures plugin.listeners == Manager.Added(old(plugin.listeners), inj.cls.listeners)
    {
      inj.Setup(plugin);
    }
  }
}

=== FILE: old_manager.dfy ===
/** The earlier plugin registry (TMHK-docker/daemon/manager.py). Its `Plugin` class has the
    same listener table and the same loading checks as the later one, so `Manager.Plugin`
    serves for both; what differs is the registry and where error reports go. */
module OldManager {
  import opened Wrappers
  import opened Values
  import Manager
  import OldHttp
  import Http

  class PluginManager {
    const http: OldHttp.HttpHandler
    var plugins: map<string, Manager.Plugin>

    constructor (http: OldHttp.HttpHandler)
      ensures this.http == http && plugins == map[]
    {
      this.http := http;
      plugins := map[];
    }

    /** `load_script`: a missing directory fails at once; a failed load returns before the
        registry is touched; a successful one is entered under its id. */
    method LoadScript(directory: string, present: bool, dir: Manager.PluginDir, supplied: Option<string>, freshId: string,
                      importError: Option<string>, init: Manager.InitOutcome, unloadRaises: set<Handler>)
      returns (r: Manager.LoadResult)
      modifies this`plugins
      ensures !present ==> r == Manager.Failed("The given directory does not exist")
      ensures present ==> r == Manager.LoadOutcome(directory, dir, supplied, freshId, importError, init)
      ensures r.Failed? ==> plugins == old(plugins)
      ensures r.Loaded? ==> r.id in plugins && fresh(plugins[r.id]) && plugins == old(plugins)[r.id := plugins[r.id]]
    {
      if !present {
        return Manager.Failed("The given directory does not exist");
      }
      var p := new Manager.Plugin(directory);
      var written, unloadCalls;
      r, written, unloadCalls := p.Load(dir, supplied, freshId, importError, init, unloadRaises);
      if r.Failed? {
        return r;
      }
      plugins := plugins[r.id := p];
    }

    /** `call_error_listeners` of the earlier plugin: the same report, handed to the
        one-argument `notify_error` of the earlier handler, which queues it. */
    method CallErrorListeners(p: Manager.Plugin, reply: Manager.HandlerReply)
      requires http.Valid()
      modifies http`queue
      ensures http.Valid()
      ensures Manager.ErrorReportOf(p.listeners, reply).Report? ==>
        http.queue == old(http.queue) + [Http.Entry(None, OldHttp.ErrorNotice(Manager.ErrorReportOf(p.listeners, reply).message))]
      ensures !Manager.ErrorReportOf(p.listeners, reply).Report? ==> http.queue == old(http.queue)
    {
      var report := Manager.ErrorReportOf(p.listeners, reply);
      if report.Report? {
        http.NotifyError(report.message);
      }
    }
  }
}

=== FILE: shim.dfy ===
/** The per-plugin shim script (TMHK-docker/shim-template.py): it registers the plugin's UI
    buttons, merges the plugin's default settings with the saved ones, and holds both those
    settings and the first toggle state back until the dock's commons module can be
    reached. */
module Shim {
  import opened Wrappers
  import opened Values
  import Text

  /** A call the shim makes into the commons module. */
  datatype CommonsCall =
    | InitialSettings(settings: map<string, Json>)
    | InitialState(state: Json)
    | ScriptToggled(state: Json)
    | Button(action: Json, name: string)
    | SettingsReloaded(data: Json)

  /** A UI configuration as `json.load` hands it over: its entries in file order, each name
      once (it is a dict). */
  type Config = seq<(string, Json)>

  predicate DistinctNames(config: Config) {
    forall i, j :: 0 <= i < j < |config| ==> config[i].0 != config[j].0
  }

  const OutputFile := "output_file"

  /** Whether `item["type"]` can be read: otherwise the loop raises on that entry. */
  predicate Typed(item: Json) { HasField(item, "type") }

  predicate IsButton(item: Json) requires Typed(item) { item.fields["type"] == JStr("button") }

  /** Whether registering the `k`-th entry succeeds. */
  predicate EntryOk(e: (string, Json)) {
    e.0 == OutputFile ||
    (Typed(e.1) && (IsButton(e.1) ==> HasField(e.1, "function") && Hashable(e.1.fields["function"])))
  }

  /** The buttons the registration loop leaves behind after the first `n` entries:
      function name to UI element name, a later entry overwriting an earlier one. */
  function Buttons(config: Config): (b: map<Json, string>)
    requires forall k :: 0 <= k < |config| ==> EntryOk(config[k])
    ensures forall k :: 0 <= k < |config| && config[k].0 != OutputFile && EntryOk(config[k]) && IsButton(config[k].1) ==>
      config[k].1.fields["function"] in b
  {
    if config == [] then map[]
    else
      var init := config[..|config| - 1];
      assert forall k :: 0 <= k < |init| ==> init[k] == config[k];
      var b := Buttons(init);
      var name, item := config[|config| - 1].0, config[|config| - 1].1;
      assert EntryOk(config[|config| - 1]);
      if name != OutputFile && IsButton(item) then b[item.fields["function"] := name] else b
  }

  /** The `k`-th entry registers `f` as a button. */
  predicate ButtonFor(config: Config, k: int, f: Json) {
    && 0 <= k < |config| && config[k].0 != OutputFile && Typed(config[k].1) && IsButton(config[k].1)
    && HasField(config[k].1, "function") && config[k].1.fields["function"] == f
  }

  /** Every registered callable comes from a button entry other than `output_file`, and
      is bound to the name of the last such entry: no later entry registers it again. */
  lemma {:induction false} ButtonsFromEntries(config: Config, f: Json)
    requires forall k :: 0 <= k < |config| ==> EntryOk(config[k])
    requires f in Buttons(config)
    ensures exists k ::
      && ButtonFor(config, k, f)
      && config[k].0 == Buttons(config)[f]
      && (forall j :: k < j < |config| ==> !ButtonFor(config, j, f))
  {
    var init := config[..|config| - 1];
    assert forall k :: 0 <= k < |init| ==> init[k] == config[k];
    var n := |config| - 1;
    if ButtonFor(config, n, f) {
      assert config[n].0 == Buttons(config)[f];
    } else {
      ButtonsFromEntries(init, f);
      var k :| ButtonFor(init, k, f) && init[k].0 == Buttons(init)[f]
        && (forall j :: k < j < |init| ==> !ButtonFor(init, j, f));
      assert ButtonFor(config, k, f) && config[k].0 == Buttons(config)[f];
      assert forall j :: k < j < |config| ==> !ButtonFor(config, j, f) by {
        forall j | k < j < |config| ensures !ButtonFor(config, j, f) {
          if j < n { assert !ButtonFor(init, j, f); }
        }
      }
    }
  }

  lemma ButtonsStep(c: Config, i: nat)
    requires i < |c| && forall k :: 0 <= k <= i ==> EntryOk(c[k])
    ensures Buttons(c[..i + 1]) ==
      if c[i].0 != OutputFile && IsButton(c[i].1) then Buttons(c[..i])[c[i].1.fields["function"] := c[i].0]
      else Buttons(c[..i])
  {
    assert c[..i + 1][..i] == c[..i];
  }

  lemma UpdateUnion<K, V>(a: map<K, V>, b: map<K, V>, k: K, v: V)
    ensures (a + b)[k := v] == a + b[k := v]
  {
  }

  /** `"value" in x` followed by `x["value"]` in the settings comprehension, for an entry's
      value: `None` where Python raises (a non-container, or a string or list that contains
      `"value"` and then cannot be indexed by it); `Some(None)` when the entry has no
      default. */
  function DefaultOf(x: Json): (r: Option<Option<Json>>)
    ensures x.JObj? ==> r == Some(if "value" in x.fields then Some(x.fields["value"]) else None)
  {
    match x
    case JObj(fields) => Some(if "value" in fields then Some(fields["value"]) else None)
    case JStr(s) => if Text.Contains(s, "value") then None else Some(None)
    case JList(items) => if JStr("value") in items then None else Some(None)
    case _ => None
  }

  /** The defaults comprehension: every entry that carries a `"value"`, under its name;
      `None` when some entry makes it raise. */
  function Defaults(config: Config): (r: Option<map<string, Json>>)
    requires DistinctNames(config)
    ensures r.Some? <==> forall k :: 0 <= k < |config| ==> DefaultOf(config[k].1).Some?
    ensures r.Some? ==> forall k :: 0 <= k < |config| ==>
      (config[k].0 in r.value <==> DefaultOf(config[k].1).value.Some?)
    ensures r.Some? ==> forall k :: 0 <= k < |config| && config[k].0 in r.value ==>
      r.value[config[k].0] == DefaultOf(config[k].1).value.value
    ensures r.Some? ==> forall name :: name in r.value ==> exists k :: 0 <= k < |config| && config[k].0 == name
  {
    if config == [] then Some(map[])
    else
      var init := config[..|config| - 1];
      assert forall k :: 0 <= k < |init| ==> init[k] == config[k];
      var d := Defaults(init);
      var name, item := config[|config| - 1].0, config[|config| - 1].1;
      var v := DefaultOf(item);
      if d.None? || v.None? then None
      else if v.value.Some? then Some(d.value[name := v.value.value])
      else Some(d.value)
  }

  /** `base_settings.update(settings)`: a saved value wins over the default. */
  function Merge(defaults: map<string, Json>, saved: map<string, Json>): (m: map<string, Json>)
    ensures m.Keys == defaults.Keys + saved.Keys
    ensures forall k :: k in saved ==> m[k] == saved[k]
    ensures forall k :: k in defaults && k !in saved ==> m[k] == defaults[k]
  {
    defaults + saved
  }

  /** One element of the sequence `dict.update` consumes when handed something other than
      a dict: a two-item list whose first item is a string key, or a two-character string
      (a one-character key and value). `None` where `update` raises (an element that is not
      a pair, or whose key cannot be hashed) and for the pairs it accepts that this model
      does not hold (see the README). */
  function PairOf(item: Json): (p: Option<(string, Json)>)
    ensures item.JStr? && |item.s| != 2 ==> p.None?
    ensures item.JList? && |item.items| == 2 && !Hashable(item.items[0]) ==> p.None?
  {
    match item
    case JList(kv) => if |kv| == 2 && kv[0].JStr? then Some((kv[0].s, kv[1])) else None
    case JStr(s) => if |s| == 2 then Some(([s[0]], JStr([s[1]]))) else None
    case _ => None
  }

  /** The `k`-th element is a pair, and no later pair has the same key. */
  predicate LastWithKey(items: seq<Json>, k: int) {
    && 0 <= k < |items| && PairOf(items[k]).Some?
    && forall j :: k < j < |items| && PairOf(items[j]).Some? ==> PairOf(items[j]).value.0 != PairOf(items[k]).value.0
  }

  /** `update` over a sequence of pairs: every element must be a pair, and a later pair
      overwrites an earlier one with the same key. */
  function PairsOf(items: seq<Json>): (r: Option<map<string, Json>>)
    ensures r.Some? <==> forall k :: 0 <= k < |items| ==> PairOf(items[k]).Some?
    decreases |items|
  {
    if items == [] then Some(map[])
    else
      var n := |items| - 1;
      var init := PairsOf(items[..n]);
      var p := PairOf(items[n]);
      assert forall k :: 0 <= k < n ==> items[..n][k] == items[k];
      if init.None? || p.None? then None else Some(init.value[p.value.0 := p.value.1])
  }

  /** The keys `update` adds are exactly the keys of the pairs. */
  lemma {:induction false} PairsOfKeys(items: seq<Json>)
    requires PairsOf(items).Some?
    ensures forall key :: key in PairsOf(items).value <==> exists k :: 0 <= k < |items| && PairOf(items[k]).value.0 == key
    decreases |items|
  {
    if items != [] {
      var n := |items| - 1;
      var init := items[..n];
      assert forall k :: 0 <= k < n ==> init[k] == items[k];
      PairsOfKeys(init);
      var m, p := PairsOf(init).value, PairOf(items[n]).value;
      assert PairsOf(items).value == m[p.0 := p.1];
      forall key | key in PairsOf(items).value
        ensures exists k :: 0 <= k < |items| && PairOf(items[k]).value.0 == key
      {
        if key != p.0 {
          var k :| 0 <= k < |init| && PairOf(init[k]).value.0 == key;
          assert PairOf(items[k]).value.0 == key;
        }
      }
      forall k | 0 <= k < |items|
        ensures PairOf(items[k]).value.0 in PairsOf(items).value
      {
        if k < n {
          assert PairOf(init[k]).value.0 in m;
        }
      }
    }
  }

  /** Each key holds the value of the last pair with that key. */
  lemma {:induction false} PairsOfLastWins(items: seq<Json>)
    requires PairsOf(items).Some?
    ensures forall k :: LastWithKey(items, k) ==>
      && PairOf(items[k]).value.0 in PairsOf(items).value
      && PairsOf(items).value[PairOf(items[k]).value.0] == PairOf(items[k]).value.1
    decreases |items|
  {
    if items != [] {
      var n := |items| - 1;
      var init := items[..n];
      assert forall k :: 0 <= k < n ==> init[k] == items[k];
      PairsOfLastWins(init);
      var m, p := PairsOf(init).value, PairOf(items[n]).value;
      assert PairsOf(items).value == m[p.0 := p.1];
      forall k | LastWithKey(items, k) && k < n
        ensures PairOf(items[k]).value.0 in PairsOf(items).value
        ensures PairsOf(items).value[PairOf(items[k]).value.0] == PairOf(items[k]).value.1
      {
        assert LastWithKey(init, k);
      }
    }
  }

  /** `base_settings.update(settings)` with the saved file's value: a dict's entries; an
      empty string or list adds nothing; a list of pairs adds them in order; `None` where
      `update` raises (any other string, a number, a boolean, `null`). */
  function SavedUpdate(saved: Json): (r: Option<map<string, Json>>)
    ensures saved.JObj? ==> r == Some(saved.fields)
    ensures saved == JStr("") || saved == JList([]) ==> r == Some(map[])
    ensures saved.JStr? && saved.s != "" ==> r.None?
    ensures saved.JNull? || saved.JBool? || saved.JInt? ==> r.None?
    ensures saved.JList? ==> r == PairsOf(saved.items)
  {
    match saved
    case JObj(fields) => Some(fields)
    case JList(items) => PairsOf(items)
    case JStr(s) => if s == "" then Some(map[]) else None
    case _ => None
  }

  class ShimScript {
    /** `dock_commons is not None`. */
    var commonsLoaded: bool
    /** `delayed_settings_upload`. */
    var delayedSettings: Option<map<string, Json>>
    /** `delayed_initial_state` (`JNull` for `None`). */
    var delayedState: Json
    /** The callables `add_button` put in `globals()`, by function name. */
    var buttons: map<Json, string>
    /** Every call made into the commons module, in order. */
    var forwarded: seq<CommonsCall>

    /** Module load: the commons import either works or leaves `dock_commons` at `None`. */
    constructor (importOk: bool)
      ensures commonsLoaded == importOk && delayedSettings.None? && delayedState == JNull
      ensures buttons == map[] && forwarded == []
    {
      commonsLoaded := importOk;
      delayedSettings := None;
      delayedState := JNull;
      buttons := map[];
      forwarded := [];
    }

    /** The registration loop of `Init`: every entry but `output_file` must have a `type`,
        and each button entry registers its `function` under the entry's name. Returns the
        entry that raised, if one did; the buttons registered before it stay. */
    method RegisterButtons(c: Config) returns (failedAt: Option<nat>)
      modifies this`buttons
      ensures failedAt.None? ==> (forall k :: 0 <= k < |c| ==> EntryOk(c[k])) && buttons == old(buttons) + Buttons(c)
      ensures failedAt.Some? ==>
        && failedAt.value < |c|
        && !EntryOk(c[failedAt.value])
        && (forall k :: 0 <= k < failedAt.value ==> EntryOk(c[k]))
        && buttons == old(buttons) + Buttons(c[..failedAt.value])
    {
      var i := 0;
      while i < |c|
        invariant 0 <= i <= |c|
        invariant forall k :: 0 <= k < i ==> EntryOk(c[k])
        invariant buttons == old(buttons) + Buttons(c[..i])
      {
        var name, item := c[i].0, c[i].1;
        if name != OutputFile {
          if !Typed(item) {
            return Some(i);
          }
          if IsButton(item) {
            if !HasField(item, "function") || !Hashable(item.fields["function"]) {
              return Some(i);
            }
            UpdateUnion(old(buttons), Buttons(c[..i]), item.fields["function"], name);
            buttons := buttons[item.fields["function"] := name];
          }
        }
        ButtonsStep(c, i);
        i := i + 1;
      }
      assert c[..|c|] == c;
      return None;
    }

    /** `Init`: nothing without a UI config; otherwise register the buttons (skipping
        `output_file`), then collect the defaults and let the saved settings (absent file:
        none) override them; the result waits for the next `Tick`. Returns whether it
        raised, in which case the buttons registered so far stay. */
    method Init(config: Option<Config>, saved: Option<Json>) returns (raised: bool)
      requires config.Some? ==> DistinctNames(config.value)
      modifies this`buttons, this`delayedSettings
      ensures config.None? ==> !raised && buttons == old(buttons) && delayedSettings == old(delayedSettings)
      ensures config.Some? && !raised ==>
        && (forall k :: 0 <= k < |config.value| ==> EntryOk(config.value[k]))
        && buttons == old(buttons) + Buttons(config.value)
        && Defaults(config.value).Some?
        && (saved.None? || SavedUpdate(saved.value).Some?)
        && delayedSettings == Some(Merge(Defaults(config.value).value, if saved.Some? then SavedUpdate(saved.value).value else map[]))
      ensures raised ==> config.Some? && delayedSettings == old(delayedSettings)
      ensures config.Some? && (forall k :: 0 <= k < |config.value| ==> EntryOk(config.value[k])) ==>
        (raised <==> Defaults(config.value).None? || (saved.Some? && SavedUpdate(saved.value).None?))
    {
      if config.None? {
        return false;
      }
      var failedAt := RegisterButtons(config.value);
      if failedAt.Some? {
        return true;
      }
      var defaults := Defaults(config.value);
      if defaults.None? {
        return true;
      }
      var settings: map<string, Json> := map[];
      if saved.Some? {
        var update := SavedUpdate(saved.value);
        if update.None? {
          return true;
        }
        settings := update.value;
      }
      delayedSettings := Some(Merge(defaults.value, settings));
      raised := false;
    }

    /** `Tick`: try the commons import if it failed before (and give up for this tick if it
        fails again); then forward pending settings once, and a pending toggle state only
        if it is truthy. */
    method Tick(importOk: bool)
      modifies this`commonsLoaded, this`delayedSettings, this`delayedState, this`forwarded
      ensures commonsLoaded == (old(commonsLoaded) || importOk)
      ensures !commonsLoaded ==> unchanged(this)
      ensures commonsLoaded ==>
        && delayedSettings.None?
        && delayedState == (if Truthy(old(delayedState)) then JNull else old(delayedState))
        && forwarded == old(forwarded)
             + (if old(delayedSettings).Some? then [InitialSettings(old(delayedSettings).value)] else [])
             + (if Truthy(old(delayedState)) then [InitialState(old(delayedState))] else [])
    {
      if !commonsLoaded {
        if !importOk {
          return;
        }
        commonsLoaded := true;
      }
      if delayedSettings.Some? {
        forwarded := forwarded + [InitialSettings(delayedSettings.value)];
        delayedSettings := None;
      }
      if Truthy(delayedState) {
        forwarded := forwarded + [InitialState(delayedState)];
        delayedState := JNull;
      }
    }

    /** The callable `add_button` registered for `action`: it imports the commons module
        if that is still missing (a failed import raises out of the call) and forwards the
        button's function and UI element name. */
    method PressButton(action: Json, importOk: bool) returns (raised: bool)
      requires action in buttons
      modifies this`commonsLoaded, this`forwarded
      ensures raised <==> !old(commonsLoaded) && !importOk
      ensures commonsLoaded == (old(commonsLoaded) || importOk)
      ensures !raised ==> forwarded == old(forwarded) + [Button(action, buttons[action])]
      ensures raised ==> forwarded == old(forwarded)
    {
      if !commonsLoaded {
        if !importOk {
          return true;
        }
        commonsLoaded := true;
      }
      forwarded := forwarded + [Button(action, buttons[action])];
      return false;
    }

    /** `ReloadSettings`: forwarded at once; without the commons module the attribute
        lookup on `None` raises. */
    method ReloadSettingsCall(data: Json) returns (raised: bool)
      modifies this`forwarded
      ensures raised <==> !commonsLoaded
      ensures !raised ==> forwarded == old(forwarded) + [SettingsReloaded(data)]
      ensures raised ==> forwarded == old(forwarded)
    {
      if !commonsLoaded {
        return true;
      }
      forwarded := forwarded + [SettingsReloaded(data)];
      return false;
    }

    /** `ScriptToggled`: forward at once when the commons module is there, otherwise keep
        the state for `Tick`. */
    method ScriptToggledCall(state: Json)
      modifies this`delayedState, this`forwarded
      ensures commonsLoaded ==> forwarded == old(forwarded) + [ScriptToggled(state)] && delayedState == old(delayedState)
      ensures !commonsLoaded ==> forwarded == old(forwarded) && delayedState == state
    {
      if commonsLoaded {
        forwarded := forwarded + [ScriptToggled(state)];
      } else {
        delayedState := state;
      }
    }
  }

  /** The defaults hold exactly the entries that carry a `"value"`. */
  lemma DefaultsExactly(config: Config, name: string)
    requires DistinctNames(config) && Defaults(config).Some?
    requires forall k :: 0 <= k < |config| ==> config[k].1.JObj?
    ensures name in Defaults(config).value <==>
      exists k :: 0 <= k < |config| && config[k].0 == name && "value" in config[k].1.fields
  {
    if name in Defaults(config).value {
      var k :| 0 <= k < |config| && config[k].0 == name;
    }
  }

  /** A settings file saved by the bot wins over every default, key by key, and a default
      survives only where nothing was saved. */
  lemma SavedWins(config: Config, saved: map<string, Json>, name: string)
    requires DistinctNames(config) && Defaults(config).Some?
    ensures name in saved ==> Merge(Defaults(config).value, saved)[name] == saved[name]
    ensures forall k :: 0 <= k < |config| && config[k].0 == name && name !in saved && config[k].1.JObj? && "value" in config[k].1.fields ==>
      Merge(Defaults(config).value, saved)[name] == config[k].1.fields["value"]
  {
  }
}

=== FILE: text.dfy ===
/** The few Python string operations the scripts rely on: `strip`, `split`,
    `replace`, `in` on strings, `int(str)` and `str(int)`. */
module Text {
  import opened Wrappers

  const Whitespace: set<char> := {' ', '\t', '\n', '\r', '\U{000B}', '\U{000C}'}

  predicate IsDigit(c: char) { '0' <= c <= '9' }

  predicate AllDigits(s: string) { forall i :: 0 <= i < |s| ==> IsDigit(s[i]) }

  function DigitValue(c: char): (d: nat)
    requires IsDigit(c)
    ensures d < 10
  {
    (c as int - '0' as int) as nat
  }

  function DigitChar(d: nat): (c: char)
    requires d < 10
    ensures IsDigit(c) && DigitValue(c) == d
  {
    ('0' as int + d) as char
  }

  /** The value of a run of decimal digits (leading zeros allowed, as in `int("007")`). */
  function DigitsValue(s: string): nat
    requires AllDigits(s)
  {
    if s == [] then 0 else DigitsValue(s[..|s| - 1]) * 10 + DigitValue(s[|s| - 1])
  }

  /** `str(n)` for a non-negative integer. */
  function NatToString(n: nat): (s: string)
    ensures |s| > 0 && AllDigits(s)
  {
    if n < 10 then [DigitChar(n)] else NatToString(n / 10) + [DigitChar(n % 10)]
  }

  /** `str(n)`. */
  function IntToString(n: int): string {
    if n < 0 then "-" + NatToString(-n) else NatToString(n)
  }

  // ---- strip -------------------------------------------------------------

  /** How many characters of `cs` lead `s`. */
  function LeadingCount(s: string, cs: set<char>): (n: nat)
    ensures n <= |s|
    ensures forall k :: 0 <= k < n ==> s[k] in cs
    ensures n < |s| ==> s[n] !in cs
  {
    if s != [] && s[0] in cs then
      var n := 1 + LeadingCount(s[1..], cs);
      assert forall k :: 1 <= k < n ==> s[k] == s[1..][k - 1];
      n
    else 0
  }

  /** How many characters of `cs` end `s`. */
  function TrailingCount(s: string, cs: set<char>): (n: nat)
    ensures n <= |s|
    ensures forall k :: |s| - n <= k < |s| ==> s[k] in cs
    ensures n < |s| ==> s[|s| - 1 - n] !in cs
  {
    if s != [] && s[|s| - 1] in cs then
      var n := 1 + TrailingCount(s[..|s| - 1], cs);
      assert forall k :: |s| - n <= k < |s| - 1 ==> s[k] == s[..|s| - 1][k];
      n
    else 0
  }

  /** `s.strip(cs)`: removes characters of `cs` from both ends and nowhere else. */
  function Strip(s: string, cs: set<char>): (r: string)
  {
    var l := s[LeadingCount(s, cs)..];
    l[..|l| - TrailingCount(l, cs)]
  }

  /** Stripping keeps a contiguous middle part of `s`: everything cut off on either side
      is in `cs`, and the kept part neither starts nor ends with a character of `cs`. */
  lemma StripShape(s: string, cs: set<char>)
    ensures var i, r := LeadingCount(s, cs), Strip(s, cs);
      && i + |r| <= |s|
      && r == s[i..i + |r|]
      && (forall k :: 0 <= k < i ==> s[k] in cs)
      && (forall k :: i + |r| <= k < |s| ==> s[k] in cs)
      && (r != [] ==> r[0] !in cs && r[|r| - 1] !in cs)
  {
    var i := LeadingCount(s, cs);
    var l := s[i..];
    var t := TrailingCount(l, cs);
    var r := l[..|l| - t];
    assert r == Strip(s, cs);
    SliceOfSlice(s, i, |r|);
    TailOfSlice(s, i, |r|, cs);
    if r != [] {
      assert r[0] == s[i];
      assert r[|r| - 1] == l[|l| - 1 - t];
    }
  }

  lemma SliceOfSlice(s: string, i: nat, m: nat)
    requires i + m <= |s|
    ensures s[i..][..m] == s[i..i + m]
  {
  }

  lemma TailOfSlice(s: string, i: nat, m: nat, cs: set<char>)
    requires i + m <= |s|
    requires forall k :: |s[i..]| - (|s| - i - m) <= k < |s[i..]| ==> s[i..][k] in cs
    ensures forall k :: i + m <= k < |s| ==> s[k] in cs
  {
    forall k | i + m <= k < |s|
      ensures s[k] in cs
    {
      assert s[k] == s[i..][k - i];
    }
  }

  /** A string that neither starts nor ends with a character of `cs` is left alone. */
  lemma StripUnchanged(s: string, cs: set<char>)
    requires s != [] ==> s[0] !in cs && s[|s| - 1] !in cs
    ensures Strip(s, cs) == s
  {
  }

  /** Characters of `cs` appended to a string that neither starts nor ends with one are
      stripped off again. */
  lemma StripPadding(s: string, pad: string, cs: set<char>)
    requires s != [] && s[0] !in cs && s[|s| - 1] !in cs
    requires forall k :: 0 <= k < |pad| ==> pad[k] in cs
    ensures Strip(s + pad, cs) == s
  {
    assert (s + pad)[0] == s[0];
    assert LeadingCount(s + pad, cs) == 0;
    assert (s + pad)[0..] == s + pad;
    TrailingPad(s, pad, cs);
    StripUnchanged(s, cs);
  }

  // ---- int(str) ----------------------------------------------------------

  /** Python's `int(s)` on a string: surrounding whitespace, an optional sign, then at
      least one decimal digit; `None` where Python raises ValueError. */
  function ParseInt(s: string): (r: Option<int>)
  {
    var t := Strip(s, Whitespace);
    if t != [] && (t[0] == '-' || t[0] == '+') then
      var d := t[1..];
      if d != [] && AllDigits(d) then
        var v: int := DigitsValue(d);
        Some(if t[0] == '-' then -v else v)
      else None
    else if t != [] && AllDigits(t) then Some(DigitsValue(t))
    else None
  }

  /** Stripping whitespace first changes nothing about what `int` makes of a string. */
  lemma ParseIntOfStripped(s: string)
    ensures ParseInt(Strip(s, Whitespace)) == ParseInt(s)
  {
    StripShape(s, Whitespace);
    StripUnchanged(Strip(s, Whitespace), Whitespace);
  }

  /** `int` needs at least one decimal digit: text without any is refused. */
  lemma NoDigitsNoInt(s: string)
    requires forall k :: 0 <= k < |s| ==> !IsDigit(s[k])
    ensures ParseInt(s) == None
  {
    StripShape(s, Whitespace);
    var i, t := LeadingCount(s, Whitespace), Strip(s, Whitespace);
    assert forall k :: 0 <= k < |t| ==> t[k] == s[i + k];
    if |t| > 1 {
      assert t[1..][0] == t[1];
    }
  }

  lemma {:induction false} DigitsOfNat(n: nat)
    ensures DigitsValue(NatToString(n)) == n
  {
    if n >= 10 {
      DigitsOfNat(n / 10);
      var s := NatToString(n);
      assert s[..|s| - 1] == NatToString(n / 10);
    }
  }

  /** `int(str(n)) == n`: what a writer puts in a lockfile, a reader gets back. */
  lemma IntRoundTrip(n: int)
    ensures ParseInt(IntToString(n)) == Some(n)
  {
    var s := IntToString(n);
    if n < 0 {
      DigitsOfNat(-n);
      var d := NatToString(-n);
      assert s == "-" + d;
      assert s[|s| - 1] == d[|d| - 1] && IsDigit(d[|d| - 1]);
      StripUnchanged(s, Whitespace);
      assert Strip(s, Whitespace) == s;
      assert s[0] == '-' && s[1..] == d;
    } else {
      DigitsOfNat(n);
      assert IsDigit(s[0]) && IsDigit(s[|s| - 1]);
      StripUnchanged(s, Whitespace);
      assert Strip(s, Whitespace) == s;
    }
  }

  /** Surrounding whitespace does not change what `int()` reads. */
  lemma ParseIntIgnoresPadding(s: string, pad: string)
    requires forall k :: 0 <= k < |pad| ==> pad[k] in Whitespace
    ensures ParseInt(s + pad) == ParseInt(s)
  {
    StripIgnoresPadding(s, pad, Whitespace);
  }

  /** Characters of `cs` appended to any string make no difference once it is stripped. */
  lemma StripIgnoresPadding(s: string, pad: string, cs: set<char>)
    requires forall k :: 0 <= k < |pad| ==> pad[k] in cs
    ensures Strip(s + pad, cs) == Strip(s, cs)
  {
    var u := s + pad;
    var l := LeadingCount(u, cs);
    if l >= |s| {
      assert forall k :: 0 <= k < |s| ==> s[k] == u[k];
      assert LeadingCount(s, cs) == |s|;
      assert forall k :: |s| <= k < |u| ==> u[k] in cs;
      assert l == |u|;
    } else {
      assert u[l..] == s[l..] + pad;
      assert LeadingCount(s, cs) == l by {
        LeadingSame(s, pad, cs);
      }
      TrailingPad(s[l..], pad, cs);
    }
  }

  lemma {:induction false} LeadingSame(s: string, pad: string, cs: set<char>)
    requires LeadingCount(s + pad, cs) < |s|
    ensures LeadingCount(s, cs) == LeadingCount(s + pad, cs)
  {
    if s != [] && s[0] in cs {
      assert (s + pad)[1..] == s[1..] + pad;
      LeadingSame(s[1..], pad, cs);
    }
  }

  lemma {:induction false} TrailingPad(s: string, pad: string, cs: set<char>)
    requires forall k :: 0 <= k < |pad| ==> pad[k] in cs
    ensures var u := s + pad; u[..|u| - TrailingCount(u, cs)] == s[..|s| - TrailingCount(s, cs)]
  {
    if pad == [] {
      assert s + pad == s;
    } else {
      var u := s + pad;
      var u' := u[..|u| - 1];
      assert u' == s + pad[..|pad| - 1];
      assert u[|u| - 1] == pad[|pad| - 1];
      TrailingPad(s, pad[..|pad| - 1], cs);
      var n := TrailingCount(u', cs);
      assert TrailingCount(u, cs) == 1 + n;
      assert u[..|u| - (1 + n)] == u'[..|u'| - n];
    }
  }

  // ---- split ---------------------------------------------------------------

  function IndexOf(s: string, c: char): (i: nat)
    requires c in s
    ensures i < |s| && s[i] == c && c !in s[..i]
  {
    if s[0] == c then 0
    else
      var i := 1 + IndexOf(s[1..], c);
      assert s[..i] == [s[0]] + s[1..][..i - 1];
      i
  }

  /** `s.split(c)` for a one-character separator. */
  function Split(s: string, c: char): (parts: seq<string>)
    ensures |parts| >= 1
    ensures forall k :: 0 <= k < |parts| ==> c !in parts[k]
    decreases |s|
  {
    if c !in s then [s]
    else
      var i := IndexOf(s, c);
      [s[..i]] + Split(s[i + 1..], c)
  }

  /** `c.join(parts)`. */
  function Join(parts: seq<string>, c: char): string
    requires |parts| >= 1
  {
    if |parts| == 1 then parts[0] else parts[0] + [c] + Join(parts[1..], c)
  }

  /** Splitting and joining again gives back the original string. */
  lemma {:induction false} SplitJoin(s: string, c: char)
    ensures Join(Split(s, c), c) == s
    decreases |s|
  {
    if c in s {
      var i := IndexOf(s, c);
      SplitJoin(s[i + 1..], c);
      var parts := Split(s, c);
      assert parts == [s[..i]] + Split(s[i + 1..], c);
      assert parts[0] == s[..i] && parts[1..] == Split(s[i + 1..], c);
      assert Join(parts, c) == s[..i] + [c] + s[i + 1..];
      assert s == s[..i] + [c] + s[i + 1..];
    }
  }

  /** Joining separator-free parts and splitting again gives back the parts. */
  lemma {:induction false} JoinSplit(parts: seq<string>, c: char)
    requires |parts| >= 1
    requires forall k :: 0 <= k < |parts| ==> c !in parts[k]
    ensures Split(Join(parts, c), c) == parts
  {
    if |parts| > 1 {
      var s := Join(parts, c);
      var p := parts[0];
      assert s == p + [c] + Join(parts[1..], c);
      assert c in s by { assert s[|p|] == c; }
      assert s[..|p|] == p;
      assert IndexOf(s, c) == |p|;
      assert s[..|p|] == p;
      assert s[|p| + 1..] == Join(parts[1..], c);
      JoinSplit(parts[1..], c);
      assert Split(s, c) == [p] + Split(Join(parts[1..], c), c);
    }
  }

  // ---- substring and replace -------------------------------------------------

  /** Python's `p in s` on two strings. */
  predicate Contains(s: string, p: string)
    decreases |s|
  {
    p <= s || (s != [] && Contains(s[1..], p))
  }

  /** `s.replace(p, r)` for a non-empty pattern: left to right, non-overlapping. */
  function Replace(s: string, p: string, r: string): string
    requires p != []
    decreases |s|
  {
    if |s| < |p| then s
    else if p <= s then r + Replace(s[|p|..], p, r)
    else [s[0]] + Replace(s[1..], p, r)
  }

  /** A string without the pattern's first character is returned unchanged. */
  lemma {:induction false} ReplaceAbsent(s: string, p: string, r: string)
    requires p != [] && p[0] !in s
    ensures Replace(s, p, r) == s
    decreases |s|
  {
    if |s| >= |p| {
      assert s[0] != p[0];
      ReplaceAbsent(s[1..], p, r);
    }
  }

  /** Text before the first possible match start passes through untouched. */
  lemma {:induction false} ReplaceSkips(a: string, t: string, p: string, r: string)
    requires p != [] && p[0] !in a
    ensures Replace(a + t, p, r) == a + Replace(t, p, r)
    decreases |a|
  {
    if a != [] {
      var s := a + t;
      assert s[0] == a[0] && s[1..] == a[1..] + t;
      ReplaceSkips(a[1..], t, p, r);
      if |s| < |p| {
        // no match can start in a string shorter than the pattern
        ReplaceShort(t, p, r);
        ReplaceShort(s, p, r);
      } else {
        assert s[0] != p[0];
        assert !(p <= s);
        var rest := Replace(t, p, r);
        assert Replace(s[1..], p, r) == a[1..] + rest;
        assert Replace(s, p, r) == [a[0]] + (a[1..] + rest);
        assert [a[0]] + (a[1..] + rest) == a + rest;
      }
    } else {
      assert a + t == t;
    }
  }

  lemma ReplaceShort(s: string, p: string, r: string)
    requires p != [] && |s| < |p|
    ensures Replace(s, p, r) == s
  {
  }

  /** A match at the front is replaced and the scan goes on after it. */
  lemma ReplaceFront(t: string, p: string, r: string)
    requires p != []
    ensures Replace(p + t, p, r) == r + Replace(t, p, r)
  {
    assert (p + t)[|p|..] == t;
  }
}

=== FILE: values.dfy ===
/** JSON values exchanged over the loopback channel, and listener handles. */
module Values {

  /** A decoded JSON document; `JNull` also stands for Python's `None`. */
  datatype Json =
    | JNull
    | JBool(b: bool)
    | JInt(i: int)
    | JStr(s: string)
    | JList(items: seq<Json>)
    | JObj(fields: map<string, Json>)

  /** Python truthiness of a decoded value. */
  predicate Truthy(j: Json) {
    match j
    case JNull => false
    case JBool(b) => b
    case JInt(i) => i != 0
    case JStr(s) => s != ""
    case JList(items) => items != []
    case JObj(fields) => fields != map[]
  }

  /** `key in j` for a decoded object; indexing anything else raises in Python. */
  predicate HasField(j: Json, key: string) {
    j.JObj? && key in j.fields
  }

  /** Whether Python can hash the decoded value (use it as a dict key or look it up in a
      dict): lists and dicts cannot. */
  predicate Hashable(j: Json) { !j.JList? && !j.JObj? }

  /** A listener callable, identified by the object that owns it and the method name.
      Two handles are equal exactly when Python's `==` on the bound callables is true. */
  datatype Handler = Handler(owner: string, name: string)

  /** `list.remove(x)` where a miss is tolerated: the first occurrence dropped. */
  function RemoveFirst<T(==)>(s: seq<T>, x: T): (r: seq<T>)
    ensures x !in s ==> r == s
    ensures x in s ==> |r| == |s| - 1
  {
    if s == [] then []
    else if s[0] == x then s[1..]
    else [s[0]] + RemoveFirst(s[1..], x)
  }

  /** Exactly one occurrence of `x` goes, when there is one, and nothing else. */
  lemma {:induction false} RemoveFirstCount<T>(s: seq<T>, x: T)
    ensures multiset(RemoveFirst(s, x)) == multiset(s) - multiset{x}
    decreases |s|
  {
    if s != [] {
      assert s == [s[0]] + s[1..];
      RemoveFirstCount(s[1..], x);
    }
  }

  /** Removing what was just appended, when it was not already there, gives the list back. */
  lemma {:induction false} RemoveLast<T>(s: seq<T>, x: T)
    requires x !in s
    ensures RemoveFirst(s + [x], x) == s
    decreases |s|
  {
    if s == [] {
      assert s + [x] == [x];
    } else {
      assert (s + [x])[1..] == s[1..] + [x];
      RemoveLast(s[1..], x);
    }
  }
}

=== FILE: wrappers.dfy ===
/** The optional value shared by every module of the model. */
module Wrappers {

  /** A value that may be absent (Python's `None`). */
  datatype Option<+T> = None | Some(value: T)
}

=== FILE: wraptor.dfy ===
/** The installer that ships with a plugin (ideal_plugin_look/wraptor_StreamlabsSystem.py):
    on its first tick it looks for a dock, running or installed, reads its version, and
    installs the dock when none is found or the plugin's version constraint is not met. */
module Wraptor {
  import opened Wrappers
  import opened Values
  import opened Text

  /** A version as Python compares it: a tuple of integers. */
  type Version = seq<int>

  /** The release markers `parse_version_string` strips from both ends. */
  const Markers: set<char> := {'a', 'b', 'c', 'r'}

  /** `int(x)` for each part, in order; `None` as soon as one raises. */
  function ParseParts(parts: seq<string>): (r: Option<seq<int>>)
    ensures r.Some? <==> forall k :: 0 <= k < |parts| ==> ParseInt(parts[k]).Some?
    ensures r.Some? ==> |r.value| == |parts| && forall k :: 0 <= k < |parts| ==> r.value[k] == ParseInt(parts[k]).value
  {
    if parts == [] then Some([])
    else
      var h := ParseInt(parts[0]);
      var t := ParseParts(parts[1..]);
      if h.None? || t.None? then None else Some([h.value] + t.value)
  }

  /** `parse_version_string`: strip the markers, split on dots, read each part; `None`
      where Python raises ValueError, including for any count of parts other than three. */
  function ParseVersionString(v: string): (r: Option<Version>)
    ensures r.Some? ==> |r.value| == 3
    ensures r.Some? <==>
      && |Split(Strip(v, Markers), '.')| == 3
      && ParseParts(Split(Strip(v, Markers), '.')).Some?
  {
    var parts := Split(Strip(v, Markers), '.');
    var nums := ParseParts(parts);
    if nums.None? || |nums.value| != 3 then None else nums
  }

  /** How a three-part version is written: its parts in decimal, joined by dots. */
  function Render(v: Version): string
    requires |v| == 3
  {
    IntToString(v[0]) + "." + IntToString(v[1]) + "." + IntToString(v[2])
  }

  lemma JoinThree(x: string, y: string, z: string, c: char)
    ensures Join([x, y, z], c) == x + [c] + y + [c] + z
  {
    assert [x, y, z][1..] == [y, z];
    assert [y, z][1..] == [z];
    assert Join([z], c) == z;
    assert Join([y, z], c) == y + [c] + z;
    assert Join([x, y, z], c) == x + [c] + (y + [c] + z);
  }

  /** Three dot-free parts that each read as an integer, where the first does not start
      and the last does not end with a marker, read back as a version. */
  lemma ThreePartsParse(x: string, y: string, z: string, marker: string, v: Version)
    requires x != [] && x[0] !in Markers && z != [] && z[|z| - 1] !in Markers
    requires '.' !in x && '.' !in y && '.' !in z
    requires |v| == 3 && ParseInt(x) == Some(v[0]) && ParseInt(y) == Some(v[1]) && ParseInt(z) == Some(v[2])
    requires forall k :: 0 <= k < |marker| ==> marker[k] in Markers
    ensures ParseVersionString(x + "." + y + "." + z + marker) == Some(v)
  {
    var s := x + "." + y + "." + z;
    var w := s + marker;
    assert s[0] == x[0] && s[|s| - 1] == z[|z| - 1];
    StripPadding(s, marker, Markers);
    SplitThree(x, y, z);
    ParseThree(x, y, z, v);
    assert Split(Strip(w, Markers), '.') == [x, y, z];
  }

  lemma SplitThree(x: string, y: string, z: string)
    requires '.' !in x && '.' !in y && '.' !in z
    ensures Split(x + "." + y + "." + z, '.') == [x, y, z]
  {
    JoinThree(x, y, z, '.');
    JoinSplit([x, y, z], '.');
  }

  lemma ParseThree(x: string, y: string, z: string, v: Version)
    requires |v| == 3 && ParseInt(x) == Some(v[0]) && ParseInt(y) == Some(v[1]) && ParseInt(z) == Some(v[2])
    ensures ParseParts([x, y, z]) == Some(v)
  {
    var parts := [x, y, z];
    assert forall k :: 0 <= k < 3 ==> ParseInt(parts[k]).Some?;
    var r := ParseParts(parts);
    assert r.Some? && |r.value| == 3;
    assert forall k :: 0 <= k < 3 ==> r.value[k] == v[k];
    assert r.value == v;
  }

  lemma IntToStringShape(n: int)
    ensures var s := IntToString(n);
      && s != []
      && IsDigit(s[|s| - 1])
      && (IsDigit(s[0]) || s[0] == '-')
      && '.' !in s
  {
    var d := NatToString(if n < 0 then -n else n);
    assert forall k :: 0 <= k < |d| ==> d[k] != '.';
    if n < 0 {
      var s := IntToString(n);
      assert s == "-" + d;
      assert forall k :: 1 <= k < |s| ==> s[k] == d[k - 1];
    }
  }

  /** Every three-part version reads back, also with a release marker such as the `a` of
      `0.1.0a` behind it. */
  lemma VersionRoundTrip(v: Version, marker: string)
    requires |v| == 3
    requires forall k :: 0 <= k < |marker| ==> marker[k] in Markers
    ensures ParseVersionString(Render(v) + marker) == Some(v)
  {
    var x, y, z := IntToString(v[0]), IntToString(v[1]), IntToString(v[2]);
    assert x != [] && x[0] !in Markers && '.' !in x && ParseInt(x) == Some(v[0]) by {
      RenderedPart(v[0]);
    }
    assert '.' !in y && ParseInt(y) == Some(v[1]) by {
      RenderedPart(v[1]);
    }
    assert z != [] && z[|z| - 1] !in Markers && '.' !in z && ParseInt(z) == Some(v[2]) by {
      RenderedPart(v[2]);
    }
    ThreePartsParse(x, y, z, marker, v);
  }

  lemma RenderedPart(n: int)
    ensures var s := IntToString(n);
      && s != [] && s[0] !in Markers && s[|s| - 1] !in Markers && '.' !in s
      && ParseInt(s) == Some(n)
  {
    IntToStringShape(n);
    IntRoundTrip(n);
  }

  /** Python's `<=` on tuples: the first difference decides, and a proper prefix is
      smaller. */
  predicate LexLe(a: Version, b: Version)
    decreases |a|
  {
    if a == [] then true
    else if b == [] then false
    else if a[0] != b[0] then a[0] < b[0]
    else LexLe(a[1..], b[1..])
  }

  /** On three-part versions the comparison is major, then minor, then patch. */
  lemma LexLeTriple(a: Version, b: Version)
    requires |a| == 3 && |b| == 3
    ensures LexLe(a, b) <==>
      || a[0] < b[0]
      || (a[0] == b[0] && a[1] < b[1])
      || (a[0] == b[0] && a[1] == b[1] && a[2] <= b[2])
  {
    var a1, b1 := a[1..], b[1..];
    var a2, b2 := a1[1..], b1[1..];
    assert a2[1..] == [] && b2[1..] == [];
    assert LexLe(a2, b2) <==> a2[0] <= b2[0];
    assert LexLe(a1, b1) <==> a1[0] < b1[0] || (a1[0] == b1[0] && LexLe(a2, b2));
  }

  /** The comparison is a total order. */
  lemma {:induction false} LexLeTotal(a: Version, b: Version)
    ensures LexLe(a, b) || LexLe(b, a)
    ensures LexLe(a, b) && LexLe(b, a) ==> a == b
    decreases |a|
  {
    if a != [] && b != [] && a[0] == b[0] {
      LexLeTotal(a[1..], b[1..]);
      if LexLe(a, b) && LexLe(b, a) {
        assert a == [a[0]] + a[1..] && b == [b[0]] + b[1..];
      }
    }
  }

  lemma {:induction false} LexLeTransitive(a: Version, b: Version, c: Version)
    requires LexLe(a, b) && LexLe(b, c)
    ensures LexLe(a, c)
    decreases |a|
  {
    if a != [] && b != [] && c != [] && a[0] == b[0] && b[0] == c[0] {
      LexLeTransitive(a[1..], b[1..], c[1..]);
    }
  }

  /** The `[min, max]` form of the constraint read with `parse_version_string`; `None`
      where Python raises (not a list of two strings, or a bound that does not parse). */
  function Bounds(required: Json): (r: Option<(Version, Version)>)
    ensures r.Some? <==>
      && required.JList? && |required.items| >= 2
      && required.items[0].JStr? && required.items[1].JStr?
      && ParseVersionString(required.items[0].s).Some?
      && ParseVersionString(required.items[1].s).Some?
    ensures r.Some? ==>
      && r.value.0 == ParseVersionString(required.items[0].s).value
      && r.value.1 == ParseVersionString(required.items[1].s).value
  {
    if !required.JList? || |required.items| < 2 || !required.items[0].JStr? || !required.items[1].JStr? then None
    else
      var min := ParseVersionString(required.items[0].s);
      var max := ParseVersionString(required.items[1].s);
      if min.None? || max.None? then None else Some((min.value, max.value))
  }

  /** `version_meets_constraints` against the plugin's manifest: no constraint accepts
      everything, a string is an inclusive minimum, anything else an inclusive range;
      `None` where Python raises. */
  function MeetsConstraints(manifest: map<string, Json>, version: Version): (r: Option<bool>)
    ensures "required_dock_version" !in manifest ==> r == Some(true)
    ensures "required_dock_version" in manifest && manifest["required_dock_version"].JStr? ==>
      var min := ParseVersionString(manifest["required_dock_version"].s);
      && (r.Some? <==> min.Some?)
      && (r.Some? ==> (r.value <==> LexLe(min.value, version)))
    ensures "required_dock_version" in manifest && !manifest["required_dock_version"].JStr? ==>
      var b := Bounds(manifest["required_dock_version"]);
      && (r.Some? <==> b.Some?)
      && (r.Some? ==> (r.value <==> LexLe(b.value.0, version) && LexLe(version, b.value.1)))
  {
    if "required_dock_version" !in manifest then Some(true)
    else
      var required := manifest["required_dock_version"];
      if required.JStr? then
        var min := ParseVersionString(required.s);
        if min.None? then None else Some(LexLe(min.value, version))
      else
        var b := Bounds(required);
        if b.None? then None else Some(LexLe(b.value.0, version) && LexLe(version, b.value.1))
  }

  /** Both ends of a range constraint are accepted. */
  lemma RangeInclusive(lo: string, hi: string)
    requires ParseVersionString(lo).Some? && ParseVersionString(hi).Some?
    requires LexLe(ParseVersionString(lo).value, ParseVersionString(hi).value)
    ensures var m := map["required_dock_version" := JList([JStr(lo), JStr(hi)])];
      && MeetsConstraints(m, ParseVersionString(lo).value) == Some(true)
      && MeetsConstraints(m, ParseVersionString(hi).value) == Some(true)
  {
    LexLeTotal(ParseVersionString(lo).value, ParseVersionString(lo).value);
    LexLeTotal(ParseVersionString(hi).value, ParseVersionString(hi).value);
  }

  // ---- finding the version of an installed dock --------------------------------------

  const VersionPrefix := "Version = \""

  /** The length of the run of digits `s` starts with. */
  function DigitRun(s: string): (n: nat)
    ensures n <= |s| && AllDigits(s[..n]) && (n < |s| ==> !IsDigit(s[n]))
  {
    if s != [] && IsDigit(s[0]) then
      var n := 1 + DigitRun(s[1..]);
      assert forall k :: 1 <= k < n ==> s[..n][k] == s[1..][..n - 1][k - 1];
      n
    else 0
  }

  /** `\d+\.` at the start of `t`: the digits and what follows the dot. */
  function DottedRun(t: string): (r: Option<(string, string)>)
    ensures r.Some? ==> r.value.0 != [] && AllDigits(r.value.0)
  {
    var a := DigitRun(t);
    if a == 0 || a == |t| || t[a] != '.' then None else Some((t[..a], t[a + 1..]))
  }

  /** `Version = "(\d+\.\d+\.\d+)` matched at the very start of `s` (greedy runs, which
      need no backtracking since digits and dots differ): the three runs. */
  function MatchAt(s: string): (r: Option<(string, string, string)>)
    ensures r.Some? ==> r.value.0 != [] && r.value.1 != [] && r.value.2 != []
    ensures r.Some? ==> AllDigits(r.value.0) && AllDigits(r.value.1) && AllDigits(r.value.2)
  {
    if !(VersionPrefix <= s) then None
    else
      var first := DottedRun(s[|VersionPrefix|..]);
      if first.None? then None
      else
        var second := DottedRun(first.value.1);
        if second.None? then None
        else
          var t3 := second.value.1;
          var c := DigitRun(t3);
          if c == 0 then None else Some((first.value.0, second.value.0, t3[..c]))
  }

  /** `re.search`: the match at the leftmost position where there is one. */
  function FindVersion(file: string): (r: Option<string>)
    ensures r.Some? ==> exists x, y, z ::
      && x != [] && y != [] && z != []
      && AllDigits(x) && AllDigits(y) && AllDigits(z)
      && r.value == x + "." + y + "." + z
    decreases |file|
  {
    var m := MatchAt(file);
    if m.Some? then Some(m.value.0 + "." + m.value.1 + "." + m.value.2)
    else if file == [] then None
    else FindVersion(file[1..])
  }

  lemma DigitsShape(x: string)
    requires x != [] && AllDigits(x)
    ensures ParseInt(x).Some? && '.' !in x && x[0] !in Markers && x[|x| - 1] !in Markers
  {
    StripUnchanged(x, Whitespace);
    assert IsDigit(x[0]) && IsDigit(x[|x| - 1]);
  }

  /** Whatever the search finds has exactly three numeric parts, so reading it never
      raises. */
  lemma FoundVersionParses(file: string)
    requires FindVersion(file).Some?
    ensures ParseVersionString(FindVersion(file).value).Some?
  {
    var x, y, z :|
      && x != [] && y != [] && z != []
      && AllDigits(x) && AllDigits(y) && AllDigits(z)
      && FindVersion(file).value == x + "." + y + "." + z;
    DigitsShape(x);
    DigitsShape(y);
    DigitsShape(z);
    ThreePartsParse(x, y, z, "", [ParseInt(x).value, ParseInt(y).value, ParseInt(z).value]);
    assert x + "." + y + "." + z + "" == x + "." + y + "." + z;
  }

  /** What `test_for_dock` concludes. */
  datatype Probe =
    | Found(version: Version)
    | NotFound
    /** It raised; `runtime` says whether it was the RuntimeError the tick catches. */
    | ProbeRaised(runtime: bool)

  /** `test_for_dock`: a running dock reports its comparable version; otherwise the
      scripts folder is searched for the dock's main file, whose `Version = "x.y.z"` line
      must be there. `running` is the version the dock reported, if it answered;
      `dockMain` the main file's text, `None` when it cannot be read. */
  function TestForDock(running: Option<Version>, dockDirPresent: bool, dockMain: Option<string>): (r: Probe)
    ensures running.Some? ==> r == Found(running.value)
    ensures running.None? && (!dockDirPresent || dockMain.None?) ==> r == NotFound
    ensures r == ProbeRaised(true) <==>
      running.None? && dockDirPresent && dockMain.Some? && FindVersion(dockMain.value).None?
    ensures r != ProbeRaised(false)
    ensures r.Found? && running.None? ==> |r.version| == 3
  {
    if running.Some? then Found(running.value)
    else if !dockDirPresent || dockMain.None? then NotFound
    else
      var found := FindVersion(dockMain.value);
      if found.None? then ProbeRaised(true)
      else
        FoundVersionParses(dockMain.value);
        var v := ParseVersionString(found.value);
        if v.None? then ProbeRaised(false) else Found(v.value)
  }

  class Installer {
    /** `is_tested`. */
    var isTested: bool
    /** How many times the dock was installed. */
    var installs: nat
    /** Message boxes shown to the user. */
    var shown: seq<string>

    constructor ()
      ensures !isTested && installs == 0 && shown == []
    {
      isTested := false;
      installs := 0;
      shown := [];
    }

    /** `Tick`: only the first call checks; it installs the dock when none was found or
        the version misses the constraint, shows the RuntimeError of an unreadable
        install, and lets any other exception escape (`raised`). */
    method Tick(running: Option<Version>, dockDirPresent: bool, dockMain: Option<string>, manifest: map<string, Json>)
      returns (raised: bool)
      modifies this
      ensures isTested
      ensures old(isTested) ==> !raised && installs == old(installs) && shown == old(shown)
      ensures !old(isTested) ==>
        var probe := TestForDock(running, dockDirPresent, dockMain);
        var install := probe.NotFound? || (probe.Found? && MeetsConstraints(manifest, probe.version) == Some(false));
        && (installs == old(installs) + (if install then 1 else 0))
        && (raised <==> probe.Found? && MeetsConstraints(manifest, probe.version).None?)
        && (probe.ProbeRaised? ==> shown == old(shown) + [UnreadableVersion])
        && (install ==> shown == old(shown) + [ReloadNotice])
        && (!install && !probe.ProbeRaised? ==> shown == old(shown))
    {
      if isTested {
        return false;
      }
      isTested := true;
      var probe := TestForDock(running, dockDirPresent, dockMain);
      if probe.ProbeRaised? {
        shown := shown + [UnreadableVersion];
        return false;
      }
      if probe.Found? {
        var meets := MeetsConstraints(manifest, probe.version);
        if meets.None? {
          return true;
        }
        if meets.value {
          return false;
        }
      }
      installs := installs + 1;
      shown := shown + [ReloadNotice];
      raised := false;
    }
  }

  const ReloadNotice := "Please reload the scripts tab to complete load of the plugin dock"
  const UnreadableVersion := "An existing dock install has been detected, but is not running, and it's version cannot be determined. "
    + "If you have manually modified the dock code, please undo your changes. Otherwise, please contact support for the dock."

  /** The dock's own version string, `0.1.0a`, reads as 0.1.0. */
  lemma DockVersionParses()
    ensures ParseVersionString("0.1.0a") == Some([0, 1, 0])
  {
    assert IntToString(0) == "0" && IntToString(1) == "1";
    assert Render([0, 1, 0]) + "a" == "0.1.0a";
    VersionRoundTrip([0, 1, 0], "a");
  }

  /** A run of digits followed by a non-digit, or by nothing, is read in full. */
  lemma {:induction false} RunOf(x: string, u: string)
    requires AllDigits(x) && (u != [] ==> !IsDigit(u[0]))
    ensures DigitRun(x + u) == |x|
  {
    if x != [] {
      assert (x + u)[0] == x[0] && (x + u)[1..] == x[1..] + u;
      RunOf(x[1..], u);
    } else {
      assert x + u == u;
    }
  }

  lemma DottedRunOf(x: string, u: string)
    requires x != [] && AllDigits(x)
    ensures DottedRun(x + ("." + u)) == Some((x, u))
  {
    var t := x + ("." + u);
    RunOf(x, "." + u);
    assert t[..|x|] == x && t[|x|] == '.' && t[|x| + 1..] == u;
  }

  /** The pattern matches a header line `Version = "x.y.z` followed by anything that does
      not continue the last number, and captures `x`, `y` and `z`. */
  lemma MatchHeader(x: string, y: string, z: string, rest: string)
    requires x != [] && y != [] && z != [] && AllDigits(x) && AllDigits(y) && AllDigits(z)
    requires rest != [] ==> !IsDigit(rest[0])
    ensures MatchAt(VersionPrefix + x + "." + y + "." + z + rest) == Some((x, y, z))
  {
    var s := VersionPrefix + x + "." + y + "." + z + rest;
    var t3 := z + rest;
    var t2 := y + ("." + t3);
    var t := x + ("." + t2);
    assert VersionPrefix <= s && s[|VersionPrefix|..] == t;
    DottedRunOf(x, t2);
    DottedRunOf(y, t3);
    RunOf(z, rest);
    assert t3[..|z|] == z;
  }

  /** A file holding such a header line, at its very start, yields that line's version. */
  lemma FindHeader(x: string, y: string, z: string, rest: string)
    requires x != [] && y != [] && z != [] && AllDigits(x) && AllDigits(y) && AllDigits(z)
    requires rest != [] ==> !IsDigit(rest[0])
    ensures FindVersion(VersionPrefix + x + "." + y + "." + z + rest) == Some(x + "." + y + "." + z)
  {
    MatchHeader(x, y, z, rest);
  }
}
